=== FILE: README.md ===
# dim — a Dafny model of its dimension algebra and format engine

`dim` is a C++ library for dimensional analysis. Quantities carry their unit
in the type (`quantity<unit, scalar>`) or at run time (`dynamic_quantity`).
Text input and output goes through a registry of symbol formatters, with
fallbacks to the unit system's own parser and to `print_unit`.

This project models the library's exact, integer-based and sequential core as
pure Dafny functions over immutable datatypes, and proves properties about
that model. The modules follow the library's headers:

| module | file | models |
|---|---|---|
| `Int8` | int8.dfy | `int8_t`/`uint8_t` casts, C++ truncating `/` and `%`, the `long`→`int` narrowing |
| `Units` | unit.dfy | `dynamic_unit`: eight signed exponent bytes packed into a `uint64`, with multiply, inverse, power, ordering and the `bad_unit()` sentinel (src/dim/unit.hpp) |
| `Scalars` | scalar.dfy | scalars as reals with an explicit NaN tag |
| `Quantities` | quantity.dfy | the static unit templates and `quantity` arithmetic, comparison, `root`, `sqrt`, `pow`, `ratpow`; each `static_assert` or `DIM_CHECK_*` becomes a precondition (src/dim/unit.hpp, src/dim/quantity.hpp) |
| `Base` | base.dfy | the older algebra of src/dim/base.hpp: `unit::index()`, `inverse`, `ensure_dimensions_match`, scalar-on-unit operators, `root`/`sqrt`/`ratpow` |
| `DynamicQuantities` | dynamic_quantity.dfy | `dynamic_quantity`: run-time unit checks yielding the NaN `bad_quantity()`, `as<Q>()`, compound and scalar operators, `power` |
| `CharMachines` | char_machine.dfy | `is_float_part`, `is_unit_char` and `advance_past_separator` as transition functions (src/dim/io.cpp) |
| `Extraction` | extract.dfy | the `extract_quantity` tokenizer over a character sequence with a cursor (src/dim/io_stream.cpp) |
| `IoDetail` | io_detail.dfy | `print_unit` and its dimension order, buffer termination, `isseparator`, `parse_unit_dynamic`, the base `parse_standard_rep` |
| `Formatting` | format.dfy | `formatted_quantity` and its symbol buffer, `formatter` (constructor, `index`, `input`, `non_dim`, `output`), `from_chars` (src/dim/io.hpp) |
| `SortedVectors` | sorted_vector.dfy | the sorted-vector map discipline: `detail::find` by `std::lower_bound`, replace-or-append-and-sort, erase |
| `FormatMaps` | format_map.dfy | `input_format_map`, `input_format_map_group`, `output_format_map`, `parse_quantity`, `format_quantity` (src/dim/format_map.hpp) |
| `Facets` | facet.dfy | `quantity_facet`: two-tier lookup and formatter registration and clearing (src/dim/facet.hpp) |
| `IndexMaps` | index_map.dfy | `format_index_map`: a C array searched with `bsearch`, re-sorted with `qsort`, doubling its capacity (src/dim/format_map.cpp) |
| `Powers` | powers.dfy | exact powers of ten |
| `SiParse` | si_parse.dfy | the SI system's `find_si_prefix` and `parse_known_quantity` with their prefix and symbol tables (src/dim/si/parse_unit.cpp) |
| `Options` | options.dfy | the `Option` type |

Things the C++ code takes from outside are parameters of the model functions:
- the value of `std::pow` (`pw`);
- the system's symbol policy (`symbolFor`, `special`);
- its fallback parser `parse_standard_rep` (`standard`);
- `parse_scalar`, that is `std::from_chars` (`parse`);
- `unit_string_scanner` (`Scanner`).

Static units carry a system number, and "compiles" becomes "the precondition
holds". The prefixes of the SI parser are those of the SI Brochure, 9th
edition, section 3, Table 7.

## Where the code departs from its documentation

The model follows the code in each of these cases.
- Exponents are `int8` integers. `root` and `ratpow` divide them with C++
  truncation. They are not rational numbers.
- Registering a symbol that is already present replaces the old entry
  (`insert` overwrites in place). It is not rejected.
- A symbol unknown to a map yields `bad_quantity()`, and the caller then falls
  back to the system parser. No symbol-not-found error is raised, and the
  map does not decompose compound symbols.
- An output map holds one formatter per unit, keyed by the unit alone.
- `non_dim` adds the additive part where its class comment subtracts it. This
  is recorded under Findings. `Formatting.Output`, and through it every
  formatted output (`FormatMaps.Format`, `FormatMaps.FormatQuantity`,
  `Facets.FormatOut`), uses the code's `(q + add) / scale`;
  `Formatting.OutputIntended` is the documented `(q - add) / scale`.
- The SI table spells the lumen and the lux "Im" and "Ix", with a capital I,
  where the SI Brochure has "lm" and "lx". The library uses that spelling
  throughout (src/dim/si/definition.hpp, src/dim/si/si_facet.cpp,
  src/dim/si/literal.hpp and its tests), so `SiParse.ParseKnown` follows it;
  `SiParse.ParseKnownSiBrochure` is the same parser over the Brochure's
  symbols.
- `isseparator` accepts '.', which its doc comment omits.
- The doc comment of `from_chars` (src/dim/io.hpp:258) lists a `no_message`
  code for a zero-length symbol, but the body (src/dim/io.hpp:263-298) never
  sets it. Text such as "1" whose symbol is empty returns the scalar
  parser's code with an empty symbol. `Formatting.FromChars` follows the
  body, and `Formatting.EmptySymbolKeepsParserCode` shows the "1" case.

## Model

| member | source | states |
|---|---|---|
| Int8.Wrap8 | src/dim/unit.hpp:318-327 | `static_cast<int8_t>` of an int result agrees with it modulo 256 and is the identity on values that already fit in a signed byte |
| Int8.ToByte | src/dim/unit.hpp:42-47 | the unsigned byte image of a signed exponent is congruent to it modulo 256 |
| Int8.SignedByteRoundTrip | src/dim/unit.hpp:42-47 | signed-to-unsigned and unsigned-to-signed byte casts are mutually inverse, so packing then reading a byte loses nothing |
| Int8.WrapNegate | src/dim/unit.hpp:318-327 | a wrapped negation is an additive inverse modulo 256 and negating twice restores the exponent, including -128 |
| Int8.WrapAdd | src/dim/unit.hpp:137-150 | wrapping the operands before adding does not change the wrapped sum |
| Int8.WrapAssociates | src/dim/unit.hpp:137-150 | wrapped byte addition is associative |
| Int8.TruncDiv | src/dim/unit.hpp:205-209 | C++ integer division truncates toward zero: quotient times divisor plus the truncated remainder is the dividend, and the remainder has the dividend's sign |
| Int8.TruncMod | src/dim/quantity.hpp:391-398 | C++ `%` is bounded by the divisor's magnitude and carries the sign of the dividend |
| Int8.TruncDivExact | src/dim/quantity.hpp:391-399 | when the `% R == 0` guard holds, truncating division by R is exact |
| Int8.TruncDivOfMultiple | src/dim/base.hpp:92-94 | dividing a multiple of n by n with truncation gives the factor back, whatever the signs |
| Int8.Wrap32 | src/dim/format_map.cpp:49-54 | narrowing a `long` to `int` keeps the value modulo 2^32 in the int32 range, and is the identity on values that fit |
| Units.Make | src/dim/unit.hpp:66-71 | the eight-exponent constructor stores each exponent so that the getter of its dimension reads exactly that exponent back |
| Units.Get | src/dim/unit.hpp:162 | `get(i)` reads dimension i for i below 8 and clamps every larger index to Luminosity |
| Units.SetByte | src/dim/unit.hpp:105-112 | a setter stores its exponent in its own dimension and every other dimension keeps its exponent |
| Units.ReplaceBytes | src/dim/unit.hpp:170-174 | masking out byte i and or-ing in the new byte changes byte i of the code and no other byte |
| Units.Exponents | src/dim/unit.hpp:95-102 | the exponent vector the getters read is the code byte for byte (each exponent's unsigned image is its byte of `raw()`), and constructing from it gives the unit back |
| Units.Raw | src/dim/unit.hpp:92 | byte i of `raw()` is the unsigned image of exponent i |
| Units.ByteAtPack | src/dim/unit.hpp:52-55 | byte i of a packed code is the byte placed at shift 8i |
| Units.UnpackPack | src/dim/unit.hpp:66-71 | reading the bytes of a packed code gives the packed bytes back |
| Units.PackUnpack | src/dim/unit.hpp:60-63 | any code below 2^(8n) is the packing of its own n low bytes |
| Units.Extensionality | src/dim/unit.hpp:115 | two units whose eight exponents agree are equal under `==` |
| Units.MakeExponents | src/dim/unit.hpp:66-102 | constructing from a unit's getters gives the unit back, and the getters of a constructed unit give back the exponents passed |
| Units.RawRoundTrip | src/dim/unit.hpp:60-92 | `dynamic_unit(u.raw()) == u`, and two exponent vectors construct the same unit exactly when they are equal |
| Units.OrderFacts | src/dim/unit.hpp:115-125 | `==` holds exactly when the exponent vectors are equal; `<` is a strict total order; `!=`, `>`, `<=`, `>=` agree with their usual meanings in terms of `==` and `<` |
| Units.DimensionlessExponents | src/dim/unit.hpp:127 | the dimensionless unit has all eight exponents zero, and is the only such unit |
| Units.BadIsAllMinusOne | src/dim/unit.hpp:129-131 | `is_bad()` holds exactly when all eight exponents are -1, so the sentinel is the same unit as the all-(-1) exponent vector |
| Units.MultiplyExponents | src/dim/unit.hpp:137-150 | each exponent of a product is the int8-wrapped sum of the operands' exponents, with no carry between bytes, and each exponent of an inverse is the wrapped negation |
| Units.MultiplyCommutes | src/dim/unit.hpp:137-150 | unit multiplication is commutative |
| Units.MultiplyAssociates | src/dim/unit.hpp:137-150 | unit multiplication is associative despite the wrap-around in each byte |
| Units.MultiplyIdentity | src/dim/unit.hpp:127-150 | multiplying by the dimensionless unit changes nothing |
| Units.MultiplyInverse | src/dim/unit.hpp:315-329 | `u.multiply(inverse(u))` is dimensionless for every u, and inverting twice gives u back |
| Units.QuotientDimensionless | src/dim/unit.hpp:315-329 | a times the inverse of b is dimensionless exactly when a equals b |
| Units.PowAdd | src/dim/unit.hpp:331-343 | `pow(u, m + n)` is `pow(u, m)` times `pow(u, n)`, with int8 truncation in every byte |
| Units.PowSmall | src/dim/unit.hpp:331-343 | power 1 is the identity, power -1 is `inverse`, and power 0 is dimensionless |
| Quantities.Index | src/dim/unit.hpp:182-187 | `index<U>()` is the run-time unit whose exponents are U's template exponents |
| Quantities.IndexInjective | src/dim/unit.hpp:182-187 | two template units have the same index exactly when their exponents agree, whatever their systems |
| Quantities.UnitMultiply | src/dim/unit.hpp:237-243 | the static product unit keeps the first operand's system and its index is the run-time product of the indices |
| Quantities.UnitDivide | src/dim/unit.hpp:225-231 | the static quotient unit plus the divisor's exponents gives the dividend's exponents back |
| Quantities.UnitInverse | src/dim/unit.hpp:16 | `U::inverse` keeps the system and its index is the run-time `inverse` of U's index |
| Quantities.UnitPow | src/dim/unit.hpp:215-219 | `unit_pow_t<U, P>` keeps the system and its index is the run-time `pow(index<U>(), P)` |
| Quantities.UnitRoot | src/dim/unit.hpp:205-209 | `unit_root_t<U, R>` divides every exponent by R with truncation; when R divides an exponent, the result times R is that exponent |
| Quantities.RootOfPow | src/dim/unit.hpp:205-219 | the R-th root of the R-th power of a unit is the unit itself |
| Quantities.CompatibleIsIndexEquality | src/dim/unit.hpp:251-264 | the dimension and system checks admit a pair exactly when the indices agree and the systems agree, i.e. when the two template units are identical |
| Quantities.BadQuantity | src/dim/quantity.hpp:77-80 | `bad_quantity()` is a quantity of the same unit that reports `is_bad()` |
| Quantities.FromUnit | src/dim/quantity.hpp:69-75 | constructing from a unit of matching dimensions and system gives value one in the target unit |
| Quantities.Convert | src/dim/quantity.hpp:62-68 | conversion between quantity types of identical units keeps the value unchanged |
| Quantities.ToScalar | src/dim/quantity.hpp:101-105 | only a quantity whose index is dimensionless converts to a bare scalar, and that scalar is its value |
| Quantities.Negate | src/dim/quantity.hpp:99 | unary minus keeps the unit and negates the value |
| Quantities.Plus | src/dim/quantity.hpp:214-220 | `+` (and `+=`) is only admitted for identical units and adds the values in that unit |
| Quantities.Minus | src/dim/quantity.hpp:221-227 | `-` (and `-=`) is only admitted for identical units and subtracts the values in that unit |
| Quantities.PlusUnit | src/dim/quantity.hpp:305-311 | `q + U` is admitted when the dimensions match and is q plus one of its own unit |
| Quantities.UnitMinus | src/dim/quantity.hpp:298-304 | `U - q` is admitted when the dimensions match and gives one minus the value in q's unit |
| Quantities.MinusUnit | src/dim/quantity.hpp:291-297 | `q - U` is admitted when the dimensions match, is q minus one of its own unit, and is the negation of `U - q` |
| Quantities.MinusIsPlusNegated | src/dim/quantity.hpp:214-227 | subtracting a quantity is adding its negation |
| Quantities.ComparisonsWithNaN | src/dim/quantity.hpp:154-187 | with a bad operand `==`, `<` and `>` are false while `!=`, `<=` and `>=` are all true; without one the six comparisons are those of the real values |
| Quantities.Times | src/dim/quantity.hpp:198-205 | `q1 * q2` keeps q1's system, has the run-time product of the indices as its index and the product of the values |
| Quantities.Divide | src/dim/quantity.hpp:206-213 | `q1 / q2` keeps q1's system, has a unit that, multiplied back by q2's, gives q1's exponents, and the quotient of the values |
| Quantities.TimesDivide | src/dim/quantity.hpp:198-213 | dividing a product by one non-zero factor gives the other factor back, unit and value |
| Quantities.TimesInverse | src/dim/quantity.hpp:229-234 | a quantity times one of the inverse unit is a bare scalar: the product of the values, with a dimensionless combined index |
| Quantities.Ratio | src/dim/quantity.hpp:235-239 | the ratio of two quantities of one unit is the bare scalar that, times the divisor, gives the dividend |
| Quantities.TimesScalar | src/dim/quantity.hpp:241-251 | scaling by a scalar keeps the unit and multiplies the value |
| Quantities.DivScalar | src/dim/quantity.hpp:252-256 | dividing by a scalar keeps the unit and divides the value |
| Quantities.ScalarDiv | src/dim/quantity.hpp:257-261 | `s / q` keeps q's system, has the inverse of q's index and the value s over q's value |
| Quantities.TimesUnit | src/dim/quantity.hpp:264-276 | `q * U` and `U * q` keep the value and q's system and carry the product unit |
| Quantities.DivUnit | src/dim/quantity.hpp:277-283 | `q / U` keeps the value and q's system in a unit that, multiplied by U, gives q's unit back |
| Quantities.UnitDivAsWritten | src/dim/quantity.hpp:284-290 | `U / q` as written carries the unit U over q's unit but keeps q's value instead of its reciprocal |
| Quantities.UnitDiv | src/dim/quantity.hpp:284-290 | `U / q` as intended is the unit quantity of U divided by q |
| Quantities.UnitDivCounterexample | src/dim/quantity.hpp:284-290 | one metre divided by two metres gives 2 as written, against the intended one half |
| Quantities.DivOwnUnit | src/dim/quantity.hpp:320-324 | `q / unit` is the scalar of the dimensionless quantity `q / U`, and that scalar times the unit is q again |
| Quantities.TimesInverseUnit | src/dim/quantity.hpp:325-329 | `q * unit::inverse` is the scalar of the dimensionless quantity `q * U::inverse`, equal to q times one of the inverse unit, and that scalar times the unit is q again |
| Quantities.ScalarTimesUnit | src/dim/quantity.hpp:353-362 | `s * U` and `U * s` are the value s in unit U |
| Quantities.ScalarDivUnit | src/dim/quantity.hpp:363-367 | `s / U` is the value s in the inverse of U, in U's system |
| Quantities.UnitDivScalar | src/dim/quantity.hpp:368-372 | `U / s` is in unit U with a value that, times s, gives one |
| Quantities.AbsQ | src/dim/quantity.hpp:380-384 | `abs(q)` keeps the unit, is bad exactly when q is, and otherwise is q's value or its negation, non-negative |
| Quantities.Root | src/dim/quantity.hpp:387-401 | `root<R>` is admitted only when R divides every exponent; it keeps the system, each result exponent times R is the input exponent, and the value is the R-th root given by the power parameter |
| Quantities.Sqrt | src/dim/quantity.hpp:404-417 | `sqrt` is admitted only when every exponent is even; it keeps the system and each result exponent doubled is the input exponent |
| Quantities.PowQ | src/dim/quantity.hpp:420-428 | `pow<E>(q)` keeps the system, has the index `pow(index(q), E)` and the value raised to E |
| Quantities.RatPowAsWritten | src/dim/quantity.hpp:443-457 | `ratpow<N, D>` as written is admitted by `d * N % D == 0` and keeps the system, but each exponent is computed as `(d / D) * N` with truncation |
| Quantities.RatPow | src/dim/quantity.hpp:443-457 | `ratpow<N, D>` as intended: every result exponent times D equals the input exponent times N, in the same system |
| Quantities.RatPowCounterexample | src/dim/quantity.hpp:443-457 | `ratpow<2, 2>` of a metre passes the guard, yet the written exponent is 0 where 1 is intended |
| Quantities.RatPowAgreesWhenDivisible | src/dim/quantity.hpp:443-457 | when D divides every exponent the written and the intended `ratpow` coincide |
| Base.Index64 | src/dim/base.hpp:76-84 | `unit::index()` places each exponent as an unsigned byte at bit 8i in the order Length to Luminosity, so it reads back as that exponent |
| Base.Index64IgnoresSystem | src/dim/base.hpp:76-84 | the older index is the newer run-time code, and two units share an index exactly when their exponents agree, whatever their systems |
| Base.EnsureDimensionsMatch | src/dim/base.hpp:143-154 | `ensure_dimensions_match` admits a pair exactly when their indices agree, and rejects it exactly when some component differs |
| Base.InverseInvolution | src/dim/base.hpp:64 | `unit::inverse` negates all eight exponents, inverting twice is the identity, and its index is the run-time inverse |
| Base.UnitTimes | src/dim/base.hpp:193-199 | unit multiplication instantiates `ensure_systems_match`, so it requires one system; the product keeps it and its index is the run-time product of the indices |
| Base.ScalarOnUnit | src/dim/base.hpp:491-510 | `s * U` is s in U; `s / U` times one U is the dimensionless s; `U / s` scaled back by s is one U |
| Base.SqrtIsRootTwo | src/dim/base.hpp:524-551 | `sqrt` has the guard and the result unit of `root<2>` |
| Base.RatPowOneIsRoot | src/dim/base.hpp:524-582 | `ratpow<1, D>` is admitted whenever `root<D>` is, and has the same unit |
| DynamicQuantities.FromScalar | src/dim/dynamic_quantity.hpp:26-29 | a scalar becomes a dimensionless quantity with that value |
| DynamicQuantities.FromUnit | src/dim/dynamic_quantity.hpp:31-34 | a unit becomes value one in that unit |
| DynamicQuantities.FromStatic | src/dim/dynamic_quantity.hpp:36-40 | a static quantity keeps its value and carries its exponents at run time |
| DynamicQuantities.As | src/dim/dynamic_quantity.hpp:59-65 | `as<Q>()` yields the value in Q when the run-time unit is Q's index, and Q's bad quantity otherwise |
| DynamicQuantities.AsRoundTrip | src/dim/dynamic_quantity.hpp:36-65 | static to dynamic and back through `as` is the identity, and `as` fails on a good value exactly when the exponent vectors differ |
| DynamicQuantities.Multiply | src/dim/dynamic_quantity.hpp:89-92 | the product has the run-time product unit and the product of the values |
| DynamicQuantities.Divide | src/dim/dynamic_quantity.hpp:94-97 | the quotient's unit times b's unit is a's unit; its value is a over b for a non-zero b and NaN for a zero or NaN b |
| DynamicQuantities.MultiplyDivide | src/dim/dynamic_quantity.hpp:89-97 | dividing a product by a non-zero factor gives the other factor back, unit and value |
| DynamicQuantities.MultiplyMatchesStatic | src/dim/dynamic_quantity.hpp:89-92 | converting two static quantities and multiplying at run time gives the conversion of their static product |
| DynamicQuantities.Add | src/dim/dynamic_quantity.hpp:99-105 | `add`, `+` and `+=` give the sum in a's unit when the units are equal, and the bad quantity otherwise |
| DynamicQuantities.Subtract | src/dim/dynamic_quantity.hpp:107-113 | `subtract`, `-` and `-=` give the difference in a's unit when the units are equal, and the bad quantity otherwise |
| DynamicQuantities.AddSubtract | src/dim/dynamic_quantity.hpp:99-113 | adding and then subtracting a good quantity of the same unit is the identity; a unit mismatch makes both bad |
| DynamicQuantities.AddMatchesStatic | src/dim/dynamic_quantity.hpp:99-105 | converting two static quantities and adding at run time gives the conversion of their static sum |
| DynamicQuantities.Negate | src/dim/dynamic_quantity.hpp:124 | unary minus keeps the unit and negates the value |
| DynamicQuantities.MismatchComparisons | src/dim/dynamic_quantity.hpp:168-205 | on a unit mismatch or a bad operand `<`, `>` and `==` are false while `<=`, `>=` and `!=` are true; otherwise they compare the values |
| DynamicQuantities.ScalarTimes | src/dim/dynamic_quantity.hpp:208-211 | `s * b` keeps b's unit and scales its value |
| DynamicQuantities.ScalarDiv | src/dim/dynamic_quantity.hpp:212-215 | `s / b` has a unit that cancels b's, with value s over b's value |
| DynamicQuantities.DivScalar | src/dim/dynamic_quantity.hpp:220-223 | `a / s` keeps a's unit and divides its value |
| DynamicQuantities.ScalarPlus | src/dim/dynamic_quantity.hpp:224-225 | `s + b` and `b + s` are the sum when b is dimensionless and the bad quantity otherwise |
| DynamicQuantities.ScalarMinus | src/dim/dynamic_quantity.hpp:226 | `s - b` is s minus b's value when b is dimensionless and bad otherwise |
| DynamicQuantities.MinusScalar | src/dim/dynamic_quantity.hpp:227 | `b - s` is b's value minus s when b is dimensionless and bad otherwise |
| DynamicQuantities.ScalarCompound | src/dim/dynamic_quantity.hpp:228-229 | `a *= s` and `a /= s` keep a's unit and scale its value |
| DynamicQuantities.PlusAssignScalarAsWritten | src/dim/dynamic_quantity.hpp:230 | scalar `a += s` as written doubles a, whatever s is |
| DynamicQuantities.MinusAssignScalarAsWritten | src/dim/dynamic_quantity.hpp:231 | scalar `a -= s` as written gives a - a, whatever s is |
| DynamicQuantities.PlusAssignScalar | src/dim/dynamic_quantity.hpp:230 | scalar `a += s` as intended agrees with `a + s` |
| DynamicQuantities.MinusAssignScalar | src/dim/dynamic_quantity.hpp:231 | scalar `a -= s` as intended agrees with `a - s` |
| DynamicQuantities.ScalarAssignCounterexample | src/dim/dynamic_quantity.hpp:230-231 | the written results do not depend on s; for a = 1 and s = 5 they are 2 and 0 where 6 and -4 are intended |
| DynamicQuantities.UnitTimes | src/dim/dynamic_quantity.hpp:234-235 | a unit times a quantity has the product unit and the same value |
| DynamicQuantities.UnitDiv | src/dim/dynamic_quantity.hpp:236 | `u / q` has a unit that, multiplied by q's unit, gives back u; its value is one over q's value for a finite non-zero q, and NaN when q is zero or NaN |
| DynamicQuantities.DivUnit | src/dim/dynamic_quantity.hpp:237 | q divided by a unit has a unit that, times that unit, gives q's unit back, and the same value |
| DynamicQuantities.UnitPlus | src/dim/dynamic_quantity.hpp:238-239 | a unit plus q adds one when the units agree and is bad otherwise |
| DynamicQuantities.UnitMinus | src/dim/dynamic_quantity.hpp:240 | a unit minus q is one minus q's value when the units agree and bad otherwise |
| DynamicQuantities.MinusUnit | src/dim/dynamic_quantity.hpp:241 | q minus a unit is q's value minus one when the units agree and bad otherwise |
| DynamicQuantities.Power | src/dim/dynamic_quantity.hpp:259-263 | each exponent of `power(a, n)` is n times a's exponent wrapped to int8, and the value is the given power of a's value |
| DynamicQuantities.PowerLaws | src/dim/dynamic_quantity.hpp:259-263 | the unit of a power of m + n is the product of the units of the m-th and n-th powers, and power -1 has the inverse unit |
| CharMachines.FloatStep | src/dim/io.cpp:54-109 | from the start only a sign or digit is accepted; `.` only from the significand; `e`/`E` only from the significand or fraction, moving to the exponent start; a sign only at the start or the exponent start; digits keep a number state; a rejection leaves the state unchanged |
| CharMachines.UnitStep | src/dim/io.cpp:22-51 | in the unit state letters, `*`, `/`, `_` and `^` are accepted, `^` moving to the exponent state; in the exponent state digits, letters and operators are accepted, letters and operators returning to the unit state; signs and spaces are never accepted; every other state rejects everything; a rejection leaves the state unchanged |
| CharMachines.RunAppend | src/dim/io.cpp:22-109 | feeding a + b to a character machine is feeding a and then b from the state a left |
| CharMachines.FloatRunAvoidsUnit | src/dim/io.cpp:54-109 | the float machine never enters the unit state |
| CharMachines.DigitsKeepFloatState | src/dim/io.cpp:67-106 | runs of digits leave the significand, fraction and exponent states where they are |
| CharMachines.AcceptsLiterals | src/dim/io.cpp:54-109 | every literal of the form sign? digits (`.` digits)? ((`e`/`E`) sign? digits)? is read to completion, ending in the exponent, fraction or significand state |
| CharMachines.SymbolCharsKeepUnit | src/dim/io.cpp:25-33 | words of letters and `*`, `/`, `_` are read in the unit state without leaving it |
| CharMachines.UnitWordsAreSymbols | src/dim/io.cpp:22-51 | a word the unit machine accepts contains no sign and no white space; each character is a letter, an operator, a digit or `^` |
| CharMachines.AdvancePastSeparator | src/dim/io.cpp:7-20 | the result is the first position at or after the start that is not a space, `*` or `_`, or the end of the string, and everything skipped is one of those three |
| CharMachines.AdvanceIdempotent | src/dim/io.cpp:7-20 | skipping separators twice skips nothing more, and a `.` is never skipped |
| Extraction.SkipSpaces | src/dim/io_stream.cpp:10 | leading white space is consumed up to the first non-space character or the end of the stream |
| Extraction.NumberPhaseFacts | src/dim/io_stream.cpp:12-22 | the number phase stores exactly a run the float machine accepts, within the buffer, and stops early only at `_` or white space |
| Extraction.NumberPhaseReads | src/dim/io_stream.cpp:12-22 | a run of float characters followed by a separator, shorter than the buffer, is stored in full |
| Extraction.UnitPhaseFacts | src/dim/io_stream.cpp:37-45 | the unit phase stores exactly a run the unit machine accepts, and stops short of the capacity only at the end of the stream or a rejected character |
| Extraction.UnitRunLength | src/dim/io_stream.cpp:37-45 | the unit phase stops exactly at the end of a maximal accepted run that fits the remaining buffer |
| Extraction.UnitPrefixUnique | src/dim/io_stream.cpp:37-45 | two maximal accepted runs from the same place have the same length |
| Extraction.ExtractSound | src/dim/io_stream.cpp:7-52 | every successful extraction is a complete number after leading white space, one separator, more white space, then the longest accepted unit, both with their NULs inside the buffer |
| Extraction.ExtractComplete | src/dim/io_stream.cpp:7-52 | every token meeting that description is exactly what the extraction returns, so the description and the extraction coincide |
| Extraction.ReadNumber | src/dim/io_stream.cpp:9-22 | the character loop of the number phase fails exactly when the phase fails and otherwise returns its count and final state |
| Extraction.ReadUnit | src/dim/io_stream.cpp:36-45 | the peek loop of the unit phase stores as many characters as the unit phase accepts |
| Extraction.SkipWhiteSpace | src/dim/io_stream.cpp:37 | the white-space loop stops where the leading white space ends |
| Extraction.ExtractUnit | src/dim/io_stream.cpp:33-51 | the second half of the extraction returns the unit tail of the number just stored |
| Extraction.ExtractQuantity | src/dim/io_stream.cpp:7-52 | the imperative extraction returns the phase-by-phase result, and every success meets the description |
| Extraction.RejectsIncompleteNumbers | src/dim/io_stream.cpp:14-23 | "1e km", "_m" and "12a3 km" are rejected: an unfinished exponent, no number, a stray letter |
| Extraction.SplitsNumberAndUnit | src/dim/io_stream.cpp:7-52 | "1_km" splits into the number "1" and the unit "km", with the whole input consumed |
| IoDetail.Truncate | src/dim/io_detail.hpp:44-49 | writing against `end` keeps a prefix of the text: its first n characters, or all of it when shorter |
| IoDetail.NatDigits | src/dim/io_detail.hpp:13-17 | the decimal text of a natural number is a non-empty digit string without a leading zero |
| IoDetail.NatDigitsRoundTrip | src/dim/io_detail.hpp:13-17 | reading the decimal text of n back gives n |
| IoDetail.Int8ToString | src/dim/io_detail.hpp:13-17 | `print_int8` writes one to four characters, with a leading `-` exactly for negative values |
| IoDetail.Int8ToStringRoundTrip | src/dim/io_detail.hpp:13-17 | the text of an int8, read back with its sign, is that int8, including -128 |
| IoDetail.ExponentiatedSymbol | src/dim/io_detail.hpp:19-30 | a zero exponent writes nothing; exponent 1 writes the bare symbol; any other exponent writes the symbol, `^` and the exponent's text; `_` goes first when a term was already written |
| IoDetail.PrintDimensions | src/dim/io_detail.hpp:43-50 | the `print_dimension` calls in print order never write past `end` |
| IoDetail.PrintDimensionsTruncates | src/dim/io_detail.hpp:60-76 | writing term by term into the bounded buffer writes exactly the first `room` characters of the unbounded rendering |
| IoDetail.TruncateConcat | src/dim/io_detail.hpp:60-76 | cutting a concatenation cuts the first part and then the second to whatever room is left |
| IoDetail.Terminate | src/dim/io_detail.hpp:78-82 | the NUL goes at the write position when it is inside the buffer and in the last cell otherwise, so the C string is shorter than the buffer |
| IoDetail.PrintUnitAsWritten | src/dim/io_detail.hpp:53-84 | as written, a non-empty special symbol is copied whole with no check against `end`, so the returned position is its length |
| IoDetail.PrintUnit | src/dim/io_detail.hpp:53-84 | as intended, the result never passes `end` and is NUL-terminated inside it: a non-empty special symbol cut to fit, otherwise the non-zero dimensions in the order angle, mass, length, temperature, amount, current, luminosity, time, cut to fit |
| IoDetail.PrintUnitOverrun | src/dim/io_detail.hpp:55-58 | the two agree on the C string read back, and the written copy runs past `end` exactly when the special symbol is longer than the buffer |
| IoDetail.PrintUnitOverrunExample | src/dim/io_detail.hpp:55-58 | a six-character special symbol in a four-character buffer is written two characters past the end as written and stops at the end as intended |
| IoDetail.RenderDimensionless | src/dim/io_detail.hpp:44-49 | a dimensionless unit renders as the empty string, since zero exponents print nothing |
| IoDetail.SiSpeedRendering | src/dim/io_detail.hpp:60-77 | metre per second prints as "m_s^-1" with the SI symbols |
| IoDetail.SiAngularRendering | src/dim/io_detail.hpp:60-77 | metre per second squared per radian cubed prints as "rad^-3_m_s^-2": angle before length before time |
| IoDetail.SiPowerRendering | src/dim/io_detail.hpp:60-77 | metre to the fifth prints as "m^5" |
| IoDetail.ParseStandardRep | src/dim/io_detail.hpp:94-97 | the base system's `parse_standard_rep` fails for every symbol with the bad, dimensionless quantity |
| IoDetail.ParseUnitDynamic | src/dim/io_detail.hpp:104-110 | `parse_unit_dynamic<U>` sets the scale to the parsed value and returns true exactly when the parsed unit is U's index |
| IoDetail.BaseParseUnitDynamic | src/dim/io_detail.hpp:94-110 | with the base parser the scale is always NaN and the check succeeds exactly for a dimensionless U |
| Formatting.UpToNul | src/dim/io.hpp:62 | reading a symbol buffer as a C string gives the NUL-free prefix before the first NUL |
| Formatting.CString | src/dim/io.hpp:211 | a buffer reads as a C string exactly when it holds a NUL, and then as the text before it |
| Formatting.StrNCopy | src/dim/io.hpp:110 | `strncpy(dst, src, n)` writes src into the first n cells, pads with NULs, leaves the rest of dst alone, and writes no NUL when src has n or more characters |
| Formatting.StrNCopyShort | src/dim/io.hpp:110 | `strncpy` of a source shorter than n leaves a terminated copy of it |
| Formatting.StrNCopyLong | src/dim/io.hpp:110 | `strncpy` of a source of n or more characters copies its first n, writes no NUL, and the buffer is terminated only if a NUL already followed |
| Formatting.NewFormatted | src/dim/io.hpp:29-41 | the `formatted_quantity` constructor keeps the value and the first `kMaxSymbol - 1` (31) characters of a non-null symbol, always terminated; a null or empty symbol gives "" |
| Formatting.FormattedFacts | src/dim/io.hpp:29-54 | a short symbol is kept whole; the default and `bad_format()` are bad with an empty symbol; a 32-character symbol keeps its first 31 |
| Formatting.NewFormatterAsWritten | src/dim/io.hpp:106-124 | the `formatter` constructor as written: a bad additive part becomes zero in the scale's unit; an additive part of another unit makes scale and add bad and the symbol "INCONSISTENT"; a symbol of 31 or more characters is terminated only if the buffer's last cell already held a NUL |
| Formatting.NewFormatter | src/dim/io.hpp:106-124 | the constructor with a zeroed buffer: the same scale and additive-part handling, and the symbol is always terminated and cut to 31 characters |
| Formatting.UnterminatedSymbol | src/dim/io.hpp:110 | a 31-character symbol over a buffer without NULs leaves no terminating NUL as written, and reads back whole from a zeroed buffer |
| Formatting.StaticFormatterConsistent | src/dim/io.hpp:134-138 | the static-quantity constructor always builds a consistent formatter, keeping scale and additive part unchanged |
| Formatting.Input | src/dim/io.hpp:201-206 | `input(s)` is `s * scale + add` in the formatter's index unit, and bad when the additive part has another unit |
| Formatting.InputAs | src/dim/io.hpp:192-196 | `input<Q>(s)` is bad unless Q's index is the formatter's index, and is then `s * scale + add` |
| Formatting.NonDimAsWritten | src/dim/io.hpp:158-170 | `non_dim(q)` as written is `(q + add) / scale` when q has the formatter's unit, and NaN otherwise |
| Formatting.NonDim | src/dim/io.hpp:71-78 | `non_dim(q)` as the class comment states it is `(q - add) / scale` when q has the formatter's unit, and NaN otherwise |
| Formatting.NonDimInputRoundTrip | src/dim/io.hpp:71-78 | `non_dim(input(s)) == s` for every finite s, and `input(non_dim(q)) == q` for every finite q of the formatter's unit, given a finite non-zero scale |
| Formatting.NonDimAsWrittenCounterexample | src/dim/io.hpp:160 | with scale 1 and additive part 1, `input(0)` is 1 and the written `non_dim` sends it to 2, not back to 0 |
| Formatting.InconsistentNonDim | src/dim/io.hpp:114-122 | a formatter built from an inconsistent pair reports NaN for every quantity |
| Formatting.Output | src/dim/io.hpp:176 | `output(q)` as written is `(q + add) / scale` for q of the formatter's unit with the formatter's symbol, and bad when q's unit is not the formatter's |
| Formatting.OutputIntended | src/dim/io.hpp:71-78 | `output(q)` with the documented `non_dim` is `(q - add) / scale` for q of the formatter's unit with the formatter's symbol, and bad for another unit |
| Formatting.OutputIntendedUndoesInput | src/dim/io.hpp:71-78 | with the documented `non_dim`, a finite value read in through a consistent formatter is written out as the same number |
| Formatting.OutputCounterexample | src/dim/io.hpp:158-176 | the Celsius-style formatter (scale 1 K, additive part 273.15 K) writes 300 K as 573.15 where 26.85 is intended; with a zero additive part the two agree |
| Formatting.CopySymbol | src/dim/io.hpp:280-285 | the copy loop copies exactly the run the scanner accepts from the cursor: it stops at the first character the scanner rejects, at the end of the text or when the buffer is full, the copied text is that run, and the scanner state is the one reached after the rejected character or the last accepted one |
| Formatting.FinishFromChars | src/dim/io.hpp:280-297 | after the separator the symbol is the longest run the scanner accepts that fits the buffer, cut to fit with its NUL; the code is `invalid_argument` when the scanner ends in error, else `no_buffer_space` when the run filled the buffer, else the parser's code |
| Formatting.FromCharsAsWritten | src/dim/io.hpp:263-298 | as written, a scalar that consumes nothing gives `invalid_argument` (or the parser's own error) and `bad_format()`; the separator test may read the character just past the end |
| Formatting.FromChars | src/dim/io.hpp:263-298 | as intended, the same failure case; otherwise the value is the scalar, at most one separator is skipped, the symbol is the longest run the scanner accepts that fits the buffer, and the code is `invalid_argument` on a scanner error, else `no_buffer_space` on a full buffer, else the parser's code; the position stays inside the text |
| Formatting.ScanRunAppend | src/dim/io.hpp:283-285 | scanning a text one character at a time is compositional: scanning a + b is scanning a, then scanning b from the state reached |
| Formatting.RunPastStop | src/dim/io.hpp:283-285 | once the scanner has rejected a character, no longer run that fits the buffer is accepted |
| Formatting.StopUnique | src/dim/io.hpp:283-285 | the place where the copy loop stops is unique: two stopping places of the same scan are equal |
| Formatting.FromCharsLongestRun | src/dim/io.hpp:280-285 | any place where the accepted run after the separator stops is where `from_chars` stops, and the symbol is the text up to it cut to fit |
| Formatting.EmptySymbolKeepsParserCode | src/dim/io.hpp:253-298 | for the text "1", an empty symbol returns the parser's `errc{}` with value one; no `no_message` code is set |
| Formatting.FromCharsPastEnd | src/dim/io.hpp:277-279 | for the text "1" followed in memory by a space, the written `from_chars` returns a position one past the end |
| Formatting.FromCharsAgreeInside | src/dim/io.hpp:277-279 | whenever the scalar stops before the end of the text, the written and the intended `from_chars` agree |
| Formatting.NonDimUndoesInput | src/dim/io.hpp:71-78 | with the documented `(q - add) / scale`, reading a finite value in through a consistent formatter and taking `non_dim` of it gives the value back |
| Formatting.InputUndoesNonDim | src/dim/io.hpp:201-206 | for a finite quantity of the formatter's unit, `input(non_dim(q))` gives q back |
| SortedVectors.LowerBound | src/dim/format_map.hpp:31-41 | the `std::lower_bound` position: every element before it has a key less than the query and the element at it (if any) does not |
| SortedVectors.LowerBoundPartitions | src/dim/format_map.hpp:31-41 | on a vector sorted under a strict order, the elements before the lower bound are exactly those with keys less than the query |
| SortedVectors.BinaryLowerBound | src/dim/format_map.hpp:35 | bisection over a sorted vector lands on the same position as the linear definition of the lower bound |
| SortedVectors.LowerBoundUnique | src/dim/format_map.hpp:31-41 | any position that splits a sorted vector into keys-below and keys-not-below the query is the lower bound |
| SortedVectors.Find | src/dim/format_map.hpp:31-52 | `detail::find` returns a position only when the element there has the queried key, and otherwise the bound is at the end or holds a different key |
| SortedVectors.FindComplete | src/dim/format_map.hpp:31-52 | on a sorted vector `find` misses exactly when no element has the key, and when it hits it returns the (unique) element with that key |
| SortedVectors.Lookup | src/dim/format_map.hpp:196-200 | `get`, which returns an element or null: a present answer is an element of the vector carrying the queried key |
| SortedVectors.LookupByContents | src/dim/format_map.hpp:196-200 | on a sorted vector `get` answers with the element holding the key when there is one and null exactly when no element holds it |
| SortedVectors.Insert | src/dim/format_map.hpp:130-143 | `insert`: an element with the same key is overwritten in place leaving every other slot alone; otherwise the vector grows by one and its multiset gains the new element |
| SortedVectors.InsertSorted | src/dim/format_map.hpp:135-141 | `push_back` followed by `std::sort` keeps the vector sorted by unique keys |
| SortedVectors.SortIsUnique | src/dim/format_map.hpp:140-141 | two vectors sorted by unique keys with the same multiset of elements are equal, so the result of `push_back` plus `std::sort` is determined |
| SortedVectors.InsertLookup | src/dim/format_map.hpp:130-143 | after `insert(e)`, looking up e's key gives e and every other key's lookup is unchanged |
| SortedVectors.Erase | src/dim/format_map.hpp:220-228 | `erase` reports true exactly when the key was found, and then removes just that element |
| SortedVectors.EraseLookup | src/dim/format_map.hpp:220-228 | erasing keeps the vector sorted, the erased key then looks up to nothing, and every other key's lookup is unchanged |
| FormatMaps.SymbolOrder | src/dim/format_map.hpp:250-269 | `strncmp(_, _, kMaxSymbol) < 0` on the cut-down symbols is a strict total order, so sorting and bisection by it are sound |
| FormatMaps.UnitOrder | src/dim/unit.hpp:117 | `dynamic_unit::operator<` is a strict total order on unit codes |
| FormatMaps.Get | src/dim/format_map.hpp:196-200 | a formatter returned by `get(symbol)` is in the map and carries that symbol (compared on its first kMaxSymbol characters) |
| FormatMaps.GetComplete | src/dim/format_map.hpp:196-200 | on a valid map `get` returns null exactly when no formatter in it has the symbol |
| FormatMaps.EmptyInputMap | src/dim/format_map.hpp:79-82 | a map built from a unit alone is valid, has that unit, and knows no symbol |
| FormatMaps.InsertFormatter | src/dim/format_map.hpp:130-143 | `insert` succeeds exactly when the formatter's unit is the map's (otherwise the map is unchanged), keeps the map valid, and afterwards the formatter answers its symbol while every other symbol answers as before |
| FormatMaps.InsertFormatterFacts | src/dim/format_map.hpp:130-143 | inserting a formatter of the map's unit keeps symbols sorted and unique and changes only the lookup of that symbol |
| FormatMaps.LookupIsMember | src/dim/format_map.hpp:108-114 | every formatter the map returns for a symbol is one that was inserted |
| FormatMaps.FromList | src/dim/format_map.hpp:108-114 | the initializer-list map takes its unit from the first formatter (bad unit for an empty list), is valid, holds only listed formatters of that unit, and can find every listed formatter of that unit by its symbol |
| FormatMaps.FromFormatter | src/dim/format_map.hpp:97-101 | a map built from one formatter has its unit and answers that formatter's symbol with it and nothing else |
| FormatMaps.ToQuantityAs | src/dim/format_map.hpp:151-159 | `to_quantity<Q>` is bad when Q's unit is not the map's or the symbol is unknown, and otherwise is the found formatter's `input<Q>` of the value |
| FormatMaps.ToQuantity | src/dim/format_map.hpp:177-181 | the dynamic `to_quantity` is bad for an unknown symbol and otherwise the found formatter's `input` of the value |
| FormatMaps.ToQuantityGood | src/dim/format_map.hpp:177-181 | a known symbol with a consistent formatter and a finite value yields a good quantity of the map's unit |
| FormatMaps.EraseSymbol | src/dim/format_map.hpp:220-228 | `erase(symbol)` reports true exactly when the symbol was known, keeps the map valid, and afterwards only that symbol is unknown |
| FormatMaps.EraseLookups | src/dim/format_map.hpp:220-228 | after erasing a symbol, every other symbol finds the same formatter as before |
| FormatMaps.GroupGet | src/dim/format_map.hpp:429-433 | a map returned by the group's `get(index)` is in the group and has that unit |
| FormatMaps.GroupPutFacts | src/dim/format_map.hpp:332-342 | replacing or adding a whole map keeps the group sorted by unique unit and changes only the lookup of that map's unit |
| FormatMaps.GroupInsertFormatter | src/dim/format_map.hpp:315-326 | the group's `insert(formatter)` always reports true, creates the unit's map when missing, adds the formatter to it, and leaves every other unit's map unchanged |
| FormatMaps.GroupInsertFacts | src/dim/format_map.hpp:315-326 | the map receiving the formatter is valid, of the formatter's unit, and differs from the old one only at the formatter's symbol |
| FormatMaps.GroupInsertMap | src/dim/format_map.hpp:332-342 | `insert(map)` always reports true and afterwards the group's map of that unit is the given one, the others unchanged |
| FormatMaps.GroupDropFacts | src/dim/format_map.hpp:347-355 | removing a unit's map keeps the group valid and makes only that unit unknown |
| FormatMaps.GroupErase | src/dim/format_map.hpp:347-355 | `erase(index)` reports true exactly when the group had that unit's map, which alone disappears |
| FormatMaps.GroupEraseSymbol | src/dim/format_map.hpp:361-372 | `erase(index, symbol)` reports true exactly when that unit's map knew the symbol; the symbol is erased from it, the map is dropped once empty, and the other units are unaffected |
| FormatMaps.GroupToQuantityAs | src/dim/format_map.hpp:381-386 | `to_quantity<Q>` on the group is bad when no map of Q's unit exists and otherwise that map's `to_quantity<Q>` |
| FormatMaps.GroupToQuantity | src/dim/format_map.hpp:407-416 | the dynamic `to_quantity` on the group is the first good answer of its maps in ascending unit order, and is bad only when every map answers bad |
| FormatMaps.ScanMaps | src/dim/format_map.hpp:407-416 | the loop over the maps returns the first good answer or bad when none is good |
| FormatMaps.OutputGet | src/dim/format_map.hpp:548-552 | a formatter returned by the output map's `get(unit)` is in the map and has that unit |
| FormatMaps.Format | src/dim/format_map.hpp:504-519 | `format(q)` is `bad_format()` when no formatter has q's unit, and otherwise that formatter's `output` of q as written |
| FormatMaps.OutputInsert | src/dim/format_map.hpp:533-543 | the output map's `insert` always reports true, keeps the map valid, makes the formatter the answer for its unit leaving other units alone, and grows the map only when the unit was new |
| FormatMaps.OutputInsertFacts | src/dim/format_map.hpp:533-543 | inserting into a sorted output map keeps it sorted and changes only the lookup of the formatter's unit |
| FormatMaps.OutputErase | src/dim/format_map.hpp:557-565 | the output map's `erase(unit)` reports true exactly when that unit had a formatter, and afterwards only that unit is unknown |
| FormatMaps.OutputEraseLookups | src/dim/format_map.hpp:557-565 | erasing one unit leaves the lookup of every other unit as it was |
| FormatMaps.DefaultFormat | src/dim/format_map.hpp:620-625 | the default input map of Q is an empty valid map of Q's unit |
| FormatMaps.ParseQuantityAs | src/dim/format_map.hpp:635-647 | the static `parse_quantity` uses the map's answer when good, else the value times the system's parse of the symbol cast to Q, and reports true exactly when the result is good |
| FormatMaps.ParseQuantityGroup | src/dim/format_map.hpp:658-669 | the dynamic `parse_quantity` with a group uses the group's answer when good, else the value times the system's parse of the symbol, and reports whether the result is good |
| FormatMaps.ParseQuantityMap | src/dim/format_map.hpp:681-692 | the same with a single input map |
| FormatMaps.MapBeforeFallback | src/dim/format_map.hpp:681-692 | a symbol the map knows (with a consistent formatter and a finite value) succeeds through the map, never reaching the system parser |
| FormatMaps.FormatQuantity | src/dim/format_map.hpp:701-737 | `format_quantity` always reports true; it uses the output map's answer when there is a map and the answer is good, else the raw value with `print_unit`'s text of the quantity's unit |
| FormatMaps.FormatFallsBackToPrintUnit | src/dim/format_map.hpp:723-737 | a quantity whose unit has no output formatter and no special symbol is written as its value with its dimensions in print order, cut to fit the symbol buffer |
| FormatMaps.InsertAll | src/dim/format_map.hpp:111-113 | inserting a list one formatter at a time keeps the map's unit and its validity |
| FormatMaps.InsertAllContents | src/dim/format_map.hpp:108-114 | after inserting a list, the map holds only formatters from the original map or the list, and every listed formatter of the map's unit can be found by its symbol |
| FormatMaps.PresentStaysPresent | src/dim/format_map.hpp:130-143 | later insertions never make a known symbol unknown |
| FormatMaps.ScanStep | src/dim/format_map.hpp:407-416 | when the first map answers bad, the first good answer of the rest is the first good answer of all |
| Facets.FormatOut | src/dim/facet.hpp:46-54 | the facet's output `format` of a dynamic quantity is its unit's output formatter's answer when there is one and it is good; when no formatter has the unit or its answer is bad, it is the unchanged value with `print_unit`'s text |
| Facets.FormatInAs | src/dim/facet.hpp:62-72 | the typed input `format(s, symbol)` is the input registry's answer when good, else the scalar times the system's parse of the symbol cast to Q; the result always has Q's unit |
| Facets.FormatInFormattedAs | src/dim/facet.hpp:78-89 | the typed input `format(formatted)` parses through the registry's map of Q's unit when there is one, else through the default map of Q |
| Facets.TypedInputPathsAgree | src/dim/facet.hpp:62-89 | when the registry has a map for Q's unit, the two typed input overloads give the same quantity |
| Facets.FormatIn | src/dim/facet.hpp:95-102 | the dynamic input `format(s, symbol)` is the group's first good answer, and otherwise has the unit of the system's parse of the symbol and that parse's value times the scalar |
| Facets.DynamicInputPathsAgree | src/dim/facet.hpp:95-112 | the dynamic overload taking a formatted quantity (scalar times parsed unit) agrees with the one taking scalar and symbol (parsed unit times scalar) |
| Facets.OutputFormatter | src/dim/facet.hpp:119 | `output_formatter(f)` leaves the input registry alone, keeps the output registry valid, and makes f the output formatter of its unit, every other unit unchanged |
| Facets.OutputFormatterReplaces | src/dim/facet.hpp:114-132 | registering a second output formatter for a unit replaces the first: quantities of that unit are then written with the newer one |
| Facets.InputFormatter | src/dim/facet.hpp:135-138 | `input_formatter(f)` leaves the output registry and the other units' maps alone; in its unit's map (created if missing) f replaces any formatter with the same symbol and every other symbol keeps its formatter |
| Facets.InputFormatterMap | src/dim/facet.hpp:143 | `input_formatter(map)` replaces the whole input map of the map's unit, leaving the other units and the output registry alone |
| Facets.InputFormatterFound | src/dim/facet.hpp:62-72 | a symbol just registered for input is read back through the typed path as that formatter's `input<Q>` of the value |
| Facets.ClearInputFormatter | src/dim/facet.hpp:148-152 | `clear_input_formatter<Q>()` drops only the input map of Q's unit |
| Facets.ClearOutputFormatter | src/dim/facet.hpp:157-161 | `clear_output_formatter<Q>()` drops only the output formatter of Q's unit |
| Facets.ClearInputFormatters | src/dim/facet.hpp:166 | `clear_input_formatters()` leaves no input map and the output registry untouched |
| Facets.ClearOutputFormatters | src/dim/facet.hpp:171 | `clear_output_formatters()` leaves no output formatter and the input registry untouched |
| Facets.Clear | src/dim/facet.hpp:176-180 | `clear()` leaves both registries empty and valid |
| Facets.ClearFallsThrough | src/dim/facet.hpp:95-180 | after `clear()` output keeps the raw value and dynamic input is exactly the system's parse of the symbol times the scalar |
| IndexMaps.Compare | src/dim/format_map.cpp:49-61 | the comparator as written returns the `long` difference narrowed to `int`, congruent to the true difference modulo 2^32; the exact comparison has the true sign |
| IndexMaps.NarrowSign | src/dim/format_map.cpp:49-54 | while the difference fits in 32 bits, the narrowed comparison has the exact comparison's sign |
| IndexMaps.BSearch | src/dim/format_map.cpp:7 | `bsearch` only ever returns a node within the searched range whose comparison with the key is zero |
| IndexMaps.BSearchExact | src/dim/format_map.cpp:28-33 | with the exact comparison on index-sorted nodes, `bsearch` fails exactly when no node carries the key |
| IndexMaps.BSearchAgrees | src/dim/format_map.cpp:49-54 | while every index is within 32 bits of the key, the narrowed comparator searches exactly like the exact one |
| IndexMaps.BSearchLoop | src/dim/format_map.cpp:7 | the iterative bisection returns the same node as the recursive description of `bsearch` |
| IndexMaps.GetWith | src/dim/format_map.cpp:28-40 | a payload returned by `get` belongs to a node whose comparison with the key is zero |
| IndexMaps.GetFindsExactly | src/dim/format_map.cpp:28-40 | on a valid map `get` returns null exactly when no node has the index, and otherwise that node's payload |
| IndexMaps.GetAgrees | src/dim/format_map.cpp:28-54 | while every stored index is within 32 bits of the query, the `get` as written agrees with the exact one |
| IndexMaps.NarrowingCollision | src/dim/format_map.cpp:49-54 | with only index 2^32 stored, the `get` as written answers a query for index 0 with that node's payload, where the exact `get` answers null |
| IndexMaps.SetWith | src/dim/format_map.cpp:5-26 | `set` either keeps the node count (replacing a payload) or adds exactly one node |
| IndexMaps.SetKeepsValid | src/dim/format_map.cpp:5-26 | `set` keeps the nodes sorted by unique index, adds a node exactly when the index was absent, and doubles the capacity exactly when it adds to a full array |
| IndexMaps.GetAfterSet | src/dim/format_map.cpp:5-40 | after `set(index, payload)`, `get(index)` gives the new payload and every other index answers as before |
| IndexMaps.InsertSortedContents | src/dim/format_map.cpp:22-25 | appending a node and re-sorting adds exactly that node to the multiset of nodes |
| IndexMaps.InsertSortedSorted | src/dim/format_map.cpp:22-25 | appending a node with a new index and re-sorting leaves the nodes strictly sorted |
| IndexMaps.SetCollision | src/dim/format_map.cpp:5-11 | with index 2^32 stored, the `set(0, q)` as written overwrites that node's payload, where the exact `set` adds a node for index 0 |
| IndexMaps.Clear | src/dim/format_map.cpp:42-47 | `clear()` keeps the capacity and afterwards no index is found |
| SiParse.FindPrefix | src/dim/si/parse_unit.cpp:71-95 | `find_si_prefix` reports "da" as ten and skips two characters, a listed one-letter prefix as its power of ten and skips one, and anything else as `PREFIX_NOT_FOUND` skipping none |
| SiParse.LookupSymbol | src/dim/si/parse_unit.cpp:101-109 | the symbol map built with `emplace` answers with the first table row of that symbol, and misses exactly when no row has it |
| SiParse.ParseKnownWith | src/dim/si/parse_unit.cpp:97-121 | every bad result of `parse_known_quantity` is exactly `bad_quantity()` |
| SiParse.ExactMatchWins | src/dim/si/parse_unit.cpp:109-111 | a symbol in the table parses as its first row, even when it could also be read as a prefix followed by a symbol |
| SiParse.PrefixScales | src/dim/si/parse_unit.cpp:113-119 | a text that is not a symbol but starts with a one-letter prefix has the unit of the rest and the rest's value times the prefix |
| SiParse.UnknownIsBad | src/dim/si/parse_unit.cpp:115-117 | a text that is neither a symbol nor starts with a prefix gives `bad_quantity()` |
| SiParse.ParseKnownSound | src/dim/si/parse_unit.cpp:97-121 | every good result is the unit of a table row whose symbol ends the text, with that row's scale times a power of ten |
| SiParse.Listed | src/dim/si/parse_unit.cpp:33-69 | each symbol of the table not listed earlier parses to its own row |
| SiParse.Unlisted | src/dim/si/parse_unit.cpp:33-69 | a text not in the symbol column is not found as a whole symbol |
| SiParse.PrefixStep | src/dim/si/parse_unit.cpp:113-119 | with the SI system's table (lumen "Im", lux "Ix"), a text that is not a symbol and has a prefix parses as the prefix times the parse of the rest |
| SiParse.NoPrefixStep | src/dim/si/parse_unit.cpp:115-117 | with the SI system's table, a text that is not a symbol and has no prefix parses as bad |
| SiParse.MetreExample | src/dim/si/parse_unit.cpp:34 | "m" is the metre, not the milli prefix |
| SiParse.AreExample | src/dim/si/parse_unit.cpp:67 | "a" is the are (100 square metres), not the atto prefix |
| SiParse.KilometreExample | src/dim/si/parse_unit.cpp:29 | "km" is 1000 metres |
| SiParse.MillimetreExample | src/dim/si/parse_unit.cpp:19 | "mm" is 0.001 metres |
| SiParse.DecametreExample | src/dim/si/parse_unit.cpp:84-88 | "dam" is 10 metres through the two-letter prefix |
| SiParse.StackedPrefixExample | src/dim/si/parse_unit.cpp:119 | prefixes stack: "kkm" is 10^6 metres |
| SiParse.UnknownLetterExample | src/dim/si/parse_unit.cpp:116-117 | "xm" is bad |
| SiParse.EmptyExample | src/dim/si/parse_unit.cpp:116-117 | the empty text is bad |
| SiParse.UnknownAfterPrefixExample | src/dim/si/parse_unit.cpp:116-119 | a prefix followed by nothing known, "kx", is bad |
| SiParse.LumenRow | src/dim/si/parse_unit.cpp:57 | whatever symbol the lumen row carries, when no earlier row has it, it parses to the lumen (cd·sr) |
| SiParse.LuxRow | src/dim/si/parse_unit.cpp:58 | whatever symbol the lux row carries, when no earlier row nor the lumen has it, it parses to the lux (cd·sr/m²) |
| SiParse.LumenExample | src/dim/si/parse_unit.cpp:57 | "Im" (capital I) parses as the lumen, the spelling the library uses |
| SiParse.LuxExample | src/dim/si/parse_unit.cpp:58 | "Ix" (capital I) parses as the lux |
| SiParse.LumenSiSymbolUnknown | src/dim/si/parse_unit.cpp:57 | the SI Brochure's symbol "lm" is unknown to the SI system's parser: it is bad |
| SiParse.LumenSiBrochure | src/dim/si/parse_unit.cpp:57 | over the SI Brochure's symbols the same parser reads "lm" as the lumen |
| SiParse.LuxSiBrochure | src/dim/si/parse_unit.cpp:58 | over the SI Brochure's symbols the same parser reads "lx" as the lux |
| Powers.TenToStep | src/dim/si/parse_unit.cpp:11-31 | each power of ten in the prefix table is ten times the one below it |
| Powers.TenToAdd | src/dim/si/parse_unit.cpp:119 | stacked prefixes multiply as powers of ten add: 10^m · 10^n = 10^(m+n) |

## Left out

- Floating point: scalars are exact reals with a NaN tag. IEEE rounding, infinities (folded into NaN), signed zeros and the `isbad__` bit tricks are not modelled. The values of `std::pow` and `std::sqrt` are function parameters, and the scale constants of the SI table (for example 1.60218e-19 for the electronvolt) are exact reals.
- Bodies that are not part of this model: `unit_string_scanner::accept`, `System::specialized_symbol`, `System::symbol_for` and `parse_scalar` (`std::from_chars`) are parameters specified by their doc comments. For the scanner, the model also assumes that `accept` never takes a NUL character (`Formatting.RejectsNul`, required by `from_chars`'s model), which its doc comment (src/dim/io_detail.hpp:124-135) does not promise.
- `print_exponentiated_symbol`: only its declaration is part of this model (src/dim/io_detail.hpp:19-30). `IoDetail.ExponentiatedSymbol` defines its rendering from the doc comment: "_" first when a term was already written, then the symbol, then "^" and the exponent unless it is one, and nothing for a zero exponent. That text, and the assumption that a write bounded by `end` is `IoDetail.Truncate` of it, are what `IoDetail.PrintDimensions` rests on.
- `print_int8`: its body is not part of this model. `IoDetail.Int8ToString` gives it a decimal rendering, with its round trip proved.
- Stream I/O: `operator<<`/`operator>>`, the istream state, locale installation and `imbue`, and the `std::format`/`to_string` wrappers. `extract_quantity` reads a character sequence with a cursor instead of an istream.
- Exceptions: the `DIM_EXCEPTIONS` branches are not modelled. The model follows the build without exceptions, which returns NaN or bad values.
- Null arguments: C strings are character sequences, and "null" appears only as an absent `Option`.
- Buffer contents that a failing call leaves behind are not described, beyond what the callers read.
- `get_default_format<Q>()` returns a function-local static object. The model passes the default map as an argument (`defaults`) and describes its value with `FormatMaps.DefaultFormat`.
- `qsort` with `map_sort` in `format_index_map::set`: the model places the new node at its position by exact index order. The narrowing of `map_sort` is not modelled, only that of `map_compare`.
- The `format_index_map` class declaration is not part of this model. The model assumes an initial capacity of at least one and does not model overflow of `mapCapacity *= 2`.
- The `to_quantity` and `format` overloads taking a `formatted_quantity` only forward the value and symbol. They are covered by the scalar-and-symbol forms (`FormatMaps.ToQuantity`, `Facets.FormatInFormatted`).
- Characters are Dafny `char`. Symbols are compared by character code, which matches `strncmp` on 7-bit ASCII only.
- The Bison/flex parser of the SI system, its static default-symbol tables, and the superseded or stale headers (quantity_facet.hpp, the top-level dim/ copies) are not modelled.
- The static and formatted forward overloads (`FormatMaps.FormatStatic`, `FormatMaps.FormatQuantityStatic`, `Facets.FormatOutStatic`, `Facets.FormatInFormatted` and `Facets.OutputFormatterStatic`) route to their dynamic counterparts. Their contracts say only that, so they have no row of their own. `Facets.DynamicInputPathsAgree` relates `FormatInFormatted` to `FormatIn`.

## Findings

| source | as written | input that shows it | evidently intended | confidence | as-written member | corrected member |
|---|---|---|---|---|---|---|
| src/dim/quantity.hpp:443-457 | `ratpow<N, D>` is guarded by `d * N % D == 0` for each exponent d, but computes the exponent `(d / D) * N` with truncating division | `ratpow<2, 2>` of a length: the guard passes (1·2 % 2 == 0), but the result exponent is (1/2)·2 = 0, a dimensionless result | the exponent `d * N / D`, which is 1 here | not executed | Quantities.RatPowCounterexample | Quantities.RatPow |
| src/dim/quantity.hpp:284-290 | `U / q` builds the quantity from `q.m_value` | one metre divided by a quantity of two metres gives value 2 | the value `1 / q.m_value`, here 0.5 | not executed | Quantities.UnitDivCounterexample | Quantities.UnitDiv |
| src/dim/dynamic_quantity.hpp:230-231 | scalar `a += b` and `a -= b` evaluate `a += type(a)` and `a -= type(a)` | a = 1 (dimensionless), b = 5: `+=` gives 2 and `-=` gives 0 | `a += type(b)` and `a -= type(b)`: 6 and -4 | not executed | DynamicQuantities.ScalarAssignCounterexample | DynamicQuantities.PlusAssignScalar, DynamicQuantities.MinusAssignScalar |
| src/dim/io_detail.hpp:55-58 | a special symbol is copied until its NUL, with no bound on `end` | the special symbol "abcdef" into a 4-character buffer writes 6 characters | a copy bounded by the buffer, leaving room for the NUL | not executed | IoDetail.PrintUnitOverrunExample | IoDetail.PrintUnit |
| src/dim/io.hpp:158-170 | `non_dim(q)` computes `(q + add) / scale`, while the class comment and `input` use `s * scale + add` | scale 1 and add 1: `input(0)` is 1, and `non_dim` of it is 2 | `(q - add) / scale`, so `non_dim(input(s)) == s` | not executed | Formatting.NonDimAsWrittenCounterexample, Formatting.OutputCounterexample | Formatting.NonDim, Formatting.OutputIntended |
| src/dim/io.hpp:106-110 | `strncpy(m_symbol, i_symbol, kMaxSymbol - 1)` writes no NUL for a symbol of 31 or more characters, and `m_symbol` is not initialised | a 31-character symbol over a buffer whose last cell is not zero leaves no terminator | a symbol cut to 31 characters and NUL-terminated | not executed | Formatting.UnterminatedSymbol | Formatting.NewFormatter |
| src/dim/io.hpp:277-279 | the separator test reads `*result.ptr` even when the scalar ends at `i_end` | text "1" followed in memory by ' ': the returned position is 2, past the end | no read at `i_end`, so the position stays at 1 | not executed | Formatting.FromCharsPastEnd | Formatting.FromChars |
| src/dim/format_map.cpp:49-54 | `map_compare` returns the `long` difference of the indices narrowed to `int` | with only index 2^32 stored, `get(0)` returns its payload, and `set(0, q)` overwrites it | a three-way comparison of the indices | not executed | IndexMaps.NarrowingCollision, IndexMaps.SetCollision | IndexMaps.GetFindsExactly, IndexMaps.GetAfterSet |

=== FILE: base.dfy ===
/** The older single-header variant of the algebra, src/dim/base.hpp. Its
    unit, quantity and math templates agree with those of src/dim/unit.hpp
    and src/dim/quantity.hpp (modelled in `Quantities`) on the operators
    both headers define. The differences are the `uint64_t`
    `unit::index()`, and that base.hpp has no `q + U`, `U + q`, `q - U` or
    `U - q`: a unit is added to or taken from a quantity only through `+=`
    and `-=` (base.hpp:338-350), which add or subtract one as
    `Quantities.PlusUnit` and `Quantities.MinusUnit` do. */
module Base {
  import opened Int8
  import opened Scalars
  import Units
  import opened Quantities

  /** `unit::index()`: each exponent as an unsigned byte at bit 8i, in the
      order Length .. Luminosity. The `System` does not take part. */
  function Index64(u: StaticUnit): (code: Units.u64)
    ensures Units.DynUnit(code) == Index(u)
    ensures forall i: Units.Dim :: Units.GetByte(Units.DynUnit(code), i) == u.exps[i]
  {
    var e := u.exps;
    var code := ToByte(e[0]) as int + (ToByte(e[1]) as int) * 0x100 + (ToByte(e[2]) as int) * 0x1_0000
      + (ToByte(e[3]) as int) * 0x100_0000 + (ToByte(e[4]) as int) * 0x1_0000_0000
      + (ToByte(e[5]) as int) * 0x100_0000_0000 + (ToByte(e[6]) as int) * 0x1_0000_0000_0000
      + (ToByte(e[7]) as int) * 0x100_0000_0000_0000;
    Units.PackEight(Units.ByteImage(e));
    assert code == Index(u).code;
    code
  }

  /** The older index is the run-time `dynamic_unit` code, so it does not
      distinguish systems: units of different systems with equal exponents
      share an index. */
  lemma Index64IgnoresSystem(a: StaticUnit, b: StaticUnit)
    ensures Index64(a) == Index(a).code
    ensures Index64(a) == Index64(b) <==> a.exps == b.exps
  {
    IndexInjective(a, b);
  }

  /** `ensure_dimensions_match<U1, U2>()` admits a pair exactly when their
      run-time indices agree, i.e. when no component differs. */
  lemma EnsureDimensionsMatch(a: StaticUnit, b: StaticUnit)
    ensures SameDims(a, b) <==> Index64(a) == Index64(b)
    ensures !SameDims(a, b) <==> exists i :: 0 <= i < 8 && a.exps[i] != b.exps[i]
  {
    Index64IgnoresSystem(a, b);
  }

  /** `unit::inverse` negates all eight exponents; inverting twice is the
      identity and the index is the run-time inverse. */
  lemma InverseInvolution(u: StaticUnit)
    requires Fits(ScaleExps(u.exps, -1))
    ensures Fits(ScaleExps(UnitInverse(u).exps, -1))
    ensures UnitInverse(UnitInverse(u)) == u
    ensures forall i :: 0 <= i < 8 ==> UnitInverse(u).exps[i] == -(u.exps[i] as int)
    ensures Units.DynUnit(Index64(UnitInverse(u))) == Units.Inverse(Units.DynUnit(Index64(u)))
  {
    var v := UnitInverse(u);
    InverseNegates(u);
    InverseNegates(v);
    ExpsEqual(UnitInverse(v).exps, u.exps);
    Index64IgnoresSystem(u, u);
    Index64IgnoresSystem(v, u);
  }

  lemma InverseNegates(u: StaticUnit)
    requires Fits(ScaleExps(u.exps, -1))
    ensures forall i :: 0 <= i < 8 ==> UnitInverse(u).exps[i] == -(u.exps[i] as int)
    ensures UnitInverse(u).system == u.system
    ensures Fits(ScaleExps(UnitInverse(u).exps, -1))
  {
  }

  lemma ExpsEqual(a: Units.Exps, b: Units.Exps)
    requires forall i :: 0 <= i < 8 ==> a[i] == b[i]
    ensures a == b
  {
  }

  /** `U1 * U2`: the expression statement `ensure_systems_match<U1, U2>;`
      names a specialization, which is thereby instantiated, so its
      static_assert admits only units of one system. */
  function UnitTimes(u1: StaticUnit, u2: StaticUnit): (r: StaticUnit)
    requires SameSystem(u1, u2) && Fits(SumExps(u1.exps, u2.exps))
    ensures r.system == u1.system && r.system == u2.system
    ensures Index(r) == Units.Multiply(Index(u1), Index(u2))
  {
    UnitMultiply(u1, u2)
  }

  /** Scalar-on-unit operators: `s / U` times `1 * U` is the dimensionless
      value s, and `U / s` scaled back by s is the unit quantity. */
  lemma ScalarOnUnit(s: Scalar, u: StaticUnit)
    requires Fits(ScaleExps(u.exps, -1))
    ensures ScalarTimesUnit(s, u) == Quantity(u, s)
    ensures Fits(SumExps(ScalarDivUnit(s, u).unit.exps, u.exps))
    ensures var p := Times(ScalarDivUnit(s, u), ScalarTimesUnit(One, u));
            p.unit.exps == ZeroExps && p.value == Mul(s, One)
    ensures s.Num? && s.r != 0.0 ==> TimesScalar(UnitDivScalar(u, s), s) == ScalarTimesUnit(One, u)
  {
    var d := ScalarDivUnit(s, u);
    assert forall i :: 0 <= i < 8 ==> d.unit.exps[i] == -(u.exps[i] as int);
    var p := Times(d, ScalarTimesUnit(One, u));
    assert p.unit.exps == ZeroExps;
  }

  /** `sqrt` is `root<2>`: the same guard and the same unit. */
  lemma SqrtIsRootTwo(q: Quantity, sqrt: Scalar -> Scalar, pw: (Scalar, real) -> Scalar)
    requires RootGuard(q.unit, 2)
    ensures Fits(RootExps(q.unit.exps, 2))
    ensures Sqrt(q, sqrt).unit == Root(q, 2, pw).unit
  {
  }

  /** `ratpow<1, D>` carries the guard of `root<D>` and has its unit. */
  lemma RatPowOneIsRoot(q: Quantity, den: int, pw: (Scalar, real) -> Scalar)
    requires den != 0 && RootGuard(q.unit, den) && Fits(RootExps(q.unit.exps, den))
    ensures RatPowGuard(q.unit, 1, den)
    ensures Fits(RatPowExps(q.unit, 1, den))
    ensures RatPow(q, 1, den, pw).unit == Root(q, den, pw).unit
  {
    assert RatPowExps(q.unit, 1, den) == RootExps(q.unit.exps, den);
    var a := RatPow(q, 1, den, pw).unit;
    var b := Root(q, den, pw).unit;
    forall i | 0 <= i < 8 ensures a.exps[i] == b.exps[i] {
      assert a.exps[i] * den == q.unit.exps[i];
      assert b.exps[i] * den == q.unit.exps[i];
      MulCancel(a.exps[i], b.exps[i], den);
    }
  }
}

=== FILE: char_machine.dfy ===
/** The character-class state machines of the text front end (`src/dim/io.cpp`):
    `is_float_part`, which recognises the characters of a decimal floating-point
    literal, `is_unit_char`, which recognises the characters of a unit symbol,
    and `advance_past_separator`. */
module CharMachines {
  import opened Options

  /** The parse states shared by both machines. */
  datatype CharState = Start | Significand | Fraction | ExponentStart | Exponent | Unit

  /** One transition: whether the character is accepted, and the state afterwards. */
  datatype Step = Step(accepted: bool, state: CharState)

  predicate IsDigit(c: char) { '0' <= c <= '9' }
  predicate IsLetter(c: char) { 'A' <= c <= 'Z' || 'a' <= c <= 'z' }
  predicate IsSign(c: char) { c == '-' || c == '+' }
  predicate IsOperator(c: char) { c == '*' || c == '/' || c == '_' }

  /** `std::isspace` in the "C" locale: space, and tab through carriage return. */
  predicate IsSpace(c: char) { c == ' ' || '\t' <= c <= '\r' }

  /** The states in which the characters read so far form a complete number. */
  predicate IsFinalFloat(s: CharState) { s == Significand || s == Fraction || s == Exponent }

  /** `is_float_part(c, state)`. */
  function FloatStep(s: CharState, c: char): (r: Step)
    ensures !r.accepted ==> r.state == s
    ensures r.accepted ==> r.state != Start && r.state != Unit
    ensures s == Start ==> (r.accepted <==> IsSign(c) || IsDigit(c))
    ensures c == '.' ==> (r.accepted <==> s == Significand)
    ensures IsSign(c) ==> (r.accepted <==> s == Start || s == ExponentStart)
    ensures c == 'e' || c == 'E' ==> (r.accepted <==> s == Significand || s == Fraction)
    ensures c == 'e' || c == 'E' ==> r.accepted ==> r.state == ExponentStart
    ensures IsDigit(c) && (s == Significand || s == Fraction || s == Exponent) ==> r == Step(true, s)
    ensures s == Unit ==> !r.accepted
    ensures c == '_' || IsSpace(c) || (IsLetter(c) && c != 'e' && c != 'E') ==> !r.accepted
  {
    match s
    case Start =>
      if IsSign(c) then Step(true, Significand)
      else if IsDigit(c) then Step(true, Significand)
      else Step(false, s)
    case Significand =>
      if IsDigit(c) then Step(true, Significand)
      else if c == 'e' || c == 'E' then Step(true, ExponentStart)
      else if c == '.' then Step(true, Fraction)
      else Step(false, s)
    case Fraction =>
      if IsDigit(c) then Step(true, Fraction)
      else if c == 'e' || c == 'E' then Step(true, ExponentStart)
      else Step(false, s)
    case ExponentStart =>
      if IsSign(c) then Step(true, Exponent)
      else if IsDigit(c) then Step(true, Exponent)
      else Step(false, s)
    case Exponent =>
      if IsDigit(c) then Step(true, Exponent)
      else Step(false, s)
    case Unit => Step(false, s)
  }

  /** `is_unit_char(c, state)`. */
  function UnitStep(s: CharState, c: char): (r: Step)
    ensures !r.accepted ==> r.state == s
    ensures s != Unit && s != Exponent ==> !r.accepted
    ensures r.accepted ==> r.state == Unit || r.state == Exponent
    ensures IsSign(c) || IsSpace(c) ==> !r.accepted
    ensures s == Unit ==> (r.accepted <==> IsLetter(c) || IsOperator(c) || c == '^')
    ensures s == Exponent ==> (r.accepted <==> IsLetter(c) || IsOperator(c) || IsDigit(c))
    ensures r.accepted ==> (r.state == Exponent <==> c == '^' || IsDigit(c))
  {
    match s
    case Unit =>
      if IsLetter(c) || IsOperator(c) then Step(true, Unit)
      else if c == '^' then Step(true, Exponent)
      else Step(false, s)
    case Exponent =>
      if IsDigit(c) then Step(true, Exponent)
      else if IsLetter(c) || IsOperator(c) then Step(true, Unit)
      else Step(false, s)
    case _ => Step(false, s)
  }

  /** Feeds a whole word to a machine; None when some character is rejected. */
  function Run(m: (CharState, char) -> Step, s: CharState, w: seq<char>): Option<CharState>
    decreases |w|
  {
    if |w| == 0 then Some(s)
    else
      var t := m(s, w[0]);
      if t.accepted then Run(m, t.state, w[1..]) else None
  }

  /** Reading a + b is reading a, then b from wherever a left the machine. */
  lemma {:induction false} RunAppend(m: (CharState, char) -> Step, s: CharState, a: seq<char>, b: seq<char>)
    ensures Run(m, s, a + b) == (if Run(m, s, a).Some? then Run(m, Run(m, s, a).value, b) else None)
    decreases |a|
  {
    if |a| == 0 {
      assert a + b == b;
    } else {
      var t := m(s, a[0]);
      assert (a + b)[0] == a[0];
      assert (a + b)[1..] == a[1..] + b;
      if t.accepted {
        RunAppend(m, t.state, a[1..], b);
      }
    }
  }

  /** Reading one more character is one more step. */
  lemma RunSnoc(m: (CharState, char) -> Step, s: CharState, w: seq<char>, c: char)
    requires Run(m, s, w).Some?
    ensures Run(m, s, w + [c]) == (if m(Run(m, s, w).value, c).accepted then Some(m(Run(m, s, w).value, c).state) else None)
  {
    RunAppend(m, s, w, [c]);
    var t := Run(m, s, w).value;
    assert Run(m, t, [c]) == (if m(t, c).accepted then Run(m, m(t, c).state, []) else None);
  }

  /** The float machine never enters the Unit state. */
  lemma {:induction false} FloatRunAvoidsUnit(s: CharState, w: seq<char>)
    requires s != Unit && Run(FloatStep, s, w).Some?
    ensures Run(FloatStep, s, w).value != Unit
    decreases |w|
  {
    if |w| > 0 {
      FloatRunAvoidsUnit(FloatStep(s, w[0]).state, w[1..]);
    }
  }

  predicate AllDigits(w: seq<char>) { forall k :: 0 <= k < |w| ==> IsDigit(w[k]) }

  /** Digits never move the float machine out of Significand, Fraction or Exponent. */
  lemma {:induction false} DigitsKeepFloatState(s: CharState, w: seq<char>)
    requires s == Significand || s == Fraction || s == Exponent
    requires AllDigits(w)
    ensures Run(FloatStep, s, w) == Some(s)
    decreases |w|
  {
    if |w| > 0 {
      assert IsDigit(w[0]);
      DigitsKeepFloatState(s, w[1..]);
    }
  }

  /** A decimal literal assembled from its parts:
      sign? whole ('.' fraction)? (e sign? digits)?. */
  function Literal(sign: seq<char>, whole: seq<char>, frac: Option<seq<char>>,
                   exp: Option<(char, seq<char>, seq<char>)>): seq<char>
  {
    sign + whole
    + (if frac.Some? then ['.'] + frac.value else [])
    + (if exp.Some? then [exp.value.0] + exp.value.1 + exp.value.2 else [])
  }

  /** The parts of a well-formed decimal literal: an optional sign, at least one
      integer digit, an optional fraction of digits, and an optional exponent
      marked by e or E with an optional sign and at least one digit. */
  predicate WellFormedLiteral(sign: seq<char>, whole: seq<char>, frac: Option<seq<char>>,
                              exp: Option<(char, seq<char>, seq<char>)>)
  {
    && |sign| <= 1 && (|sign| == 1 ==> IsSign(sign[0]))
    && |whole| >= 1 && AllDigits(whole)
    && (frac.Some? ==> AllDigits(frac.value))
    && (exp.Some? ==>
          && (exp.value.0 == 'e' || exp.value.0 == 'E')
          && |exp.value.1| <= 1 && (|exp.value.1| == 1 ==> IsSign(exp.value.1[0]))
          && |exp.value.2| >= 1 && AllDigits(exp.value.2))
  }

  /** Every well-formed decimal literal is read by `is_float_part` from the start
      state to a final state: Fraction when it has a fraction and no exponent,
      Exponent when it has an exponent, Significand otherwise. */
  lemma AcceptsLiterals(sign: seq<char>, whole: seq<char>, frac: Option<seq<char>>,
                        exp: Option<(char, seq<char>, seq<char>)>)
    requires WellFormedLiteral(sign, whole, frac, exp)
    ensures Run(FloatStep, Start, Literal(sign, whole, frac, exp))
         == Some(if exp.Some? then Exponent else if frac.Some? then Fraction else Significand)
  {
    var head := sign + whole;
    // The sign, or the first digit, moves Start to Significand.
    if |sign| == 1 {
      assert Run(FloatStep, Start, sign) == Some(Significand) by {
        assert Run(FloatStep, Significand, sign[1..]) == Some(Significand);
      }
      DigitsKeepFloatState(Significand, whole);
      RunAppend(FloatStep, Start, sign, whole);
    } else {
      assert sign == [] && head == whole;
      DigitsKeepFloatState(Significand, whole[1..]);
    }
    assert Run(FloatStep, Start, head) == Some(Significand);
    var mid := head + (if frac.Some? then ['.'] + frac.value else []);
    var midState := if frac.Some? then Fraction else Significand;
    if frac.Some? {
      DigitsKeepFloatState(Fraction, frac.value);
      assert Run(FloatStep, Significand, ['.'] + frac.value) == Some(Fraction) by {
        assert (['.'] + frac.value)[1..] == frac.value;
      }
      RunAppend(FloatStep, Start, head, ['.'] + frac.value);
    } else {
      assert mid == head;
    }
    assert Run(FloatStep, Start, mid) == Some(midState);
    if exp.Some? {
      var tail := [exp.value.0] + exp.value.1 + exp.value.2;
      DigitsKeepFloatState(Exponent, exp.value.2);
      if |exp.value.1| == 1 {
        assert Run(FloatStep, ExponentStart, exp.value.1) == Some(Exponent) by {
          assert Run(FloatStep, Exponent, exp.value.1[1..]) == Some(Exponent);
        }
        RunAppend(FloatStep, ExponentStart, exp.value.1, exp.value.2);
      } else {
        assert exp.value.1 + exp.value.2 == exp.value.2;
        DigitsKeepFloatState(Exponent, exp.value.2[1..]);
      }
      assert tail[1..] == exp.value.1 + exp.value.2;
      assert Run(FloatStep, midState, tail) == Some(Exponent);
      RunAppend(FloatStep, Start, mid, tail);
      assert Literal(sign, whole, frac, exp) == mid + tail;
    } else {
      assert Literal(sign, whole, frac, exp) == mid;
    }
  }

  /** Letters and the operators `*`, `/`, `_` never leave the Unit state. */
  lemma {:induction false} SymbolCharsKeepUnit(w: seq<char>)
    requires forall k :: 0 <= k < |w| ==> IsLetter(w[k]) || IsOperator(w[k])
    ensures Run(UnitStep, Unit, w) == Some(Unit)
    decreases |w|
  {
    if |w| > 0 {
      SymbolCharsKeepUnit(w[1..]);
    }
  }

  /** A word accepted by `is_unit_char` contains no sign and no white space, and
      every character is a letter, an operator, a digit or `^`. */
  lemma {:induction false} UnitWordsAreSymbols(s: CharState, w: seq<char>)
    requires Run(UnitStep, s, w).Some?
    ensures forall k :: 0 <= k < |w| ==>
              IsLetter(w[k]) || IsOperator(w[k]) || IsDigit(w[k]) || w[k] == '^'
    ensures forall k :: 0 <= k < |w| ==> !IsSign(w[k]) && !IsSpace(w[k])
    decreases |w|
  {
    if |w| > 0 {
      var t := UnitStep(s, w[0]);
      UnitWordsAreSymbols(t.state, w[1..]);
      assert forall k :: 1 <= k < |w| ==> w[k] == w[1..][k - 1];
    }
  }

  /** `advance_past_separator`: the index of the first character at or after i
      that is not a space, `*` or `_`, or the end of the string. */
  function AdvancePastSeparator(s: seq<char>, i: nat): (j: nat)
    requires i <= |s|
    ensures i <= j <= |s|
    ensures forall k :: i <= k < j ==> s[k] in {' ', '*', '_'}
    ensures j < |s| ==> s[j] !in {' ', '*', '_'}
    decreases |s| - i
  {
    if i < |s| && s[i] in {' ', '*', '_'} then AdvancePastSeparator(s, i + 1) else i
  }

  /** Skipping separators twice skips nothing more, and a `.` is never skipped. */
  lemma AdvanceIdempotent(s: seq<char>, i: nat)
    requires i <= |s|
    ensures AdvancePastSeparator(s, AdvancePastSeparator(s, i)) == AdvancePastSeparator(s, i)
    ensures i < |s| && s[i] == '.' ==> AdvancePastSeparator(s, i) == i
  {
  }
}

=== FILE: dynamic_quantity.dfy ===
/** `dynamic_quantity` (src/dim/dynamic_quantity.hpp): a scalar with a
    run-time unit. Units are checked when the operation runs; a mismatch
    yields the NaN "bad" quantity instead of a compile error. */
module DynamicQuantities {
  import opened Scalars
  import opened Units
  import Q = Quantities

  datatype DynQuantity = DynQuantity(value: Scalar, unit: DynUnit)

  /** `bad_quantity()`: NaN with the dimensionless unit. */
  const Bad: DynQuantity := DynQuantity(NaN, Dimensionless)

  /** `is_bad()`: the NaN test on the value, whatever the unit. */
  predicate IsBad(q: DynQuantity) { IsNaN(q.value) }

  /** `dimensionless()`. */
  predicate IsDimensionless(q: DynQuantity) { q.unit == Dimensionless }

  /** `dynamic_quantity(s)`: a dimensionless scalar. */
  function FromScalar(s: Scalar): (q: DynQuantity)
    ensures IsDimensionless(q) && q.value == s
  {
    DynQuantity(s, Dimensionless)
  }

  /** `dynamic_quantity(unit)`: value one in that unit. */
  function FromUnit(u: DynUnit): (q: DynQuantity)
    ensures q.unit == u && q.value == One
  {
    DynQuantity(One, u)
  }

  /** `dynamic_quantity(Q const&)`: the value and `index(q)`. */
  function FromStatic(q: Q.Quantity): (d: DynQuantity)
    ensures Exponents(d.unit) == q.unit.exps && d.value == q.value
  {
    DynQuantity(q.value, Q.Index(q.unit))
  }

  /** `as<Q>()`: the value in the target type when the run-time unit is the
      target's index, otherwise the target's bad quantity. */
  function As(d: DynQuantity, target: Q.StaticUnit): (r: Q.Quantity)
    ensures r.unit == target
    ensures d.unit == Q.Index(target) ==> r.value == d.value
    ensures d.unit != Q.Index(target) ==> Q.IsBad(r)
  {
    if d.unit == Q.Index(target) then Q.Quantity(target, d.value)
    else Q.BadQuantity(target)
  }

  /** Static to dynamic and back through `as` is the identity, and `as`
      fails exactly when the exponent vectors differ. */
  lemma AsRoundTrip(q: Q.Quantity, target: Q.StaticUnit)
    ensures As(FromStatic(q), q.unit) == q
    ensures !Q.IsBad(q) ==>
              (Q.IsBad(As(FromStatic(q), target)) <==> q.unit.exps != target.exps)
  {
    Q.IndexInjective(q.unit, target);
  }

  // ---------------------------------------------------------------------
  // Quantity-quantity operators

  /** `multiply(a, b)`, `a * b`, `a *= b`. */
  function Multiply(a: DynQuantity, b: DynQuantity): (r: DynQuantity)
    ensures r.unit == Units.Multiply(a.unit, b.unit)
    ensures r.value == Mul(a.value, b.value)
  {
    DynQuantity(Mul(a.value, b.value), Units.Multiply(a.unit, b.unit))
  }

  /** `divide(a, b)`, `a / b`, `a /= b`: multiply by `(1 / b.value,
      inverse(b.unit()))`. */
  function Divide(a: DynQuantity, b: DynQuantity): (r: DynQuantity)
    ensures Units.Multiply(r.unit, b.unit) == a.unit
    ensures b.value.Num? && b.value.r != 0.0 ==> r.value == Div(a.value, b.value)
    ensures b.value.NaN? || b.value == Zero ==> r.value.NaN?
  {
    var r := Multiply(a, DynQuantity(Div(One, b.value), Inverse(b.unit)));
    MultiplyAssociates(a.unit, Inverse(b.unit), b.unit);
    MultiplyCommutes(Inverse(b.unit), b.unit);
    MultiplyInverse(b.unit);
    MultiplyIdentity(a.unit);
    r
  }

  /** Dividing a product by a non-zero factor gives the other factor back,
      unit and value. */
  lemma MultiplyDivide(a: DynQuantity, b: DynQuantity)
    requires b.value.Num? && b.value.r != 0.0
    ensures Divide(Multiply(a, b), b) == a
  {
    MultiplyAssociates(a.unit, b.unit, Inverse(b.unit));
    MultiplyInverse(b.unit);
    MultiplyIdentity(a.unit);
  }

  /** The dynamic product of converted static quantities is the conversion
      of the static product. */
  lemma MultiplyMatchesStatic(q1: Q.Quantity, q2: Q.Quantity)
    requires Q.SameSystem(q1.unit, q2.unit) && Q.Fits(Q.SumExps(q1.unit.exps, q2.unit.exps))
    ensures FromStatic(Q.Times(q1, q2)) == Multiply(FromStatic(q1), FromStatic(q2))
  {
  }

  /** `add(a, b)`, `a + b`, `a += b`: the sum in a's unit when the units are
      equal, else `bad_quantity()`. */
  function Add(a: DynQuantity, b: DynQuantity): (r: DynQuantity)
    ensures a.unit == b.unit ==> r == DynQuantity(Scalars.Add(a.value, b.value), a.unit)
    ensures a.unit != b.unit ==> r == Bad
  {
    if a.unit == b.unit then DynQuantity(Scalars.Add(a.value, b.value), a.unit) else Bad
  }

  /** `subtract(a, b)`, `a - b`, `a -= b`. */
  function Subtract(a: DynQuantity, b: DynQuantity): (r: DynQuantity)
    ensures a.unit == b.unit ==> r == DynQuantity(Sub(a.value, b.value), a.unit)
    ensures a.unit != b.unit ==> r == Bad
  {
    if a.unit == b.unit then DynQuantity(Sub(a.value, b.value), a.unit) else Bad
  }

  /** Adding then subtracting the same quantity is the identity; a unit
      mismatch makes both bad. */
  lemma AddSubtract(a: DynQuantity, b: DynQuantity)
    ensures a.unit == b.unit && !IsBad(b) ==> Subtract(Add(a, b), b) == a
    ensures a.unit != b.unit ==> IsBad(Add(a, b)) && IsBad(Subtract(a, b))
  {
  }

  /** The dynamic sum of converted static quantities is the conversion of
      the static sum. */
  lemma AddMatchesStatic(q1: Q.Quantity, q2: Q.Quantity)
    requires Q.Compatible(q1.unit, q2.unit)
    ensures FromStatic(Q.Plus(q1, q2)) == Add(FromStatic(q1), FromStatic(q2))
  {
  }

  /** Unary `-a`. */
  function Negate(a: DynQuantity): (r: DynQuantity)
    ensures r.unit == a.unit && r.value == Neg(a.value)
  {
    DynQuantity(Neg(a.value), a.unit)
  }

  // ---------------------------------------------------------------------
  // Comparisons: `<` and `==` are false on a unit mismatch; the others are
  // derived from them.

  predicate Less(a: DynQuantity, b: DynQuantity)
  {
    if a.unit == b.unit then Lt(a.value, b.value) else false
  }

  predicate Equal(a: DynQuantity, b: DynQuantity)
  {
    if a.unit == b.unit then Eq(a.value, b.value) else false
  }

  predicate NotEqual(a: DynQuantity, b: DynQuantity) { !Equal(a, b) }
  predicate Greater(a: DynQuantity, b: DynQuantity) { Less(b, a) }
  predicate LessEq(a: DynQuantity, b: DynQuantity) { !Less(b, a) }
  predicate GreaterEq(a: DynQuantity, b: DynQuantity) { !Less(a, b) }

  /** On a unit mismatch or a bad operand, `<`, `>` and `==` are false while
      `!=`, `<=` and `>=` are true. With equal units and no NaN the
      comparisons are those of the values. */
  lemma MismatchComparisons(a: DynQuantity, b: DynQuantity)
    ensures a.unit != b.unit || IsBad(a) || IsBad(b) ==>
              !Less(a, b) && !Greater(a, b) && !Equal(a, b)
              && NotEqual(a, b) && LessEq(a, b) && GreaterEq(a, b)
    ensures a.unit == b.unit && !IsBad(a) && !IsBad(b) ==>
              (LessEq(a, b) <==> a.value.r <= b.value.r)
              && (Equal(a, b) <==> a.value == b.value)
  {
  }

  // ---------------------------------------------------------------------
  // Scalar-quantity operators

  function ScalarTimes(s: Scalar, b: DynQuantity): (r: DynQuantity)
    ensures r.unit == b.unit && r.value == Mul(b.value, s)
  {
    DynQuantity(Mul(b.value, s), b.unit)
  }

  /** `s / b`: the inverse unit. */
  function ScalarDiv(s: Scalar, b: DynQuantity): (r: DynQuantity)
    ensures Units.Multiply(r.unit, b.unit) == Dimensionless
    ensures r.value == Div(s, b.value)
  {
    MultiplyInverse(b.unit);
    MultiplyCommutes(Inverse(b.unit), b.unit);
    DynQuantity(Div(s, b.value), Inverse(b.unit))
  }

  function DivScalar(a: DynQuantity, s: Scalar): (r: DynQuantity)
    ensures r.unit == a.unit && r.value == Div(a.value, s)
  {
    DynQuantity(Div(a.value, s), a.unit)
  }

  /** `s + b` and `b + s` add the dimensionless `type(s)`, so they are bad
      unless b is dimensionless. */
  function ScalarPlus(s: Scalar, b: DynQuantity): (r: DynQuantity)
    ensures IsDimensionless(b) ==> r == DynQuantity(Scalars.Add(b.value, s), Dimensionless)
    ensures !IsDimensionless(b) ==> r == Bad
  {
    Add(b, FromScalar(s))
  }

  /** `s - b` is `type(s) - b`; `b - s` is `b - type(s)`. */
  function ScalarMinus(s: Scalar, b: DynQuantity): (r: DynQuantity)
    ensures IsDimensionless(b) ==> r == DynQuantity(Sub(s, b.value), Dimensionless)
    ensures !IsDimensionless(b) ==> r == Bad
  {
    Subtract(FromScalar(s), b)
  }

  function MinusScalar(b: DynQuantity, s: Scalar): (r: DynQuantity)
    ensures IsDimensionless(b) ==> r == DynQuantity(Sub(b.value, s), Dimensionless)
    ensures !IsDimensionless(b) ==> r == Bad
  {
    Subtract(b, FromScalar(s))
  }

  /** `a *= s` and `a /= s` go through `type(s)`: the unit is unchanged. */
  lemma ScalarCompound(a: DynQuantity, s: Scalar)
    ensures Multiply(a, FromScalar(s)) == DynQuantity(Mul(a.value, s), a.unit)
    ensures s.Num? && s.r != 0.0 ==>
              Divide(a, FromScalar(s)) == DynQuantity(Mul(a.value, Div(One, s)), a.unit)
  {
    MultiplyIdentity(a.unit);
    PowSmall(Dimensionless);
    PowAdd(Dimensionless, 0, 0);
    assert Inverse(Dimensionless) == Dimensionless by {
      MultiplyInverse(Dimensionless);
      MultiplyCommutes(Dimensionless, Inverse(Dimensionless));
      MultiplyIdentity(Inverse(Dimensionless));
    }
  }

  /** `a += s` as written: `a += type(a)`, which ignores s and doubles a. */
  function PlusAssignScalarAsWritten(a: DynQuantity, s: Scalar): (r: DynQuantity)
    ensures r == DynQuantity(Scalars.Add(a.value, a.value), a.unit)
  {
    Add(a, a)
  }

  /** `a -= s` as written: `a -= type(a)`, zero (or NaN) whatever s is. */
  function MinusAssignScalarAsWritten(a: DynQuantity, s: Scalar): (r: DynQuantity)
    ensures r == DynQuantity(Sub(a.value, a.value), a.unit)
  {
    Subtract(a, a)
  }

  /** `a += s` as intended: `a += type(s)`, the same as `a + s`. */
  function PlusAssignScalar(a: DynQuantity, s: Scalar): (r: DynQuantity)
    ensures r == ScalarPlus(s, a)
  {
    Add(a, FromScalar(s))
  }

  /** `a -= s` as intended: `a -= type(s)`. */
  function MinusAssignScalar(a: DynQuantity, s: Scalar): (r: DynQuantity)
    ensures r == MinusScalar(a, s)
  {
    Subtract(a, FromScalar(s))
  }

  /** The written operators give the same result for every right operand:
      with a = 1 and s = 5, `a += s` yields 2 and `a -= s` yields 0, where
      6 and -4 are intended. */
  lemma ScalarAssignCounterexample(a: DynQuantity, s1: Scalar, s2: Scalar)
    ensures PlusAssignScalarAsWritten(a, s1) == PlusAssignScalarAsWritten(a, s2)
    ensures MinusAssignScalarAsWritten(a, s1) == MinusAssignScalarAsWritten(a, s2)
    ensures PlusAssignScalarAsWritten(FromScalar(One), Num(5.0)).value == Num(2.0)
    ensures PlusAssignScalar(FromScalar(One), Num(5.0)).value == Num(6.0)
    ensures MinusAssignScalarAsWritten(FromScalar(One), Num(5.0)).value == Num(0.0)
    ensures MinusAssignScalar(FromScalar(One), Num(5.0)).value == Num(-4.0)
  {
  }

  // ---------------------------------------------------------------------
  // Quantity-unit operators: each goes through `type(unit)`.

  function UnitTimes(u: DynUnit, q: DynQuantity): (r: DynQuantity)
    ensures r.unit == Units.Multiply(u, q.unit) && r.value == Mul(One, q.value)
  {
    Multiply(FromUnit(u), q)
  }

  function UnitDiv(u: DynUnit, q: DynQuantity): (r: DynQuantity)
    ensures Units.Multiply(r.unit, q.unit) == u
    ensures q.value.Num? && q.value.r != 0.0 ==> r.value == Div(One, q.value)
    ensures q.value.NaN? || q.value == Zero ==> r.value.NaN?
  {
    Divide(FromUnit(u), q)
  }

  function DivUnit(q: DynQuantity, u: DynUnit): (r: DynQuantity)
    ensures Units.Multiply(r.unit, u) == q.unit
    ensures r.value == Mul(q.value, One)
  {
    MultiplyAssociates(q.unit, Inverse(u), u);
    MultiplyInverse(u);
    MultiplyCommutes(Inverse(u), u);
    MultiplyIdentity(q.unit);
    Divide(q, FromUnit(u))
  }

  /** `u + q` and `q + u` add one in q's unit when the units agree. */
  function UnitPlus(u: DynUnit, q: DynQuantity): (r: DynQuantity)
    ensures u == q.unit ==> r == DynQuantity(Scalars.Add(One, q.value), u)
    ensures u != q.unit ==> r == Bad
  {
    Add(FromUnit(u), q)
  }

  function UnitMinus(u: DynUnit, q: DynQuantity): (r: DynQuantity)
    ensures u == q.unit ==> r == DynQuantity(Sub(One, q.value), u)
    ensures u != q.unit ==> r == Bad
  {
    Subtract(FromUnit(u), q)
  }

  function MinusUnit(q: DynQuantity, u: DynUnit): (r: DynQuantity)
    ensures u == q.unit ==> r == DynQuantity(Sub(q.value, One), u)
    ensures u != q.unit ==> r == Bad
  {
    Subtract(q, FromUnit(u))
  }

  /** `power(a, n)`: `std::pow` of the value (the parameter `pw`) in the
      unit `pow(a.unit(), n)`. */
  function Power(a: DynQuantity, n: int, pw: (Scalar, int) -> Scalar): (r: DynQuantity)
    ensures forall i: Dim :: GetByte(r.unit, i) == Int8.Wrap8(n * GetByte(a.unit, i))
    ensures r.value == pw(a.value, n)
  {
    DynQuantity(pw(a.value, n), Pow(a.unit, n))
  }

  /** Powers add under multiplication, and power -1 has the inverse unit. */
  lemma PowerLaws(a: DynQuantity, m: int, n: int, pw: (Scalar, int) -> Scalar)
    ensures Power(a, m + n, pw).unit == Multiply(Power(a, m, pw), Power(a, n, pw)).unit
    ensures Power(a, -1, pw).unit == Inverse(a.unit)
  {
    PowAdd(a.unit, m, n);
    PowSmall(a.unit);
  }
}

=== FILE: extract.dfy ===
/** `detail::extract_quantity` (`src/dim/io_stream.cpp`): splits text such as
    "+123.456E-123_m^2" into a number and a unit symbol, both stored in one
    caller-supplied buffer of `bufmax` characters. The stream is a character
    sequence read from the front; reading past its end makes the stream fail. */
module Extraction {
  import opened Options
  import opened CharMachines

  /** A successful extraction: the number and the unit as C strings, and the
      position of the first character left in the stream. */
  datatype Token = Token(number: seq<char>, unit: seq<char>, next: nat)

  /** Skips white space starting at i, as the `peek`/`get` loops do. */
  function SkipSpaces(s: seq<char>, i: nat): (j: nat)
    requires i <= |s|
    ensures i <= j <= |s|
    ensures forall k :: i <= k < j ==> IsSpace(s[k])
    ensures j < |s| ==> !IsSpace(s[j])
    decreases |s| - i
  {
    if i < |s| && IsSpace(s[i]) then SkipSpaces(s, i + 1) else i
  }

  /** The number phase from the n-th stored character on: the number of stored
      characters and the final state, or None when a character is neither part
      of a number nor a separator (`_` or white space), or the stream ends. */
  function NumberPhase(s: seq<char>, p: nat, n: nat, st: CharState, bufmax: nat): (r: Option<(nat, CharState)>)
    requires p + n <= |s|
    decreases bufmax - n
  {
    if n >= bufmax then Some((n, st))
    else if p + n == |s| then None
    else
      var t := FloatStep(st, s[p + n]);
      if t.accepted then NumberPhase(s, p, n + 1, t.state, bufmax)
      else if s[p + n] == '_' || IsSpace(s[p + n]) then Some((n, st))
      else None
  }

  /** The unit phase from the n-th stored character on: the number of characters
      `is_unit_char` accepted before the first rejected one, the end of the
      stream or a full buffer, and the final state. */
  function UnitPhase(s: seq<char>, q: nat, n: nat, st: CharState, cap: nat): (r: (nat, CharState))
    requires q + n <= |s|
    decreases cap - n
  {
    if n >= cap || q + n == |s| then (n, st)
    else
      var t := UnitStep(st, s[q + n]);
      if t.accepted then UnitPhase(s, q, n + 1, t.state, cap) else (n, st)
  }

  /** The number phase stores exactly the characters the float machine accepts,
      and stops early only at a separator. */
  lemma {:induction false} NumberPhaseFacts(s: seq<char>, p: nat, n: nat, st: CharState, bufmax: nat)
    requires p + n <= |s|
    ensures var r := NumberPhase(s, p, n, st, bufmax);
      r.Some? ==>
        && n <= r.value.0 && p + r.value.0 <= |s|
        && (n <= bufmax ==> r.value.0 <= bufmax)
        && Run(FloatStep, st, s[p + n .. p + r.value.0]) == Some(r.value.1)
        && (r.value.0 < bufmax ==> p + r.value.0 < |s| && (s[p + r.value.0] == '_' || IsSpace(s[p + r.value.0])))
    decreases bufmax - n
  {
    var r := NumberPhase(s, p, n, st, bufmax);
    if n >= bufmax || p + n == |s| {
    } else {
      var t := FloatStep(st, s[p + n]);
      if t.accepted {
        NumberPhaseFacts(s, p, n + 1, t.state, bufmax);
        if r.Some? {
          var w := s[p + n .. p + r.value.0];
          assert w[0] == s[p + n] && w[1..] == s[p + n + 1 .. p + r.value.0];
        }
      } else if r.Some? {
        assert s[p + n .. p + r.value.0] == [];
      }
    }
  }

  /** Conversely, a run of float characters followed by a separator, with room
      to spare, is stored in full. */
  lemma {:induction false} NumberPhaseReads(s: seq<char>, p: nat, n: nat, st: CharState, bufmax: nat, m: nat, fin: CharState)
    requires p + n <= p + m < |s| && m < bufmax
    requires Run(FloatStep, st, s[p + n .. p + m]) == Some(fin)
    requires s[p + m] == '_' || IsSpace(s[p + m])
    ensures NumberPhase(s, p, n, st, bufmax) == Some((m, fin))
    decreases m - n
  {
    if n == m {
      assert !FloatStep(st, s[p + n]).accepted;
    } else {
      var w := s[p + n .. p + m];
      assert w[0] == s[p + n] && w[1..] == s[p + n + 1 .. p + m];
      NumberPhaseReads(s, p, n + 1, FloatStep(st, s[p + n]).state, bufmax, m, fin);
    }
  }

  /** The unit phase stores exactly what `is_unit_char` accepts, and stops before
      the buffer is full only at the end of the stream or a rejected character. */
  lemma {:induction false} UnitPhaseFacts(s: seq<char>, q: nat, n: nat, st: CharState, cap: nat)
    requires q + n <= |s| && n <= cap
    ensures var r := UnitPhase(s, q, n, st, cap);
      && n <= r.0 <= cap && q + r.0 <= |s|
      && Run(UnitStep, st, s[q + n .. q + r.0]) == Some(r.1)
      && (r.0 < cap && q + r.0 < |s| ==> !UnitStep(r.1, s[q + r.0]).accepted)
    decreases cap - n
  {
    if n >= cap || q + n == |s| {
    } else {
      var t := UnitStep(st, s[q + n]);
      if t.accepted {
        UnitPhaseFacts(s, q, n + 1, t.state, cap);
        var r := UnitPhase(s, q, n, st, cap);
        var w := s[q + n .. q + r.0];
        assert w[0] == s[q + n] && w[1..] == s[q + n + 1 .. q + r.0];
      }
    }
  }

  /** The result `extract_quantity` computes, phase by phase. */
  function Extract(s: seq<char>, bufmax: nat): (r: Option<Token>)
  {
    var p := SkipSpaces(s, 0);
    var number := NumberPhase(s, p, 0, Start, bufmax);
    if number.None? then None
    else
      var n, st := number.value.0, number.value.1;
      if st == Start || st == ExponentStart then None
      else if n == bufmax || n + 1 == bufmax then None
      else
        NumberPhaseFacts(s, p, 0, Start, bufmax);
        UnitTail(s, p, n, bufmax)
  }

  /** The unit phase, after a number of n characters stored from position p. */
  function UnitTail(s: seq<char>, p: nat, n: nat, bufmax: nat): (r: Option<Token>)
    requires p + n < |s| && n + 1 < bufmax
  {
    var q := SkipSpaces(s, p + n + 1);
    var cap := bufmax - (n + 1);
    var len := UnitPhase(s, q, 0, Unit, cap).0;
    UnitPhaseFacts(s, q, 0, Unit, cap);
    if len == cap then None
    else Some(Token(s[p .. p + n], s[q .. q + len], q + len))
  }

  /** The number part of a successful extraction: after leading white space, a
      non-empty run the float machine reads to a final state, followed by a
      separator, with room for the NUL after it. */
  predicate NumberDescribed(s: seq<char>, bufmax: nat, number: seq<char>)
  {
    var p := SkipSpaces(s, 0);
    && p + |number| < |s|
    && number == s[p .. p + |number|]
    && Run(FloatStep, Start, number).Some?
    && IsFinalFloat(Run(FloatStep, Start, number).value)
    && (s[p + |number|] == '_' || IsSpace(s[p + |number|]))
    && |number| + 1 < bufmax
  }

  /** The unit part: after the separator and more white space, the longest run
      `is_unit_char` accepts, which with its NUL fits in what the number left. */
  predicate UnitDescribed(s: seq<char>, bufmax: nat, after: nat, t: Token)
    requires after <= |s|
  {
    var q := SkipSpaces(s, after);
    && q + |t.unit| == t.next <= |s|
    && t.unit == s[q .. t.next]
    && Run(UnitStep, Unit, t.unit).Some?
    && (t.next < |s| ==> !UnitStep(Run(UnitStep, Unit, t.unit).value, s[t.next]).accepted)
    && |t.number| + 1 + |t.unit| + 1 <= bufmax
  }

  /** What a successful extraction means: the number, one consumed separator,
      then the unit; both strings with their terminating NULs fit in the buffer. */
  predicate Describes(s: seq<char>, bufmax: nat, t: Token)
  {
    && NumberDescribed(s, bufmax, t.number)
    && UnitDescribed(s, bufmax, SkipSpaces(s, 0) + |t.number| + 1, t)
  }

  /** Every successful extraction is described by `Describes`. */
  lemma ExtractSound(s: seq<char>, bufmax: nat)
    requires Extract(s, bufmax).Some?
    ensures Describes(s, bufmax, Extract(s, bufmax).value)
  {
    var t := Extract(s, bufmax).value;
    var p := SkipSpaces(s, 0);
    NumberPhaseFacts(s, p, 0, Start, bufmax);
    var n := NumberPhase(s, p, 0, Start, bufmax).value.0;
    UnitTailSound(s, p, n, bufmax);
    assert s[p + 0 .. p + n] == t.number;
    FloatRunAvoidsUnit(Start, t.number);
  }

  lemma UnitTailSound(s: seq<char>, p: nat, n: nat, bufmax: nat)
    requires p + n < |s| && n + 1 < bufmax && UnitTail(s, p, n, bufmax).Some?
    ensures var t := UnitTail(s, p, n, bufmax).value;
      t.number == s[p .. p + n] && UnitDescribed(s, bufmax, p + n + 1, t)
  {
    var q := SkipSpaces(s, p + n + 1);
    UnitPhaseFacts(s, q, 0, Unit, bufmax - (n + 1));
    var t := UnitTail(s, p, n, bufmax).value;
    assert s[q + 0 .. q + |t.unit|] == t.unit;
  }

  /** Every token `Describes` admits is what the extraction returns, so the
      description determines the result. */
  lemma ExtractComplete(s: seq<char>, bufmax: nat, t: Token)
    requires Describes(s, bufmax, t)
    ensures Extract(s, bufmax) == Some(t)
  {
    var p := SkipSpaces(s, 0);
    var n := |t.number|;
    assert NumberDescribed(s, bufmax, t.number);
    var fin := Run(FloatStep, Start, t.number).value;
    assert s[p + 0 .. p + n] == t.number;
    NumberPhaseReads(s, p, 0, Start, bufmax, n, fin);
    assert NumberPhase(s, p, 0, Start, bufmax) == Some((n, fin));
    assert fin != Start && fin != ExponentStart && n + 1 < bufmax;
    UnitTailComplete(s, p, n, bufmax, t);
  }

  lemma UnitTailComplete(s: seq<char>, p: nat, n: nat, bufmax: nat, t: Token)
    requires p + n < |s| && n + 1 < bufmax
    requires t.number == s[p .. p + n]
    requires UnitDescribed(s, bufmax, p + n + 1, t)
    ensures UnitTail(s, p, n, bufmax) == Some(t)
  {
    var q := SkipSpaces(s, p + n + 1);
    UnitRunLength(s, q, bufmax - (n + 1), t.unit);
  }

  /** The unit phase stops exactly at the end of a maximal accepted run. */
  lemma UnitRunLength(s: seq<char>, q: nat, cap: nat, u: seq<char>)
    requires q + |u| <= |s| && u == s[q .. q + |u|] && |u| < cap
    requires Run(UnitStep, Unit, u).Some?
    requires q + |u| < |s| ==> !UnitStep(Run(UnitStep, Unit, u).value, s[q + |u|]).accepted
    ensures UnitPhase(s, q, 0, Unit, cap).0 == |u|
  {
    UnitPhaseFacts(s, q, 0, Unit, cap);
    var r := UnitPhase(s, q, 0, Unit, cap);
    assert s[q + 0 .. q + r.0] == s[q .. q + r.0];
    UnitPrefixUnique(s, q, Unit, u, r.0, r.1, cap);
  }

  /** Two maximal accepted runs from the same place are the same run. */
  lemma UnitPrefixUnique(s: seq<char>, q: nat, st: CharState, u: seq<char>, len: nat, fin: CharState, cap: nat)
    requires q + |u| <= |s| && u == s[q .. q + |u|] && |u| < cap
    requires Run(UnitStep, st, u).Some?
    requires q + |u| < |s| ==> !UnitStep(Run(UnitStep, st, u).value, s[q + |u|]).accepted
    requires len <= cap && q + len <= |s| && Run(UnitStep, st, s[q .. q + len]) == Some(fin)
    requires len < cap && q + len < |s| ==> !UnitStep(fin, s[q + len]).accepted
    ensures len == |u|
  {
    if len > |u| {
      var rest := s[q + |u| .. q + len];
      assert rest[0] == s[q + |u|];
      assert s[q .. q + len] == u + rest;
      RunAppend(UnitStep, st, u, rest);
      assert false;
    } else if len < |u| {
      var rest := u[len..];
      assert rest[0] == s[q + len];
      assert u == s[q .. q + len] + rest;
      RunAppend(UnitStep, st, s[q .. q + len], rest);
      assert false;
    }
  }

  /** The number phase of `extract_quantity`: the count of stored characters
      and the final state, or failure. */
  method ReadNumber(s: seq<char>, p: nat, bufmax: nat) returns (ok: bool, n: nat, state: CharState)
    requires p <= |s|
    ensures ok <==> NumberPhase(s, p, 0, Start, bufmax).Some?
    ensures ok ==> NumberPhase(s, p, 0, Start, bufmax) == Some((n, state))
  {
    n := 0;
    state := Start;
    ok := true;
    while n < bufmax
      invariant p + n <= |s|
      invariant NumberPhase(s, p, n, state, bufmax) == NumberPhase(s, p, 0, Start, bufmax)
      decreases bufmax - n
    {
      if p + n == |s| {
        ok := false;
        return;
      }
      var c := s[p + n];
      var t := FloatStep(state, c);
      if t.accepted {
        state := t.state;
        n := n + 1;
      } else if c == '_' || IsSpace(c) {
        return;
      } else {
        ok := false;
        return;
      }
    }
  }

  /** The unit phase of `extract_quantity`: peeks at each character and stores
      it only when `is_unit_char` accepts it. */
  method ReadUnit(s: seq<char>, q: nat, cap: nat) returns (len: nat)
    requires q <= |s|
    ensures len == UnitPhase(s, q, 0, Unit, cap).0
  {
    len := 0;
    var state := Unit;
    while len < cap && q + len < |s|
      invariant q + len <= |s|
      invariant UnitPhase(s, q, len, state, cap) == UnitPhase(s, q, 0, Unit, cap)
      decreases cap - len
    {
      var t := UnitStep(state, s[q + len]);
      if !t.accepted {
        return;
      }
      state := t.state;
      len := len + 1;
    }
  }

  /** Skips white space from position i. */
  method SkipWhiteSpace(s: seq<char>, i: nat) returns (j: nat)
    requires i <= |s|
    ensures j == SkipSpaces(s, i)
  {
    j := i;
    while j < |s| && IsSpace(s[j])
      invariant i <= j <= |s| && SkipSpaces(s, j) == SkipSpaces(s, i)
    {
      j := j + 1;
    }
  }

  /** The second half of `extract_quantity`: white space, then the unit. */
  method ExtractUnit(s: seq<char>, p: nat, n: nat, bufmax: nat) returns (r: Option<Token>)
    requires p + n < |s| && n + 1 < bufmax
    ensures r == UnitTail(s, p, n, bufmax)
  {
    var q := SkipWhiteSpace(s, p + n + 1);
    var cap := bufmax - (n + 1);
    var len := ReadUnit(s, q, cap);
    UnitPhaseFacts(s, q, 0, Unit, cap);
    if len == cap {
      r := None;
    } else {
      r := Some(Token(s[p .. p + n], s[q .. q + len], q + len));
    }
  }

  /** `extract_quantity` itself, reading the stream one character at a time. */
  method ExtractQuantity(s: seq<char>, bufmax: nat) returns (r: Option<Token>)
    ensures r == Extract(s, bufmax)
    ensures r.Some? ==> Describes(s, bufmax, r.value)
  {
    var p := SkipWhiteSpace(s, 0);
    var ok, n, state := ReadNumber(s, p, bufmax);
    if !ok || state == Start || state == ExponentStart || n == bufmax || n + 1 == bufmax {
      r := None;
    } else {
      NumberPhaseFacts(s, p, 0, Start, bufmax);
      r := ExtractUnit(s, p, n, bufmax);
    }
    if r.Some? {
      ExtractSound(s, bufmax);
    }
  }

  /** A number that stops in the middle of its exponent, or never starts, is
      rejected: "1e km" and "_m" both fail. */
  lemma RejectsIncompleteNumbers()
    ensures Extract("1e km", 64) == None
    ensures Extract("_m", 64) == None
    ensures Extract("12a3 km", 64) == None
  {
    assert NumberPhase("1e km", 0, 2, ExponentStart, 64) == Some((2, ExponentStart));
    assert NumberPhase("_m", 0, 0, Start, 64) == Some((0, Start));
    assert NumberPhase("12a3 km", 0, 2, Significand, 64) == None;
  }

  /** "1_km" splits into the number "1" and the unit "km". */
  lemma SplitsNumberAndUnit()
    ensures Extract("1_km", 64) == Some(Token("1", "km", 4))
  {
    var s := "1_km";
    assert SkipSpaces(s, 0) == 0;
    assert NumberPhase(s, 0, 1, Significand, 64) == Some((1, Significand));
    assert NumberPhase(s, 0, 0, Start, 64) == Some((1, Significand));
    assert SkipSpaces(s, 2) == 2;
    assert UnitPhase(s, 2, 2, Unit, 62) == (2, Unit);
    assert UnitPhase(s, 2, 1, Unit, 62) == (2, Unit);
    assert UnitPhase(s, 2, 0, Unit, 62) == (2, Unit);
    assert s[0..1] == "1" && s[2..4] == "km";
  }
}

=== FILE: facet.dfy ===
/** `quantity_facet` (src/dim/facet.hpp): an input registry (a group of
    symbol maps) and an output registry (one formatter per unit), consulted
    before the system's own parser and `print_unit`. */
module Facets {
  import opened Options
  import opened Scalars
  import Units
  import D = DynamicQuantities
  import Q = Quantities
  import IoDetail
  import opened Formatting
  import opened FormatMaps

  datatype Facet = Facet(input: MapGroup, output: OutputMap)

  predicate ValidFacet(fc: Facet) { ValidGroup(fc.input) && ValidOutput(fc.output) }

  /** A new facet has empty registries. */
  const EmptyFacet: Facet := Facet(MapGroup([]), OutputMap([]))

  // ---------------------------------------------------------------------
  // Lookups

  /** `format(q)` for a dynamic quantity: the output formatter of q's unit
      when there is one and its answer is good, else the unchanged value
      with `print_unit`'s text. */
  function FormatOut(fc: Facet, q: D.DynQuantity, special: Units.DynUnit -> Option<seq<char>>,
                     symbolFor: Units.Dim -> seq<char>): (r: FormattedQuantity)
    ensures OutputGet(fc.output, q.unit).Some? && !IsBadFormat(Output(OutputGet(fc.output, q.unit).value, q)) ==>
              r == Output(OutputGet(fc.output, q.unit).value, q)
    ensures OutputGet(fc.output, q.unit).None? || IsBadFormat(Output(OutputGet(fc.output, q.unit).value, q)) ==>
              r.value == q.value
              && r.symbol == IoDetail.PrintUnit(IoDetail.MaxSymbol, special(q.unit), q.unit, symbolFor).text
  {
    FormatQuantity(q, Some(fc.output), special, symbolFor).1
  }

  /** `format(q)` for a static quantity: the dynamic form on its value and
      `index<Q>()`. */
  function FormatOutStatic(fc: Facet, q: Q.Quantity, special: Units.DynUnit -> Option<seq<char>>,
                           symbolFor: Units.Dim -> seq<char>): (r: FormattedQuantity)
    ensures r == FormatOut(fc, D.FromStatic(q), special, symbolFor)
  {
    FormatQuantityStatic(q, Some(fc.output), special, symbolFor).1
  }

  /** `format<Q>(s, symbol)`: the input registry's typed answer when good,
      else `(s * parse_standard_rep(symbol)).as<Q>()`. */
  function FormatInAs(fc: Facet, s: Scalar, symbol: seq<char>, target: Q.StaticUnit,
                      standard: seq<char> -> D.DynQuantity): (r: Q.Quantity)
    ensures r.unit == target
    ensures !Q.IsBad(GroupToQuantityAs(fc.input, s, symbol, target)) ==> r == GroupToQuantityAs(fc.input, s, symbol, target)
    ensures Q.IsBad(GroupToQuantityAs(fc.input, s, symbol, target)) ==> r == D.As(D.ScalarTimes(s, standard(symbol)), target)
  {
    var result := GroupToQuantityAs(fc.input, s, symbol, target);
    if !Q.IsBad(result) then result else D.As(D.ScalarTimes(s, standard(symbol)), target)
  }

  /** `format<Q>(formatted)`: `parse_quantity` with the registry's map of
      Q's unit when there is one, else with `get_default_format<Q>()`
      (`defaults`). */
  function FormatInFormattedAs(fc: Facet, fq: FormattedQuantity, target: Q.StaticUnit, defaults: InputMap,
                               standard: seq<char> -> D.DynQuantity): (r: Q.Quantity)
    ensures r.unit == target
    ensures GroupGet(fc.input, Q.Index(target)).Some? ==>
              r == ParseQuantityAs(fq, GroupGet(fc.input, Q.Index(target)).value, target, standard).1
    ensures GroupGet(fc.input, Q.Index(target)).None? ==> r == ParseQuantityAs(fq, defaults, target, standard).1
  {
    var m := GroupGet(fc.input, Q.Index(target));
    if m.Some? then ParseQuantityAs(fq, m.value, target, standard).1
    else ParseQuantityAs(fq, defaults, target, standard).1
  }

  /** The two typed input paths agree whenever the registry has a map for
      Q's unit. */
  lemma TypedInputPathsAgree(fc: Facet, fq: FormattedQuantity, target: Q.StaticUnit, defaults: InputMap,
                             standard: seq<char> -> D.DynQuantity)
    requires GroupGet(fc.input, Q.Index(target)).Some?
    ensures FormatInFormattedAs(fc, fq, target, defaults, standard) == FormatInAs(fc, fq.value, fq.symbol, target, standard)
  {
  }

  /** The dynamic `format(s, symbol)`: the whole input group is searched
      before `parse_standard_rep(symbol) * dynamic_type(s)`. */
  function FormatIn(fc: Facet, s: Scalar, symbol: seq<char>, standard: seq<char> -> D.DynQuantity): (r: D.DynQuantity)
    ensures !D.IsBad(GroupToQuantity(fc.input, s, symbol)) ==> r == GroupToQuantity(fc.input, s, symbol)
    ensures D.IsBad(GroupToQuantity(fc.input, s, symbol)) ==>
              r.unit == standard(symbol).unit && r.value == Mul(standard(symbol).value, s)
  {
    var result := GroupToQuantity(fc.input, s, symbol);
    Units.MultiplyIdentity(standard(symbol).unit);
    if !D.IsBad(result) then result else D.Multiply(standard(symbol), D.FromScalar(s))
  }

  /** The dynamic `format(formatted)`: `parse_quantity` over the group. */
  function FormatInFormatted(fc: Facet, fq: FormattedQuantity, standard: seq<char> -> D.DynQuantity): (r: D.DynQuantity)
    ensures r == ParseQuantityGroup(fq, fc.input, standard).1
  {
    ParseQuantityGroup(fq, fc.input, standard).1
  }

  /** The two dynamic input paths give the same quantity, although one
      multiplies the parsed unit by the scalar and the other the scalar by
      the parsed unit. */
  lemma DynamicInputPathsAgree(fc: Facet, fq: FormattedQuantity, standard: seq<char> -> D.DynQuantity)
    ensures FormatInFormatted(fc, fq, standard) == FormatIn(fc, fq.value, fq.symbol, standard)
  {
  }

  // ---------------------------------------------------------------------
  // Registration

  /** `output_formatter(f)`: f replaces the output formatter of its unit;
      the input registry is untouched. */
  function OutputFormatter(fc: Facet, f: Formatter): (r: Facet)
    ensures r.input == fc.input
    ensures ValidFacet(fc) ==> ValidFacet(r)
    ensures ValidFacet(fc) ==> forall u :: OutputGet(r.output, u) == (if u == Index(f) then Some(f) else OutputGet(fc.output, u))
  {
    Facet(fc.input, OutputInsert(fc.output, f).1)
  }

  /** `output_formatter<Q>(symbol, scale, add)`: the formatter built from
      the static scale and additive part, registered for Q's unit. */
  function OutputFormatterStatic(fc: Facet, symbol: seq<char>, scale: Q.Quantity, add: Q.Quantity): (r: Facet)
    requires IoDetail.NoNul(symbol)
    ensures r == OutputFormatter(fc, NewFormatter(symbol, D.FromStatic(scale), D.FromStatic(add)))
  {
    OutputFormatter(fc, NewFormatter(symbol, D.FromStatic(scale), D.FromStatic(add)))
  }

  /** Registering a second output formatter for a unit replaces the first:
      quantities of that unit are written with the newer one. */
  lemma OutputFormatterReplaces(fc: Facet, f1: Formatter, f2: Formatter, q: D.DynQuantity,
                                special: Units.DynUnit -> Option<seq<char>>, symbolFor: Units.Dim -> seq<char>)
    requires ValidFacet(fc) && Index(f1) == Index(f2) && q.unit == Index(f2)
    requires !IsBadFormat(Output(f2, q))
    ensures FormatOut(OutputFormatter(OutputFormatter(fc, f1), f2), q, special, symbolFor) == Output(f2, q)
  {
  }

  /** `input_formatter(f)`: f is added to (or replaces its symbol in) the
      input map of its unit; the output registry is untouched. */
  function InputFormatter(fc: Facet, f: Formatter): (r: Facet)
    ensures r.output == fc.output
    ensures ValidFacet(fc) ==> ValidFacet(r)
    ensures ValidFacet(fc) ==> forall u :: u != Index(f) ==> GroupGet(r.input, u) == GroupGet(fc.input, u)
    ensures ValidFacet(fc) ==>
              && GroupGet(r.input, Index(f)).Some?
              && Get(GroupGet(r.input, Index(f)).value, SymbolKey(f)) == Some(f)
    ensures ValidFacet(fc) ==>
              forall symbol :: Get(GroupGet(r.input, Index(f)).value, symbol) ==
                (if QueryKey(symbol) == SymbolKey(f) then Some(f)
                 else if GroupGet(fc.input, Index(f)).Some? then Get(GroupGet(fc.input, Index(f)).value, symbol)
                 else None)
  {
    KeyIsItsOwnQuery(f);
    Facet(GroupInsertFormatter(fc.input, f).1, fc.output)
  }

  /** `input_formatter(map)`: the map replaces the whole input map of its
      unit. */
  function InputFormatterMap(fc: Facet, m: InputMap): (r: Facet)
    ensures r.output == fc.output
    ensures ValidFacet(fc) && ValidInputMap(m) ==> ValidFacet(r)
    ensures ValidFacet(fc) && ValidInputMap(m) ==>
              forall u :: GroupGet(r.input, u) == (if u == m.index then Some(m) else GroupGet(fc.input, u))
  {
    Facet(GroupInsertMap(fc.input, m).1, fc.output)
  }

  /** A symbol registered for input is read back through the typed path as
      the formatter's `input<Q>`. */
  lemma InputFormatterFound(fc: Facet, f: Formatter, s: Scalar, target: Q.StaticUnit,
                            standard: seq<char> -> D.DynQuantity)
    requires ValidFacet(fc) && Q.Index(target) == Index(f)
    requires f.add.unit == f.scale.unit && f.scale.value.Num? && f.add.value.Num? && s.Num?
    ensures FormatInAs(InputFormatter(fc, f), s, SymbolKey(f), target, standard) == InputAs(f, s, target)
  {
    var r := InputFormatter(fc, f);
    assert GroupGet(r.input, Index(f)).value.index == Index(f);
  }

  /** `clear_input_formatter<Q>()`: drops the input map of Q's unit only. */
  function ClearInputFormatter(fc: Facet, target: Q.StaticUnit): (r: Facet)
    ensures r.output == fc.output
    ensures ValidFacet(fc) ==> ValidFacet(r)
    ensures ValidFacet(fc) ==>
              forall u :: GroupGet(r.input, u) == (if u == Q.Index(target) then None else GroupGet(fc.input, u))
  {
    Facet(GroupErase(fc.input, Q.Index(target)).1, fc.output)
  }

  /** `clear_output_formatter<Q>()`: drops the output formatter of Q's unit
      only. */
  function ClearOutputFormatter(fc: Facet, target: Q.StaticUnit): (r: Facet)
    ensures r.input == fc.input
    ensures ValidFacet(fc) ==> ValidFacet(r)
    ensures ValidFacet(fc) ==>
              forall u :: OutputGet(r.output, u) == (if u == Q.Index(target) then None else OutputGet(fc.output, u))
  {
    Facet(fc.input, OutputErase(fc.output, Q.Index(target)).1)
  }

  /** `clear_input_formatters()`. */
  function ClearInputFormatters(fc: Facet): (r: Facet)
    ensures r.output == fc.output && ValidGroup(r.input)
    ensures forall u :: GroupGet(r.input, u).None?
  {
    Facet(MapGroup([]), fc.output)
  }

  /** `clear_output_formatters()`. */
  function ClearOutputFormatters(fc: Facet): (r: Facet)
    ensures r.input == fc.input && ValidOutput(r.output)
    ensures forall u :: OutputGet(r.output, u).None?
  {
    Facet(fc.input, OutputMap([]))
  }

  /** `clear()`: both registries emptied, so output falls back to
      `print_unit` and input to the system's parser. */
  function Clear(fc: Facet): (r: Facet)
    ensures ValidFacet(r)
    ensures forall u :: GroupGet(r.input, u).None? && OutputGet(r.output, u).None?
  {
    ClearOutputFormatters(ClearInputFormatters(fc))
  }

  /** After `clear()` every lookup falls through: output is the raw value
      with `print_unit`'s text, dynamic input is the system's parse. */
  lemma ClearFallsThrough(fc: Facet, q: D.DynQuantity, s: Scalar, symbol: seq<char>,
                          special: Units.DynUnit -> Option<seq<char>>, symbolFor: Units.Dim -> seq<char>,
                          standard: seq<char> -> D.DynQuantity)
    ensures FormatOut(Clear(fc), q, special, symbolFor).value == q.value
    ensures FormatIn(Clear(fc), s, symbol, standard).unit == standard(symbol).unit
    ensures FormatIn(Clear(fc), s, symbol, standard).value == Mul(standard(symbol).value, s)
  {
  }
}

=== FILE: format.dfy ===
/** The formatting layer of `src/dim/io.hpp`: `formatted_quantity` (a value
    with a bounded symbol buffer), `formatter` (an affine map between a scalar
    in some symbol's units and a quantity) and `from_chars`. */
module Formatting {
  import opened Options
  import opened Scalars
  import Units
  import D = DynamicQuantities
  import Q = Quantities
  import opened IoDetail

  // ---------------------------------------------------------------------
  // C strings in fixed buffers

  /** The characters of a buffer before its first NUL, or all of it when it
      holds none. */
  function UpToNul(buf: seq<char>): (r: seq<char>)
    ensures |r| <= |buf| && r == buf[..|r|] && NoNul(r)
    ensures |r| < |buf| ==> buf[|r|] == '\0'
    decreases |buf|
  {
    if |buf| == 0 || buf[0] == '\0' then [] else [buf[0]] + UpToNul(buf[1..])
  }

  /** Reading a buffer as a C string; None when no NUL terminates it, so that
      reading it runs past the buffer. */
  function CString(buf: seq<char>): (r: Option<seq<char>>)
    ensures r.Some? <==> !NoNul(buf)
    ensures r.Some? ==> r.value == UpToNul(buf) && |r.value| < |buf|
  {
    if |UpToNul(buf)| < |buf| then Some(UpToNul(buf)) else None
  }

  /** `strncpy(dst, src, n)`: the first n cells get src, padded with NULs;
      no NUL is written when src has n or more characters. */
  function StrNCopy(dst: seq<char>, src: seq<char>, n: nat): (r: seq<char>)
    requires NoNul(src) && n <= |dst|
    ensures |r| == |dst| && r[n..] == dst[n..]
    ensures forall k :: 0 <= k < n ==> r[k] == (if k < |src| then src[k] else '\0')
  {
    var m := Min(|src|, n);
    src[..m] + seq(n - m, _ => '\0') + dst[n..]
  }

  // ---------------------------------------------------------------------
  // formatted_quantity

  /** A value with the C string held in its `kMaxSymbol` buffer. */
  datatype FormattedQuantity = FormattedQuantity(value: Scalar, symbol: seq<char>)

  /** The symbol fits the buffer with its NUL. */
  predicate ValidFormatted(f: FormattedQuantity) { |f.symbol| < MaxSymbol && NoNul(f.symbol) }

  /** The constructor: the buffer starts zero-filled; a non-null, non-empty
      symbol is copied up to `kMaxSymbol - 1` characters and terminated. */
  function NewFormatted(value: Scalar, symbol: Option<seq<char>>): (f: FormattedQuantity)
    requires symbol.Some? ==> NoNul(symbol.value)
    ensures f.value == value && ValidFormatted(f)
    ensures symbol.None? ==> f.symbol == []
    ensures symbol.Some? ==>
              |f.symbol| == Min(|symbol.value|, MaxSymbol - 1) && f.symbol == symbol.value[..|f.symbol|]
  {
    if symbol.Some? && |symbol.value| > 0 then FormattedQuantity(value, Truncate(symbol.value, MaxSymbol - 1))
    else FormattedQuantity(value, [])
  }

  /** `bad_format()`: NaN with a null symbol. */
  const BadFormat: FormattedQuantity := NewFormatted(NaN, None)

  /** `is_bad()`: the value is NaN. */
  predicate IsBadFormat(f: FormattedQuantity) { f.value.NaN? }

  /** A short symbol is kept whole; the default and `bad_format()` are bad
      with an empty symbol; a 32-character symbol keeps its first 31. */
  lemma FormattedFacts(value: Scalar, symbol: seq<char>)
    requires NoNul(symbol) && |symbol| < MaxSymbol
    ensures NewFormatted(value, Some(symbol)).symbol == symbol
    ensures IsBadFormat(BadFormat) && BadFormat.symbol == []
    ensures IsBadFormat(NewFormatted(NaN, Some(""))) && NewFormatted(NaN, Some("")).symbol == []
    ensures var long := "01234567890123456789012345678901";
      var f := NewFormatted(One, Some(long));
      |f.symbol| == MaxSymbol - 1 && f.symbol[|f.symbol| - 1] == '0' && f.value == One
  {
  }

  // ---------------------------------------------------------------------
  // formatter

  /** A formatter: its raw symbol buffer, scale and additive part. */
  datatype Formatter = Formatter(buffer: seq<char>, scale: D.DynQuantity, add: D.DynQuantity)

  /** The constructor accepts the pair when the additive part is bad (it is
      then replaced by zero) or has the scale's unit. */
  predicate Consistent(scale: D.DynQuantity, add: D.DynQuantity)
  {
    D.IsBad(add) || add.unit == scale.unit
  }

  const Inconsistent: seq<char> := "INCONSISTENT"

  /** The constructor as written: `strncpy` into a member buffer whose initial
      contents are `initial`, never writing its last cell. */
  function NewFormatterAsWritten(symbol: seq<char>, scale: D.DynQuantity, add: D.DynQuantity,
                                 initial: seq<char>): (f: Formatter)
    requires NoNul(symbol) && |initial| == MaxSymbol
    ensures |f.buffer| == MaxSymbol && f.add.unit == f.scale.unit
    ensures Consistent(scale, add) ==>
              f.scale == scale && f.add == (if D.IsBad(add) then D.DynQuantity(Zero, scale.unit) else add)
    ensures Consistent(scale, add) && |symbol| < MaxSymbol - 1 ==> CString(f.buffer) == Some(symbol)
    ensures Consistent(scale, add) && |symbol| >= MaxSymbol - 1 ==>
              (CString(f.buffer).Some? <==> initial[MaxSymbol - 1] == '\0')
    ensures !Consistent(scale, add) ==>
              f.scale == D.Bad && f.add == D.Bad && CString(f.buffer) == Some(Inconsistent)
  {
    var buf := StrNCopy(initial, symbol, MaxSymbol - 1);
    var add1 := if D.IsBad(add) then D.DynQuantity(Zero, scale.unit) else add;
    if add1.unit != scale.unit then
      var buf2 := StrNCopy(buf, Inconsistent, MaxSymbol - 1);
      StrNCopyShort(buf, Inconsistent, MaxSymbol - 1);
      Formatter(buf2, D.Bad, D.Bad)
    else if |symbol| < MaxSymbol - 1 then
      StrNCopyShort(initial, symbol, MaxSymbol - 1);
      Formatter(buf, scale, add1)
    else
      StrNCopyLong(initial, symbol, MaxSymbol - 1);
      Formatter(buf, scale, add1)
  }

  /** A buffer holding s followed by a NUL reads back as s. */
  lemma {:induction false} UpToNulAt(buf: seq<char>, s: seq<char>)
    requires NoNul(s) && |s| < |buf| && buf[..|s|] == s && buf[|s|] == '\0'
    ensures UpToNul(buf) == s
    decreases |s|
  {
    if |s| > 0 {
      assert buf[1..][..|s| - 1] == s[1..];
      UpToNulAt(buf[1..], s[1..]);
    }
  }

  /** `strncpy` of a source shorter than n leaves it terminated. */
  lemma StrNCopyShort(dst: seq<char>, src: seq<char>, n: nat)
    requires NoNul(src) && |src| < n <= |dst|
    ensures UpToNul(StrNCopy(dst, src, n)) == src
  {
    var r := StrNCopy(dst, src, n);
    assert r[|src|] == '\0';
    assert r[..|src|] == src;
    UpToNulAt(r, src);
  }

  /** `strncpy` of a source of n or more characters writes no NUL, so the
      buffer's termination depends on what follows the n cells. */
  lemma StrNCopyLong(dst: seq<char>, src: seq<char>, n: nat)
    requires NoNul(src) && n <= |src| && n < |dst|
    ensures var r := StrNCopy(dst, src, n);
      && r[..n] == src[..n] && r[n] == dst[n]
      && (CString(r).Some? <==> !NoNul(dst[n..]))
      && (CString(r).Some? ==> |CString(r).value| >= n)
  {
    var r := StrNCopy(dst, src, n);
    assert r[..n] == src[..n];
    if !NoNul(dst[n..]) {
      var k :| 0 <= k < |dst[n..]| && dst[n..][k] == '\0';
      assert r[n + k] == '\0';
    }
    if NoNul(dst[n..]) {
      forall k | 0 <= k < |r| ensures r[k] != '\0' {
        if k >= n { assert r[k] == dst[n..][k - n]; }
      }
    }
  }

  /** The constructor with the buffer value-initialised, as the
      `formatted_quantity` constructor does with `m_symbol{'\0'}`: the symbol
      is always terminated and keeps at most `kMaxSymbol - 1` characters. */
  function NewFormatter(symbol: seq<char>, scale: D.DynQuantity, add: D.DynQuantity): (f: Formatter)
    requires NoNul(symbol)
    ensures |f.buffer| == MaxSymbol && f.add.unit == f.scale.unit
    ensures Consistent(scale, add) ==>
              && f.scale == scale
              && f.add == (if D.IsBad(add) then D.DynQuantity(Zero, scale.unit) else add)
              && CString(f.buffer) == Some(Truncate(symbol, MaxSymbol - 1))
    ensures !Consistent(scale, add) ==>
              f.scale == D.Bad && f.add == D.Bad && CString(f.buffer) == Some(Inconsistent)
  {
    var zero := seq(MaxSymbol, _ => '\0');
    var f := NewFormatterAsWritten(symbol, scale, add, zero);
    if Consistent(scale, add) && |symbol| >= MaxSymbol - 1 then
      StrNCopyLong(zero, symbol, MaxSymbol - 1);
      UpToNulAt(f.buffer, Truncate(symbol, MaxSymbol - 1));
      f
    else f
  }

  /** A symbol of 31 or more characters leaves the as-written buffer without
      a terminating NUL whenever its last cell was not already zero. */
  lemma UnterminatedSymbol(scale: D.DynQuantity)
    ensures var long := "0123456789012345678901234567890";
      var f := NewFormatterAsWritten(long, scale, D.Bad, seq(MaxSymbol, _ => 'x'));
      CString(f.buffer).None?
    ensures var long := "0123456789012345678901234567890";
      CString(NewFormatter(long, scale, D.Bad).buffer) == Some(long)
  {
  }

  /** The static-quantity constructor: scale and additive part (zero by
      default) have the same type, so they are always consistent. */
  lemma StaticFormatterConsistent(symbol: seq<char>, scale: Q.Quantity, add: Q.Quantity)
    requires NoNul(symbol) && add.unit == scale.unit && !Q.IsBad(add)
    ensures var f := NewFormatter(symbol, D.FromStatic(scale), D.FromStatic(add));
      f.scale == D.FromStatic(scale) && f.add == D.FromStatic(add)
  {
  }

  /** `index()`: the scale's unit. */
  function Index(f: Formatter): Units.DynUnit { f.scale.unit }

  /** `input(s)`: `scale * type(s) + add`, in the formatter's unit. */
  function Input(f: Formatter, s: Scalar): (r: D.DynQuantity)
    ensures f.add.unit == f.scale.unit ==>
              r.unit == Index(f) && r.value == Scalars.Add(Mul(f.scale.value, s), f.add.value)
    ensures f.add.unit != f.scale.unit ==> r == D.Bad
  {
    Units.MultiplyIdentity(f.scale.unit);
    D.Add(D.Multiply(f.scale, D.FromScalar(s)), f.add)
  }

  /** `input<Q>(s)`: `(s * scale + add).as<Q>()`, bad unless Q's index is the
      formatter's. */
  function InputAs(f: Formatter, s: Scalar, target: Q.StaticUnit): (r: Q.Quantity)
    ensures r.unit == target
    ensures Q.Index(target) != Index(f) ==> Q.IsBad(r)
    ensures Q.Index(target) == Index(f) && f.add.unit == f.scale.unit ==>
              r.value == Scalars.Add(Mul(f.scale.value, s), f.add.value)
  {
    D.As(D.Add(D.ScalarTimes(s, f.scale), f.add), target)
  }

  /** `non_dim(q)` as written: `(q + add) / scale`, NaN unless dimensionless. */
  function NonDimAsWritten(f: Formatter, q: D.DynQuantity): (r: Scalar)
    ensures f.add.unit == f.scale.unit && q.unit != Index(f) ==> r.NaN?
    ensures q.unit == Index(f) && f.add.unit == f.scale.unit ==>
              r == Mul(Scalars.Add(q.value, f.add.value), Div(One, f.scale.value))
  {
    var result := D.Divide(D.Add(q, f.add), f.scale);
    Units.QuotientDimensionless(q.unit, f.scale.unit);
    if D.IsDimensionless(result) then result.value else NaN
  }

  /** `non_dim(q)` as the class comment describes it, `(q - add) / scale`:
      the inverse of `input`. */
  function NonDim(f: Formatter, q: D.DynQuantity): (r: Scalar)
    ensures f.add.unit == f.scale.unit && q.unit != Index(f) ==> r.NaN?
    ensures q.unit == Index(f) && f.add.unit == f.scale.unit ==>
              r == Mul(Sub(q.value, f.add.value), Div(One, f.scale.value))
  {
    var result := D.Divide(D.Subtract(q, f.add), f.scale);
    Units.QuotientDimensionless(q.unit, f.scale.unit);
    if D.IsDimensionless(result) then result.value else NaN
  }

  /** `non_dim` undoes `input`, and `input` undoes `non_dim`, for a formatter
      with a finite non-zero scale and a finite additive part. */
  lemma NonDimInputRoundTrip(f: Formatter, s: Scalar, q: D.DynQuantity)
    requires f.add.unit == f.scale.unit
    requires f.scale.value.Num? && f.scale.value.r != 0.0 && f.add.value.Num?
    ensures s.Num? ==> NonDim(f, Input(f, s)) == s
    ensures q.unit == Index(f) && q.value.Num? ==> Input(f, NonDim(f, q)) == q
  {
    if s.Num? {
      NonDimUndoesInput(f, s);
    }
    if q.unit == Index(f) && q.value.Num? {
      InputUndoesNonDim(f, q);
    }
  }

  lemma NonDimUndoesInput(f: Formatter, s: Scalar)
    requires f.add.unit == f.scale.unit
    requires f.scale.value.Num? && f.scale.value.r != 0.0 && f.add.value.Num? && s.Num?
    ensures NonDim(f, Input(f, s)) == s
  {
    AffineUndo(f.scale.value.r, s.r, f.add.value.r);
  }

  lemma InputUndoesNonDim(f: Formatter, q: D.DynQuantity)
    requires f.add.unit == f.scale.unit
    requires f.scale.value.Num? && f.scale.value.r != 0.0 && f.add.value.Num?
    requires q.unit == Index(f) && q.value.Num?
    ensures Input(f, NonDim(f, q)) == q
  {
    AffineRedo(f.scale.value.r, q.value.r, f.add.value.r);
  }

  lemma AffineUndo(k: real, x: real, a: real)
    requires k != 0.0
    ensures (k * x + a - a) * (1.0 / k) == x
  {
    calc {
      (k * x + a - a) * (1.0 / k);
      (k * x) * (1.0 / k);
      x;
    }
  }

  lemma AffineRedo(k: real, y: real, a: real)
    requires k != 0.0
    ensures k * ((y - a) * (1.0 / k)) + a == y
  {
  }

  /** With a non-zero additive part, the as-written `non_dim` does not undo
      `input`: scale 1 and additive part 1 in some unit send 0 to 1 and back
      to 2. */
  lemma NonDimAsWrittenCounterexample(u: Units.DynUnit)
    ensures var f := NewFormatter("x", D.DynQuantity(One, u), D.DynQuantity(One, u));
      Input(f, Zero) == D.DynQuantity(One, u)
      && NonDimAsWritten(f, Input(f, Zero)) == Num(2.0)
      && NonDim(f, Input(f, Zero)) == Zero
  {
  }

  /** The formatter built from an inconsistent pair reports NaN for every
      quantity with a unit, like `formatter("blah", yard, second)` does. */
  lemma InconsistentNonDim(symbol: seq<char>, scale: D.DynQuantity, add: D.DynQuantity, q: D.DynQuantity)
    requires NoNul(symbol) && !Consistent(scale, add)
    ensures NonDim(NewFormatter(symbol, scale, add), q).NaN?
  {
  }

  /** `output(q)` as written: `non_dim(q)`, which adds the additive part,
      with the formatter's symbol, as much of it as the `formatted_quantity`
      constructor copies. */
  function Output(f: Formatter, q: D.DynQuantity): (r: FormattedQuantity)
    ensures ValidFormatted(r)
    ensures q.unit == Index(f) && f.add.unit == f.scale.unit ==>
              r.value == Mul(Scalars.Add(q.value, f.add.value), Div(One, f.scale.value))
    ensures |f.buffer| == MaxSymbol && CString(f.buffer).Some? ==> r.symbol == CString(f.buffer).value
    ensures f.add.unit == f.scale.unit && q.unit != Index(f) ==> IsBadFormat(r)
  {
    NewFormatted(NonDimAsWritten(f, q), Some(UpToNul(f.buffer)))
  }

  /** `output(q)` with `non_dim` as the class comment describes it. */
  function OutputIntended(f: Formatter, q: D.DynQuantity): (r: FormattedQuantity)
    ensures ValidFormatted(r)
    ensures q.unit == Index(f) && f.add.unit == f.scale.unit ==>
              r.value == Mul(Sub(q.value, f.add.value), Div(One, f.scale.value))
    ensures |f.buffer| == MaxSymbol && CString(f.buffer).Some? ==> r.symbol == CString(f.buffer).value
    ensures f.add.unit == f.scale.unit && q.unit != Index(f) ==> IsBadFormat(r)
  {
    NewFormatted(NonDim(f, q), Some(UpToNul(f.buffer)))
  }

  /** The intended `output` undoes `input`: a finite value read in through a
      consistent formatter is written out as the same number. */
  lemma OutputIntendedUndoesInput(f: Formatter, s: Scalar)
    requires f.add.unit == f.scale.unit
    requires f.scale.value.Num? && f.scale.value.r != 0.0 && f.add.value.Num? && s.Num?
    ensures OutputIntended(f, Input(f, s)).value == s
  {
    NonDimUndoesInput(f, s);
  }

  /** The two agree when the additive part is zero; for the Celsius-style
      formatter (scale one kelvin, additive part 273.15 kelvin), 300 K is
      written as 573.15 by the code and as 26.85 by the intended form. */
  lemma OutputCounterexample(u: Units.DynUnit)
    ensures var f := NewFormatter("C", D.DynQuantity(One, u), D.DynQuantity(Num(273.15), u));
      var q := D.DynQuantity(Num(300.0), u);
      Output(f, q).value == Num(573.15) && OutputIntended(f, q).value == Num(26.85)
    ensures var f := NewFormatter("C", D.DynQuantity(Num(2.0), u), D.DynQuantity(Zero, u));
      forall q: D.DynQuantity :: Output(f, q).value == OutputIntended(f, q).value
  {
  }

  // ---------------------------------------------------------------------
  // from_chars

  /** The `std::errc` values `from_chars` reports. */
  datatype Errc = NoError | InvalidArgument | ResultOutOfRange | NoBufferSpace

  /** What `parse_scalar` (`std::from_chars`) reports for a text: how many
      characters it consumed, its error code, and the value. */
  datatype ScalarParse = ScalarParse(consumed: nat, ec: Errc, value: Scalar)

  /** `unit_string_scanner`: a start state, `accept`, which answers and moves
      to a new state, and the test for its error state. */
  datatype Scanner<!S> = Scanner(init: S, accept: (S, char) -> (bool, S), isError: S -> bool)

  /** The scanner never accepts a NUL, as `unit_string_scanner` accepts only
      unit characters; so the copied symbol is a C string. */
  ghost predicate RejectsNul<S(!new)>(sc: Scanner<S>)
  {
    forall st: S :: !sc.accept(st, '\0').0
  }

  /** The position past the last character processed, the error code, and the
      formatted quantity. */
  datatype FromCharsResult = FromCharsResult(ptr: nat, ec: Errc, formatted: FormattedQuantity)

  /** The scanner's state after accepting every character of w from st, or
      None when it rejects one of them. */
  function ScanRun<S>(accept: (S, char) -> (bool, S), st: S, w: seq<char>): Option<S>
    decreases |w|
  {
    if |w| == 0 then Some(st)
    else
      var (ok, next) := accept(st, w[0]);
      if ok then ScanRun(accept, next, w[1..]) else None
  }

  /** Scanning a concatenation scans the first part, then the second from
      where the first left the scanner. */
  lemma {:induction false} ScanRunAppend<S>(accept: (S, char) -> (bool, S), st: S, a: seq<char>, b: seq<char>)
    ensures ScanRun(accept, st, a + b) ==
      (if ScanRun(accept, st, a).Some? then ScanRun(accept, ScanRun(accept, st, a).value, b) else None)
    decreases |a|
  {
    if |a| > 0 {
      assert (a + b)[0] == a[0] && (a + b)[1..] == a[1..] + b;
      var (ok, next) := accept(st, a[0]);
      if ok {
        ScanRunAppend(accept, next, a[1..], b);
      }
    } else {
      assert a + b == b;
    }
  }

  /** The copy from `start` stops at e: the text from start to e is
      accepted, fits in `room` cells, and unless the room is used up or the
      text ends, the scanner rejects the character at e. */
  predicate StopsAt<S>(accept: (S, char) -> (bool, S), st: S, text: seq<char>, start: nat, e: nat, room: nat)
  {
    start <= e <= |text| && e - start <= room
    && ScanRun(accept, st, text[start .. e]).Some?
    && (e - start < room && e < |text| ==> !accept(ScanRun(accept, st, text[start .. e]).value, text[e]).0)
  }

  /** The scanner's state when the copy stops at e: after the rejected
      character when there was one, else after the accepted run. */
  function ScanFinal<S>(accept: (S, char) -> (bool, S), st: S, text: seq<char>, start: nat, e: nat, room: nat): S
    requires StopsAt(accept, st, text, start, e, room)
  {
    var s := ScanRun(accept, st, text[start .. e]).value;
    if e - start < room && e < |text| then accept(s, text[e]).1 else s
  }

  /** Past the place the copy stops, within the room, the text is not
      accepted. */
  lemma RunPastStop<S>(accept: (S, char) -> (bool, S), st: S, text: seq<char>, start: nat, lo: nat, hi: nat, room: nat)
    requires StopsAt(accept, st, text, start, lo, room) && lo < hi <= |text| && hi - start <= room
    ensures ScanRun(accept, st, text[start .. hi]).None?
  {
    assert text[start .. hi] == text[start .. lo] + [text[lo]] + text[lo + 1 .. hi];
    ScanRunAppend(accept, st, text[start .. lo] + [text[lo]], text[lo + 1 .. hi]);
    ScanRunAppend(accept, st, text[start .. lo], [text[lo]]);
    assert [text[lo]][1..] == [];
  }

  /** There is one place the copy can stop: the end of the longest accepted
      run that fits the room. */
  lemma StopUnique<S>(accept: (S, char) -> (bool, S), st: S, text: seq<char>, start: nat, e1: nat, e2: nat, room: nat)
    ensures StopsAt(accept, st, text, start, e1, room) && StopsAt(accept, st, text, start, e2, room) ==> e1 == e2
  {
    if StopsAt(accept, st, text, start, e1, room) && e1 < e2 <= |text| && e2 - start <= room {
      RunPastStop(accept, st, text, start, e1, e2, room);
    }
    if StopsAt(accept, st, text, start, e2, room) && e2 < e1 <= |text| && e1 - start <= room {
      RunPastStop(accept, st, text, start, e2, e1, room);
    }
  }

  /** One accepted character moves the start of the scan forward by one. */
  lemma ScanStep<S>(accept: (S, char) -> (bool, S), st: S, text: seq<char>, ptr: nat, e: nat)
    requires ptr < e <= |text| && accept(st, text[ptr]).0
    ensures ScanRun(accept, st, text[ptr .. e]) == ScanRun(accept, accept(st, text[ptr]).1, text[ptr + 1 .. e])
  {
    assert text[ptr .. e][0] == text[ptr] && text[ptr .. e][1..] == text[ptr + 1 .. e];
  }

  /** The symbol copy loop: copies while the buffer has room, text remains,
      and the scanner accepts the next character; returns the copied
      characters, the new position and the scanner state. The copy stops at
      the end of the longest accepted run that fits. */
  function CopySymbol<S(!new)>(text: seq<char>, ptr: nat, accept: (S, char) -> (bool, S), st: S, copied: seq<char>): (r: (seq<char>, nat, S))
    requires |copied| <= MaxSymbol
    ensures |r.0| <= MaxSymbol && |copied| <= |r.0|
    ensures r.1 == ptr + |r.0| - |copied|
    ensures ptr <= |text| ==> r.1 <= |text| && r.0 == copied + text[ptr .. r.1]
    ensures ptr <= |text| ==>
              StopsAt(accept, st, text, ptr, r.1, MaxSymbol - |copied|)
              && r.2 == ScanFinal(accept, st, text, ptr, r.1, MaxSymbol - |copied|)
    ensures ptr > |text| ==> r.0 == copied && r.2 == st
    ensures (forall s: S :: !accept(s, '\0').0) && NoNul(copied) ==> NoNul(r.0)
    decreases MaxSymbol - |copied|
  {
    if |copied| < MaxSymbol && ptr < |text| then
      var (ok, next) := accept(st, text[ptr]);
      if ok then
        var r := CopySymbol(text, ptr + 1, accept, next, copied + [text[ptr]]);
        assert r.1 <= |text| ==> text[ptr .. r.1] == [text[ptr]] + text[ptr + 1 .. r.1];
        ScanStep(accept, st, text, ptr, r.1);
        r
      else
        assert text[ptr .. ptr] == [];
        (copied, ptr, next)
    else
      assert ptr <= |text| ==> text[ptr .. ptr] == [];
      (copied, ptr, st)
  }

  /** Where the symbol starts once the scalar has consumed `consumed`
      characters: one separator is skipped, if there is one. */
  function SymbolStart(text: seq<char>, consumed: nat): nat
  {
    if consumed < |text| && IsSeparator(text[consumed]) then consumed + 1 else consumed
  }

  /** The part of `from_chars` after the separator: copy the symbol, cut it
      to fit with its NUL on overflow, and fold in the scanner's verdict. */
  function FinishFromChars<S(!new)>(text: seq<char>, p: ScalarParse, start: nat, sc: Scanner<S>): (r: FromCharsResult)
    requires RejectsNul(sc)
    ensures ValidFormatted(r.formatted) && r.formatted.value == p.value && start <= r.ptr
    ensures start <= |text| ==> r.ptr <= |text| && r.formatted.symbol == Truncate(text[start .. r.ptr], MaxSymbol - 1)
    ensures start <= |text| ==>
              StopsAt(sc.accept, sc.init, text, start, r.ptr, MaxSymbol)
              && r.ec == (if sc.isError(ScanFinal(sc.accept, sc.init, text, start, r.ptr, MaxSymbol)) then InvalidArgument
                          else if r.ptr - start == MaxSymbol then NoBufferSpace
                          else p.ec)
    ensures start > |text| ==> r.ptr == start && r.formatted.symbol == []
    ensures start > |text| ==> r.ec == (if sc.isError(sc.init) then InvalidArgument else p.ec)
    ensures r.ptr - start == MaxSymbol ==> r.ec == NoBufferSpace || r.ec == InvalidArgument
  {
    var (copied, ptr, st) := CopySymbol(text, start, sc.accept, sc.init, []);
    var full := |copied| == MaxSymbol;
    var symbol := if full then copied[..MaxSymbol - 1] else copied;
    var ec := if sc.isError(st) then InvalidArgument else if full then NoBufferSpace else p.ec;
    FromCharsResult(ptr, ec, FormattedQuantity(p.value, symbol))
  }

  /** `from_chars` as written: the separator test reads the character after
      the scalar even when the scalar ends the text, so it reads `sentinel`,
      the character just past `i_end`. */
  function FromCharsAsWritten<S(!new)>(text: seq<char>, sentinel: char, parse: seq<char> -> ScalarParse, sc: Scanner<S>): (r: FromCharsResult)
    requires parse(text).consumed <= |text|
    requires RejectsNul(sc)
    ensures parse(text).consumed == 0 ==>
              r.ptr == 0 && r.formatted == BadFormat
              && r.ec == (if parse(text).ec == NoError then InvalidArgument else parse(text).ec)
    ensures r.ptr <= |text| + 1
  {
    var p := parse(text);
    if p.consumed == 0 then
      FromCharsResult(0, if p.ec == NoError then InvalidArgument else p.ec, BadFormat)
    else
      var c := if p.consumed < |text| then text[p.consumed] else sentinel;
      var start := if IsSeparator(c) then p.consumed + 1 else p.consumed;
      FinishFromChars(text, p, start, sc)
  }

  /** `from_chars` with the separator test kept inside the text. On a scalar
      that consumes nothing: `invalid_argument` (unless the parser reported an
      error) and `bad_format()`. Otherwise: at most one separator is skipped,
      the symbol is the text the scanner accepted after it, cut to fit with
      its NUL; the scanner's error state gives `invalid_argument`, else a full
      buffer gives `no_buffer_space`, else the parser's own code stands. */
  function FromChars<S(!new)>(text: seq<char>, parse: seq<char> -> ScalarParse, sc: Scanner<S>): (r: FromCharsResult)
    requires parse(text).consumed <= |text|
    requires RejectsNul(sc)
    ensures parse(text).consumed == 0 ==>
              r.ptr == 0 && r.formatted == BadFormat
              && r.ec == (if parse(text).ec == NoError then InvalidArgument else parse(text).ec)
    ensures parse(text).consumed > 0 ==>
              var start := SymbolStart(text, parse(text).consumed);
              && start <= r.ptr <= |text|
              && r.formatted.value == parse(text).value
              && r.formatted.symbol == Truncate(text[start .. r.ptr], MaxSymbol - 1)
              && StopsAt(sc.accept, sc.init, text, start, r.ptr, MaxSymbol)
              && r.ec == (if sc.isError(ScanFinal(sc.accept, sc.init, text, start, r.ptr, MaxSymbol)) then InvalidArgument
                          else if r.ptr - start == MaxSymbol then NoBufferSpace
                          else parse(text).ec)
    ensures ValidFormatted(r.formatted)
  {
    var p := parse(text);
    if p.consumed == 0 then
      FromCharsResult(0, if p.ec == NoError then InvalidArgument else p.ec, BadFormat)
    else
      FinishFromChars(text, p, SymbolStart(text, p.consumed), sc)
  }

  /** The symbol `from_chars` reads is the longest text after the separator
      that the scanner accepts and the buffer holds: any place where such a
      run stops is where `from_chars` stops. */
  lemma FromCharsLongestRun<S(!new)>(text: seq<char>, parse: seq<char> -> ScalarParse, sc: Scanner<S>, e: nat)
    requires parse(text).consumed <= |text| && RejectsNul(sc) && parse(text).consumed > 0
    requires StopsAt(sc.accept, sc.init, text, SymbolStart(text, parse(text).consumed), e, MaxSymbol)
    ensures FromChars(text, parse, sc).ptr == e
    ensures FromChars(text, parse, sc).formatted.symbol == Truncate(text[SymbolStart(text, parse(text).consumed) .. e], MaxSymbol - 1)
  {
    var start := SymbolStart(text, parse(text).consumed);
    StopUnique(sc.accept, sc.init, text, start, e, FromChars(text, parse, sc).ptr, MaxSymbol);
  }

  /** When the scalar is the whole text and the character past the end is a
      separator, the as-written `from_chars` reports a position past the end
      of the text; the bounded one stays at the end. */
  lemma FromCharsPastEnd()
    ensures var sc := Scanner(0, (st: int, c: char) => (c != '\0', st), (st: int) => false);
      var parse := (t: seq<char>) => ScalarParse(|t|, NoError, One);
      FromCharsAsWritten("1", ' ', parse, sc).ptr == 2
      && FromChars("1", parse, sc).ptr == 1
  {
  }

  /** The two agree whenever the scalar does not reach the end of the text. */
  lemma FromCharsAgreeInside<S(!new)>(text: seq<char>, sentinel: char, parse: seq<char> -> ScalarParse, sc: Scanner<S>)
    requires parse(text).consumed < |text| && RejectsNul(sc)
    ensures FromCharsAsWritten(text, sentinel, parse, sc) == FromChars(text, parse, sc)
  {
    var p := parse(text);
    if p.consumed > 0 {
      var start := if IsSeparator(text[p.consumed]) then p.consumed + 1 else p.consumed;
      assert start == SymbolStart(text, p.consumed);
    }
  }

  /** An empty symbol is not reported: "1" read whole by the parser gives
      the parser's code and an empty symbol, never a separate
      "symbol is zero length" code. */
  lemma EmptySymbolKeepsParserCode()
    ensures var sc := Scanner(0, (st: int, c: char) => (c != '\0', st), (st: int) => false);
      var parse := (t: seq<char>) => ScalarParse(|t|, NoError, One);
      var r := FromChars("1", parse, sc);
      r.ec == NoError && r.formatted.symbol == [] && r.formatted.value == One
  {
  }
}

=== FILE: format_map.dfy ===
/** The format registries of src/dim/format_map.hpp: the input map of one
    unit keyed by symbol, the group of input maps keyed by unit, the output
    map keyed by unit, and the `parse_quantity` / `format_quantity` entry
    points that consult a registry before falling back to the system's own
    parser or to `print_unit`. */
module FormatMaps {
  import opened Options
  import opened Scalars
  import Units
  import D = DynamicQuantities
  import Q = Quantities
  import IoDetail
  import opened Formatting
  import SV = SortedVectors

  // ---------------------------------------------------------------------
  // Symbol order

  /** `strncmp(a, b, n) < 0` on C strings cut to n characters: the first
      difference decides by character code, and a proper prefix comes
      first. */
  predicate SymbolLess(a: seq<char>, b: seq<char>)
    decreases |a|
  {
    |b| > 0 && (|a| == 0 || a[0] < b[0] || (a[0] == b[0] && SymbolLess(a[1..], b[1..])))
  }

  lemma {:induction false} SymbolLessIrreflexive(a: seq<char>)
    ensures !SymbolLess(a, a)
    decreases |a|
  {
    if |a| > 0 {
      SymbolLessIrreflexive(a[1..]);
    }
  }

  lemma {:induction false} SymbolLessTransitive(a: seq<char>, b: seq<char>, c: seq<char>)
    requires SymbolLess(a, b) && SymbolLess(b, c)
    ensures SymbolLess(a, c)
    decreases |a|
  {
    if |a| > 0 && a[0] == b[0] && b[0] == c[0] {
      SymbolLessTransitive(a[1..], b[1..], c[1..]);
    }
  }

  lemma {:induction false} SymbolLessTotal(a: seq<char>, b: seq<char>)
    ensures a == b || SymbolLess(a, b) || SymbolLess(b, a)
    decreases |a|
  {
    if |a| > 0 && |b| > 0 && a[0] == b[0] {
      SymbolLessTotal(a[1..], b[1..]);
      if a[1..] == b[1..] {
        assert a == [a[0]] + a[1..] && b == [b[0]] + b[1..];
      }
    }
  }

  /** The symbol comparison is a strict total order, so symbol maps can be
      kept sorted and searched by bisection. */
  lemma SymbolOrder()
    ensures SV.StrictOrder(SymbolLess)
  {
    forall a: seq<char> ensures !SymbolLess(a, a) {
      SymbolLessIrreflexive(a);
    }
    forall a: seq<char>, b: seq<char>, c: seq<char> | SymbolLess(a, b) && SymbolLess(b, c)
      ensures SymbolLess(a, c)
    {
      SymbolLessTransitive(a, b, c);
    }
    forall a: seq<char>, b: seq<char> ensures a == b || SymbolLess(a, b) || SymbolLess(b, a) {
      SymbolLessTotal(a, b);
    }
  }

  /** `dynamic_unit::operator<`, the order of the raw codes, is a strict
      total order. */
  lemma UnitOrder()
    ensures SV.StrictOrder(Units.Less)
  {
  }

  /** What `strncmp(_, _, kMaxSymbol)` sees of a formatter's symbol. */
  function SymbolKey(f: Formatter): seq<char>
  {
    IoDetail.Truncate(UpToNul(f.buffer), IoDetail.MaxSymbol)
  }

  /** What `strncmp(_, _, kMaxSymbol)` sees of a queried symbol. */
  function QueryKey(symbol: seq<char>): seq<char>
  {
    IoDetail.Truncate(symbol, IoDetail.MaxSymbol)
  }

  // ---------------------------------------------------------------------
  // input_format_map

  /** The formatters of one unit, sorted by symbol. */
  datatype InputMap = InputMap(index: Units.DynUnit, data: seq<Formatter>)

  /** Sorted by unique symbol, and every formatter is for the map's unit. */
  predicate ValidInputMap(m: InputMap)
  {
    && SV.Sorted(m.data, SymbolKey, SymbolLess)
    && forall i :: 0 <= i < |m.data| ==> Index(m.data[i]) == m.index
  }

  /** `get(symbol)`: the formatter registered under the symbol, if any. */
  function Get(m: InputMap, symbol: seq<char>): (r: Option<Formatter>)
    ensures r.Some? ==> SymbolKey(r.value) == QueryKey(symbol) && r.value in m.data
  {
    SV.Lookup(m.data, QueryKey(symbol), SymbolKey, SymbolLess)
  }

  /** On a valid map, `get` finds a formatter exactly when one has the
      queried symbol. */
  lemma GetComplete(m: InputMap, symbol: seq<char>)
    requires ValidInputMap(m)
    ensures Get(m, symbol).None? <==> forall f :: f in m.data ==> SymbolKey(f) != QueryKey(symbol)
  {
    SymbolOrder();
    SV.LookupByContents(m.data, QueryKey(symbol), SymbolKey, SymbolLess);
  }

  /** The map of a unit with no formatters. */
  function EmptyInputMap(u: Units.DynUnit): (m: InputMap)
    ensures ValidInputMap(m) && m.index == u
    ensures forall symbol :: Get(m, symbol).None?
  {
    InputMap(u, [])
  }

  /** `insert(formatter)`: refused (false, map unchanged) when the
      formatter's unit is not the map's; otherwise the formatter replaces the
      one with its symbol or is added in symbol order. */
  function InsertFormatter(m: InputMap, f: Formatter): (r: (bool, InputMap))
    ensures r.0 <==> Index(f) == m.index
    ensures !r.0 ==> r.1 == m
    ensures r.1.index == m.index
    ensures r.0 ==> forall symbol :: ValidInputMap(m) ==>
              Get(r.1, symbol) == (if QueryKey(symbol) == SymbolKey(f) then Some(f) else Get(m, symbol))
    ensures ValidInputMap(m) ==> ValidInputMap(r.1)
  {
    if Index(f) != m.index then (false, m)
    else
      var r := InputMap(m.index, SV.Insert(m.data, f, SymbolKey, SymbolLess));
      InsertFormatterFacts(m, f);
      (true, r)
  }

  lemma InsertFormatterFacts(m: InputMap, f: Formatter)
    requires Index(f) == m.index
    ensures var r := InputMap(m.index, SV.Insert(m.data, f, SymbolKey, SymbolLess));
      && (ValidInputMap(m) ==> ValidInputMap(r))
      && forall symbol :: ValidInputMap(m) ==>
           Get(r, symbol) == (if QueryKey(symbol) == SymbolKey(f) then Some(f) else Get(m, symbol))
  {
    var r := InputMap(m.index, SV.Insert(m.data, f, SymbolKey, SymbolLess));
    if ValidInputMap(m) {
      SymbolOrder();
      SV.InsertSorted(m.data, f, SymbolKey, SymbolLess);
      var fd := SV.Find(m.data, SymbolKey(f), SymbolKey, SymbolLess);
      if fd.None? {
        assert multiset(r.data) == multiset(m.data) + multiset{f};
        forall i | 0 <= i < |r.data| ensures Index(r.data[i]) == m.index {
          assert r.data[i] in multiset(r.data);
          if r.data[i] != f {
            assert r.data[i] in multiset(m.data);
          }
        }
      }
      forall symbol
        ensures Get(r, symbol) == (if QueryKey(symbol) == SymbolKey(f) then Some(f) else Get(m, symbol))
      {
        SV.InsertLookup(m.data, f, QueryKey(symbol), SymbolKey, SymbolLess);
      }
    }
  }

  /** Inserting the formatters of a list one by one. */
  function InsertAll(m: InputMap, fs: seq<Formatter>): (r: InputMap)
    ensures r.index == m.index
    ensures ValidInputMap(m) ==> ValidInputMap(r)
    decreases |fs|
  {
    if |fs| == 0 then m else InsertAll(InsertFormatter(m, fs[0]).1, fs[1..])
  }

  /** Every formatter left in the map came from the original map or the
      list; a formatter of the map's unit is found by its symbol
      afterwards unless a later one of the list has the same symbol. */
  lemma {:induction false} InsertAllContents(m: InputMap, fs: seq<Formatter>)
    requires ValidInputMap(m)
    ensures forall f :: f in InsertAll(m, fs).data ==> f in m.data || f in fs
    ensures forall i :: 0 <= i < |fs| && Index(fs[i]) == m.index ==>
              Get(InsertAll(m, fs), SymbolKey(fs[i])).Some?
    decreases |fs|
  {
    if |fs| > 0 {
      var m1 := InsertFormatter(m, fs[0]).1;
      InsertAllContents(m1, fs[1..]);
      var r := InsertAll(m, fs);
      assert r == InsertAll(m1, fs[1..]);
      forall f | f in r.data ensures f in m.data || f in fs {
        if f !in fs[1..] {
          assert f in m1.data;
          if Index(fs[0]) == m.index {
            assert Get(m1, SymbolKey(f)).Some? by { GetComplete(m1, SymbolKey(f)); KeyIsItsOwnQuery(f); }
            KeyIsItsOwnQuery(f);
            if f != fs[0] {
              GetComplete(m, SymbolKey(f));
              assert Get(m1, SymbolKey(f)) == Get(m, SymbolKey(f));
              LookupIsMember(m, f);
            }
          }
        }
      }
      forall i | 0 <= i < |fs| && Index(fs[i]) == m.index
        ensures Get(r, SymbolKey(fs[i])).Some?
      {
        if i == 0 {
          KeyIsItsOwnQuery(fs[0]);
          assert Get(m1, SymbolKey(fs[0])) == Some(fs[0]);
          PresentStaysPresent(m1, fs[1..], SymbolKey(fs[0]));
        } else {
          assert fs[i] == fs[1..][i - 1];
        }
      }
    }
  }

  /** A symbol key read back as a query is itself. */
  lemma KeyIsItsOwnQuery(f: Formatter)
    ensures QueryKey(SymbolKey(f)) == SymbolKey(f)
  {
  }

  /** In a valid map, the formatter found by its own symbol is itself. */
  lemma LookupIsMember(m: InputMap, f: Formatter)
    requires ValidInputMap(m) && f in m.data
    ensures Get(m, SymbolKey(f)) == Some(f)
  {
    SymbolOrder();
    KeyIsItsOwnQuery(f);
    var j :| 0 <= j < |m.data| && m.data[j] == f;
    SV.LookupByContents(m.data, SymbolKey(f), SymbolKey, SymbolLess);
  }

  /** Further insertions never remove a symbol. */
  lemma {:induction false} PresentStaysPresent(m: InputMap, fs: seq<Formatter>, symbol: seq<char>)
    requires ValidInputMap(m) && Get(m, symbol).Some?
    ensures Get(InsertAll(m, fs), symbol).Some?
    decreases |fs|
  {
    if |fs| > 0 {
      PresentStaysPresent(InsertFormatter(m, fs[0]).1, fs[1..], symbol);
    }
  }

  /** The initializer-list constructor: the map's unit is the first
      formatter's (`bad_unit()` for an empty list), and formatters of other
      units are dropped. */
  function FromList(fs: seq<Formatter>): (m: InputMap)
    ensures ValidInputMap(m)
    ensures m.index == (if |fs| > 0 then Index(fs[0]) else Units.BadUnit)
    ensures forall f :: f in m.data ==> f in fs && Index(f) == m.index
    ensures forall i :: 0 <= i < |fs| && Index(fs[i]) == m.index ==> Get(m, SymbolKey(fs[i])).Some?
  {
    var u := if |fs| > 0 then Index(fs[0]) else Units.BadUnit;
    InsertAllContents(EmptyInputMap(u), fs);
    InsertAll(EmptyInputMap(u), fs)
  }

  /** The constructor from one formatter: the map of its unit holding it. */
  function FromFormatter(f: Formatter): (m: InputMap)
    ensures ValidInputMap(m) && m.index == Index(f)
    ensures forall symbol :: Get(m, symbol) == (if QueryKey(symbol) == SymbolKey(f) then Some(f) else None)
  {
    InsertFormatter(EmptyInputMap(Index(f)), f).1
  }

  /** `to_quantity<Q>(s, symbol)`: bad when Q's unit is not the map's or the
      symbol is unknown, else the formatter's `input<Q>(s)`. */
  function ToQuantityAs(m: InputMap, s: Scalar, symbol: seq<char>, target: Q.StaticUnit): (r: Q.Quantity)
    ensures r.unit == target
    ensures Q.Index(target) != m.index || Get(m, symbol).None? ==> Q.IsBad(r)
    ensures Q.Index(target) == m.index && Get(m, symbol).Some? ==> r == InputAs(Get(m, symbol).value, s, target)
  {
    if Q.Index(target) != m.index then Q.BadQuantity(target)
    else
      var f := Get(m, symbol);
      if f.Some? then InputAs(f.value, s, target) else Q.BadQuantity(target)
  }

  /** `to_quantity(s, symbol)`: the formatter's `input(s)`, or bad when the
      symbol is unknown. */
  function ToQuantity(m: InputMap, s: Scalar, symbol: seq<char>): (r: D.DynQuantity)
    ensures Get(m, symbol).None? ==> r == D.Bad
    ensures Get(m, symbol).Some? ==> r == Input(Get(m, symbol).value, s)
  {
    var f := Get(m, symbol);
    if f.Some? then Input(f.value, s) else D.Bad
  }

  /** In a valid map with a consistent formatter, a known symbol and a
      finite value give a good quantity of the map's unit. */
  lemma ToQuantityGood(m: InputMap, s: Scalar, symbol: seq<char>)
    requires ValidInputMap(m) && Get(m, symbol).Some?
    requires var f := Get(m, symbol).value; f.add.unit == f.scale.unit && f.scale.value.Num? && f.add.value.Num?
    requires s.Num?
    ensures !D.IsBad(ToQuantity(m, s, symbol)) && ToQuantity(m, s, symbol).unit == m.index
  {
    var f := Get(m, symbol).value;
    var j :| 0 <= j < |m.data| && m.data[j] == f;
  }

  /** `erase(symbol)`: true exactly when the symbol was present; only that
      formatter goes. */
  function EraseSymbol(m: InputMap, symbol: seq<char>): (r: (bool, InputMap))
    ensures r.1.index == m.index
    ensures r.0 <==> Get(m, symbol).Some?
    ensures ValidInputMap(m) ==> ValidInputMap(r.1)
    ensures ValidInputMap(m) ==>
              forall other :: Get(r.1, other) == (if QueryKey(other) == QueryKey(symbol) then None else Get(m, other))
  {
    var e := SV.Erase(m.data, QueryKey(symbol), SymbolKey, SymbolLess);
    EraseFacts(m, symbol);
    (e.0, InputMap(m.index, e.1))
  }

  lemma EraseFacts(m: InputMap, symbol: seq<char>)
    ensures var e := SV.Erase(m.data, QueryKey(symbol), SymbolKey, SymbolLess);
      && (e.0 <==> Get(m, symbol).Some?)
      && (ValidInputMap(m) ==> ValidInputMap(InputMap(m.index, e.1)))
      && (ValidInputMap(m) ==>
            forall other :: Get(InputMap(m.index, e.1), other) == (if QueryKey(other) == QueryKey(symbol) then None else Get(m, other)))
  {
    if ValidInputMap(m) {
      EraseKeepsValid(m, symbol);
      EraseLookups(m, symbol);
    }
  }

  lemma EraseKeepsValid(m: InputMap, symbol: seq<char>)
    requires ValidInputMap(m)
    ensures ValidInputMap(InputMap(m.index, SV.Erase(m.data, QueryKey(symbol), SymbolKey, SymbolLess).1))
  {
    var e := SV.Erase(m.data, QueryKey(symbol), SymbolKey, SymbolLess);
    SymbolOrder();
    SV.EraseLookup(m.data, QueryKey(symbol), QueryKey(symbol), SymbolKey, SymbolLess);
    if e.0 {
      var i := SV.Find(m.data, QueryKey(symbol), SymbolKey, SymbolLess).value;
      forall j | 0 <= j < |e.1| ensures Index(e.1[j]) == m.index {
        if j < i { assert e.1[j] == m.data[j]; } else { assert e.1[j] == m.data[j + 1]; }
      }
    }
  }

  lemma EraseLookups(m: InputMap, symbol: seq<char>)
    requires ValidInputMap(m)
    ensures var e := SV.Erase(m.data, QueryKey(symbol), SymbolKey, SymbolLess);
      forall other :: Get(InputMap(m.index, e.1), other) == (if QueryKey(other) == QueryKey(symbol) then None else Get(m, other))
  {
    var e := SV.Erase(m.data, QueryKey(symbol), SymbolKey, SymbolLess);
    SymbolOrder();
    forall other
      ensures Get(InputMap(m.index, e.1), other) == (if QueryKey(other) == QueryKey(symbol) then None else Get(m, other))
    {
      SV.EraseLookup(m.data, QueryKey(symbol), QueryKey(other), SymbolKey, SymbolLess);
    }
  }

  // ---------------------------------------------------------------------
  // input_format_map_group

  function MapIndex(m: InputMap): Units.DynUnit { m.index }

  /** The input maps, sorted by unique unit. */
  datatype MapGroup = MapGroup(maps: seq<InputMap>)

  predicate ValidGroup(g: MapGroup)
  {
    && SV.Sorted(g.maps, MapIndex, Units.Less)
    && forall i :: 0 <= i < |g.maps| ==> ValidInputMap(g.maps[i])
  }

  /** `get(index)`: the map of that unit, if any. */
  function GroupGet(g: MapGroup, u: Units.DynUnit): (r: Option<InputMap>)
    ensures r.Some? ==> r.value.index == u && r.value in g.maps
  {
    SV.Lookup(g.maps, u, MapIndex, Units.Less)
  }

  /** Replacing or adding a whole map keeps the group valid and changes only
      the lookup of that map's unit. */
  lemma GroupPutFacts(g: MapGroup, m: InputMap)
    requires ValidGroup(g) && ValidInputMap(m)
    ensures ValidGroup(MapGroup(SV.Insert(g.maps, m, MapIndex, Units.Less)))
    ensures forall u :: GroupGet(MapGroup(SV.Insert(g.maps, m, MapIndex, Units.Less)), u) ==
              (if u == m.index then Some(m) else GroupGet(g, u))
  {
    var r := SV.Insert(g.maps, m, MapIndex, Units.Less);
    UnitOrder();
    SV.InsertSorted(g.maps, m, MapIndex, Units.Less);
    var fd := SV.Find(g.maps, m.index, MapIndex, Units.Less);
    if fd.None? {
      assert multiset(r) == multiset(g.maps) + multiset{m};
      forall i | 0 <= i < |r| ensures ValidInputMap(r[i]) {
        assert r[i] in multiset(r);
        if r[i] != m {
          assert r[i] in multiset(g.maps);
        }
      }
    }
    forall u ensures GroupGet(MapGroup(r), u) == (if u == m.index then Some(m) else GroupGet(g, u)) {
      SV.InsertLookup(g.maps, m, u, MapIndex, Units.Less);
    }
  }

  /** `insert(formatter)`: adds to the map of the formatter's unit, creating
      that map when there is none; always reports true. */
  function GroupInsertFormatter(g: MapGroup, f: Formatter): (r: (bool, MapGroup))
    ensures r.0
    ensures ValidGroup(g) ==> ValidGroup(r.1)
    ensures ValidGroup(g) ==> forall u :: u != Index(f) ==> GroupGet(r.1, u) == GroupGet(g, u)
    ensures ValidGroup(g) ==>
              && GroupGet(r.1, Index(f)).Some?
              && forall symbol :: Get(GroupGet(r.1, Index(f)).value, symbol) ==
                   (if QueryKey(symbol) == SymbolKey(f) then Some(f)
                    else if GroupGet(g, Index(f)).Some? then Get(GroupGet(g, Index(f)).value, symbol)
                    else None)
  {
    var existing := GroupGet(g, Index(f));
    var m := if existing.Some? then InsertFormatter(existing.value, f).1 else FromFormatter(f);
    var r := MapGroup(SV.Insert(g.maps, m, MapIndex, Units.Less));
    if ValidGroup(g) then
      GroupInsertFacts(g, f, existing);
      (true, r)
    else (true, r)
  }

  lemma GroupInsertFacts(g: MapGroup, f: Formatter, existing: Option<InputMap>)
    requires ValidGroup(g) && existing == GroupGet(g, Index(f))
    ensures var m := if existing.Some? then InsertFormatter(existing.value, f).1 else FromFormatter(f);
      && ValidInputMap(m) && m.index == Index(f)
      && forall symbol :: Get(m, symbol) ==
           (if QueryKey(symbol) == SymbolKey(f) then Some(f)
            else if existing.Some? then Get(existing.value, symbol) else None)
    ensures var m := if existing.Some? then InsertFormatter(existing.value, f).1 else FromFormatter(f);
      ValidGroup(MapGroup(SV.Insert(g.maps, m, MapIndex, Units.Less)))
      && forall u :: GroupGet(MapGroup(SV.Insert(g.maps, m, MapIndex, Units.Less)), u) ==
           (if u == Index(f) then Some(m) else GroupGet(g, u))
  {
    var m := if existing.Some? then InsertFormatter(existing.value, f).1 else FromFormatter(f);
    if existing.Some? {
      var j :| 0 <= j < |g.maps| && g.maps[j] == existing.value;
    }
    GroupPutFacts(g, m);
  }

  /** `insert(map)`: the map replaces the group's map of its unit, or is
      added; always reports true. */
  function GroupInsertMap(g: MapGroup, m: InputMap): (r: (bool, MapGroup))
    ensures r.0
    ensures ValidGroup(g) && ValidInputMap(m) ==> ValidGroup(r.1)
    ensures ValidGroup(g) && ValidInputMap(m) ==> forall u :: GroupGet(r.1, u) == (if u == m.index then Some(m) else GroupGet(g, u))
  {
    var r := MapGroup(SV.Insert(g.maps, m, MapIndex, Units.Less));
    if ValidGroup(g) && ValidInputMap(m) then
      GroupPutFacts(g, m);
      (true, r)
    else (true, r)
  }

  /** Removing a unit's map keeps the group valid and changes only that
      unit's lookup. */
  lemma GroupDropFacts(g: MapGroup, u: Units.DynUnit)
    requires ValidGroup(g)
    ensures var e := SV.Erase(g.maps, u, MapIndex, Units.Less);
      && ValidGroup(MapGroup(e.1))
      && (e.0 <==> GroupGet(g, u).Some?)
      && forall v :: GroupGet(MapGroup(e.1), v) == (if v == u then None else GroupGet(g, v))
  {
    var e := SV.Erase(g.maps, u, MapIndex, Units.Less);
    UnitOrder();
    SV.EraseLookup(g.maps, u, u, MapIndex, Units.Less);
    if e.0 {
      var i := SV.Find(g.maps, u, MapIndex, Units.Less).value;
      forall j | 0 <= j < |e.1| ensures ValidInputMap(e.1[j]) {
        if j < i { assert e.1[j] == g.maps[j]; } else { assert e.1[j] == g.maps[j + 1]; }
      }
    }
    forall v ensures GroupGet(MapGroup(e.1), v) == (if v == u then None else GroupGet(g, v)) {
      SV.EraseLookup(g.maps, u, v, MapIndex, Units.Less);
    }
  }

  /** `erase(index)`: true exactly when the group had a map of that unit;
      only that map goes. */
  function GroupErase(g: MapGroup, u: Units.DynUnit): (r: (bool, MapGroup))
    ensures r.0 <==> GroupGet(g, u).Some?
    ensures ValidGroup(g) ==> ValidGroup(r.1)
    ensures ValidGroup(g) ==> forall v :: GroupGet(r.1, v) == (if v == u then None else GroupGet(g, v))
  {
    var e := SV.Erase(g.maps, u, MapIndex, Units.Less);
    if ValidGroup(g) then
      GroupDropFacts(g, u);
      (e.0, MapGroup(e.1))
    else (e.0, MapGroup(e.1))
  }

  /** `erase(index, symbol)`: removes the symbol from the unit's map and
      drops the map once it is empty; true exactly when the symbol was there. */
  function GroupEraseSymbol(g: MapGroup, u: Units.DynUnit, symbol: seq<char>): (r: (bool, MapGroup))
    ensures r.0 <==> GroupGet(g, u).Some? && Get(GroupGet(g, u).value, symbol).Some?
    ensures GroupGet(g, u).None? ==> r.1 == g
    ensures ValidGroup(g) ==> ValidGroup(r.1)
    ensures ValidGroup(g) ==> forall v :: v != u ==> GroupGet(r.1, v) == GroupGet(g, v)
    ensures ValidGroup(g) && GroupGet(g, u).Some? ==>
              var m := EraseSymbol(GroupGet(g, u).value, symbol).1;
              GroupGet(r.1, u) == (if |m.data| == 0 then None else Some(m))
  {
    var existing := GroupGet(g, u);
    if existing.None? then (false, g)
    else
      var (status, m) := EraseSymbol(existing.value, symbol);
      if |m.data| == 0 then
        var e := SV.Erase(g.maps, u, MapIndex, Units.Less);
        if ValidGroup(g) then
          GroupDropFacts(g, u);
          (status, MapGroup(e.1))
        else (status, MapGroup(e.1))
      else
        var r := MapGroup(SV.Insert(g.maps, m, MapIndex, Units.Less));
        if ValidGroup(g) then
          var j :| 0 <= j < |g.maps| && g.maps[j] == existing.value;
          GroupPutFacts(g, m);
          (status, r)
        else (status, r)
  }

  /** `to_quantity<Q>(s, symbol)`: through the map of Q's unit, bad when
      there is none. */
  function GroupToQuantityAs(g: MapGroup, s: Scalar, symbol: seq<char>, target: Q.StaticUnit): (r: Q.Quantity)
    ensures r.unit == target
    ensures GroupGet(g, Q.Index(target)).None? ==> Q.IsBad(r)
    ensures GroupGet(g, Q.Index(target)).Some? ==> r == ToQuantityAs(GroupGet(g, Q.Index(target)).value, s, symbol, target)
  {
    var m := GroupGet(g, Q.Index(target));
    if m.Some? then ToQuantityAs(m.value, s, symbol, target) else Q.BadQuantity(target)
  }

  /** The dynamic `to_quantity(s, symbol)`: the first good result of the
      maps in ascending unit order, or bad when every map gives bad. */
  function GroupToQuantity(g: MapGroup, s: Scalar, symbol: seq<char>): (r: D.DynQuantity)
    ensures !D.IsBad(r) ==>
              exists i :: 0 <= i < |g.maps| && r == ToQuantity(g.maps[i], s, symbol)
                          && forall j :: 0 <= j < i ==> D.IsBad(ToQuantity(g.maps[j], s, symbol))
    ensures D.IsBad(r) ==> r == D.Bad && forall i :: 0 <= i < |g.maps| ==> D.IsBad(ToQuantity(g.maps[i], s, symbol))
  {
    ScanMaps(g.maps, s, symbol)
  }

  /** r is the first good result among the maps in order, or bad when all
      of them give bad. */
  predicate FirstGood(maps: seq<InputMap>, s: Scalar, symbol: seq<char>, r: D.DynQuantity)
  {
    && (!D.IsBad(r) ==>
          exists i :: 0 <= i < |maps| && r == ToQuantity(maps[i], s, symbol)
                      && forall j :: 0 <= j < i ==> D.IsBad(ToQuantity(maps[j], s, symbol)))
    && (D.IsBad(r) ==> r == D.Bad && forall i :: 0 <= i < |maps| ==> D.IsBad(ToQuantity(maps[i], s, symbol)))
  }

  function ScanMaps(maps: seq<InputMap>, s: Scalar, symbol: seq<char>): (r: D.DynQuantity)
    ensures FirstGood(maps, s, symbol, r)
    decreases |maps|
  {
    if |maps| == 0 then D.Bad
    else
      var value := ToQuantity(maps[0], s, symbol);
      if !D.IsBad(value) then value
      else
        var rest := ScanMaps(maps[1..], s, symbol);
        ScanStep(maps, s, symbol, rest);
        rest
  }

  /** A bad first map passes the search on to the rest. */
  lemma ScanStep(maps: seq<InputMap>, s: Scalar, symbol: seq<char>, r: D.DynQuantity)
    requires |maps| > 0 && D.IsBad(ToQuantity(maps[0], s, symbol))
    requires FirstGood(maps[1..], s, symbol, r)
    ensures FirstGood(maps, s, symbol, r)
  {
    if !D.IsBad(r) {
      var i :| 0 <= i < |maps[1..]| && r == ToQuantity(maps[1..][i], s, symbol)
               && forall j :: 0 <= j < i ==> D.IsBad(ToQuantity(maps[1..][j], s, symbol));
      assert maps[1..][i] == maps[i + 1];
      forall j | 0 <= j < i + 1
        ensures D.IsBad(ToQuantity(maps[j], s, symbol))
      {
        if j > 0 { assert maps[1..][j - 1] == maps[j]; }
      }
    } else {
      forall i | 0 <= i < |maps|
        ensures D.IsBad(ToQuantity(maps[i], s, symbol))
      {
        if i > 0 { assert maps[1..][i - 1] == maps[i]; }
      }
    }
  }

  // ---------------------------------------------------------------------
  // output_format_map

  /** At most one formatter per unit, sorted by unit. */
  datatype OutputMap = OutputMap(data: seq<Formatter>)

  predicate ValidOutput(om: OutputMap) { SV.Sorted(om.data, Index, Units.Less) }

  /** `get(unit)`. */
  function OutputGet(om: OutputMap, u: Units.DynUnit): (r: Option<Formatter>)
    ensures r.Some? ==> Index(r.value) == u && r.value in om.data
  {
    SV.Lookup(om.data, u, Index, Units.Less)
  }

  /** `format(q)`: the formatter of q's unit applied to q, or `bad_format()`
      when there is none. */
  function Format(om: OutputMap, q: D.DynQuantity): (r: FormattedQuantity)
    ensures OutputGet(om, q.unit).None? ==> r == BadFormat
    ensures OutputGet(om, q.unit).Some? ==> r == Output(OutputGet(om, q.unit).value, q)
  {
    var f := OutputGet(om, q.unit);
    if f.Some? then Output(f.value, q) else BadFormat
  }

  /** `format<Q>(q)`: looked up by `index<Q>()`, through the dynamic form. */
  function FormatStatic(om: OutputMap, q: Q.Quantity): (r: FormattedQuantity)
    ensures r == Format(om, D.FromStatic(q))
  {
    var f := OutputGet(om, Q.Index(q.unit));
    if f.Some? then Output(f.value, D.FromStatic(q)) else BadFormat
  }

  /** `insert(formatter)`: replaces the formatter of its unit or adds it;
      always true. */
  function OutputInsert(om: OutputMap, f: Formatter): (r: (bool, OutputMap))
    ensures r.0
    ensures ValidOutput(om) ==> ValidOutput(r.1)
    ensures ValidOutput(om) ==> forall u :: OutputGet(r.1, u) == (if u == Index(f) then Some(f) else OutputGet(om, u))
    ensures ValidOutput(om) && OutputGet(om, Index(f)).Some? ==> |r.1.data| == |om.data|
    ensures ValidOutput(om) && OutputGet(om, Index(f)).None? ==> |r.1.data| == |om.data| + 1
  {
    var r := OutputMap(SV.Insert(om.data, f, Index, Units.Less));
    if ValidOutput(om) then
      OutputInsertFacts(om, f);
      (true, r)
    else (true, r)
  }

  lemma OutputInsertFacts(om: OutputMap, f: Formatter)
    requires ValidOutput(om)
    ensures ValidOutput(OutputMap(SV.Insert(om.data, f, Index, Units.Less)))
    ensures forall u :: OutputGet(OutputMap(SV.Insert(om.data, f, Index, Units.Less)), u) ==
              (if u == Index(f) then Some(f) else OutputGet(om, u))
    ensures OutputGet(om, Index(f)).Some? <==> SV.Find(om.data, Index(f), Index, Units.Less).Some?
  {
    UnitOrder();
    SV.InsertSorted(om.data, f, Index, Units.Less);
    SV.LookupByContents(om.data, Index(f), Index, Units.Less);
    forall u ensures OutputGet(OutputMap(SV.Insert(om.data, f, Index, Units.Less)), u) ==
                   (if u == Index(f) then Some(f) else OutputGet(om, u))
    {
      SV.InsertLookup(om.data, f, u, Index, Units.Less);
    }
  }

  /** `erase(unit)`: true exactly when a formatter of that unit was there;
      only it goes. */
  function OutputErase(om: OutputMap, u: Units.DynUnit): (r: (bool, OutputMap))
    ensures r.0 <==> OutputGet(om, u).Some?
    ensures ValidOutput(om) ==> ValidOutput(r.1)
    ensures ValidOutput(om) ==> forall v :: OutputGet(r.1, v) == (if v == u then None else OutputGet(om, v))
  {
    var e := SV.Erase(om.data, u, Index, Units.Less);
    if ValidOutput(om) then
      UnitOrder();
      SV.EraseLookup(om.data, u, u, Index, Units.Less);
      OutputEraseLookups(om, u);
      (e.0, OutputMap(e.1))
    else (e.0, OutputMap(e.1))
  }

  lemma OutputEraseLookups(om: OutputMap, u: Units.DynUnit)
    requires ValidOutput(om)
    ensures forall v :: OutputGet(OutputMap(SV.Erase(om.data, u, Index, Units.Less).1), v) ==
              (if v == u then None else OutputGet(om, v))
  {
    UnitOrder();
    forall v ensures OutputGet(OutputMap(SV.Erase(om.data, u, Index, Units.Less).1), v) ==
                   (if v == u then None else OutputGet(om, v))
    {
      SV.EraseLookup(om.data, u, v, Index, Units.Less);
    }
  }

  // ---------------------------------------------------------------------
  // Entry points

  /** `get_default_format<Q>()`: the empty map of Q's unit. */
  function DefaultFormat(target: Q.StaticUnit): (m: InputMap)
    ensures ValidInputMap(m) && m.index == Q.Index(target)
    ensures forall symbol :: Get(m, symbol).None?
  {
    EmptyInputMap(Q.Index(target))
  }

  /** `parse_quantity<Q>(q, formatted, map)`: the map's answer when it is
      good, else the value times the system's parse of the symbol, as Q;
      reports whether the answer is good. */
  function ParseQuantityAs(fq: FormattedQuantity, m: InputMap, target: Q.StaticUnit,
                           standard: seq<char> -> D.DynQuantity): (r: (bool, Q.Quantity))
    ensures r.1.unit == target && (r.0 <==> !Q.IsBad(r.1))
    ensures !Q.IsBad(ToQuantityAs(m, fq.value, fq.symbol, target)) ==>
              r.1 == ToQuantityAs(m, fq.value, fq.symbol, target)
    ensures Q.IsBad(ToQuantityAs(m, fq.value, fq.symbol, target)) ==>
              r.1 == D.As(D.ScalarTimes(fq.value, standard(fq.symbol)), target)
  {
    var q := ToQuantityAs(m, fq.value, fq.symbol, target);
    if !Q.IsBad(q) then (true, q)
    else
      var q2 := D.As(D.ScalarTimes(fq.value, standard(fq.symbol)), target);
      (!Q.IsBad(q2), q2)
  }

  /** `parse_quantity(dq, formatted, group)`: the group's answer when good,
      else the value times the system's parse of the symbol. */
  function ParseQuantityGroup(fq: FormattedQuantity, g: MapGroup, standard: seq<char> -> D.DynQuantity): (r: (bool, D.DynQuantity))
    ensures r.0 <==> !D.IsBad(r.1)
    ensures !D.IsBad(GroupToQuantity(g, fq.value, fq.symbol)) ==> r.1 == GroupToQuantity(g, fq.value, fq.symbol)
    ensures D.IsBad(GroupToQuantity(g, fq.value, fq.symbol)) ==> r.1 == D.ScalarTimes(fq.value, standard(fq.symbol))
  {
    var q := GroupToQuantity(g, fq.value, fq.symbol);
    if !D.IsBad(q) then (true, q)
    else
      var q2 := D.ScalarTimes(fq.value, standard(fq.symbol));
      (!D.IsBad(q2), q2)
  }

  /** `parse_quantity(dq, formatted, map)`: the same with one map. */
  function ParseQuantityMap(fq: FormattedQuantity, m: InputMap, standard: seq<char> -> D.DynQuantity): (r: (bool, D.DynQuantity))
    ensures r.0 <==> !D.IsBad(r.1)
    ensures !D.IsBad(ToQuantity(m, fq.value, fq.symbol)) ==> r.1 == ToQuantity(m, fq.value, fq.symbol)
    ensures D.IsBad(ToQuantity(m, fq.value, fq.symbol)) ==> r.1 == D.ScalarTimes(fq.value, standard(fq.symbol))
  {
    var q := ToQuantity(m, fq.value, fq.symbol);
    if !D.IsBad(q) then (true, q)
    else
      var q2 := D.ScalarTimes(fq.value, standard(fq.symbol));
      (!D.IsBad(q2), q2)
  }

  /** A symbol the map knows is never handed to the fallback parser: with a
      consistent formatter and a finite value the map's answer stands. */
  lemma MapBeforeFallback(fq: FormattedQuantity, m: InputMap, standard: seq<char> -> D.DynQuantity)
    requires ValidInputMap(m) && Get(m, fq.symbol).Some?
    requires var f := Get(m, fq.symbol).value; f.add.unit == f.scale.unit && f.scale.value.Num? && f.add.value.Num?
    requires fq.value.Num?
    ensures ParseQuantityMap(fq, m, standard) == (true, Input(Get(m, fq.symbol).value, fq.value))
  {
    ToQuantityGood(m, fq.value, fq.symbol);
  }

  /** `format_quantity(formatted, q, map)`: the output map's answer when
      there is a map and its answer is good; else the raw value with
      `print_unit`'s text for q's unit in the symbol buffer. Always true. */
  function FormatQuantity(q: D.DynQuantity, om: Option<OutputMap>,
                          special: Units.DynUnit -> Option<seq<char>>,
                          symbolFor: Units.Dim -> seq<char>): (r: (bool, FormattedQuantity))
    ensures r.0
    ensures om.Some? && !IsBadFormat(Format(om.value, q)) ==> r.1 == Format(om.value, q)
    ensures !(om.Some? && !IsBadFormat(Format(om.value, q))) ==>
              r.1.value == q.value
              && r.1.symbol == IoDetail.PrintUnit(IoDetail.MaxSymbol, special(q.unit), q.unit, symbolFor).text
  {
    if om.Some? && !IsBadFormat(Format(om.value, q)) then (true, Format(om.value, q))
    else (true, FormattedQuantity(q.value, IoDetail.PrintUnit(IoDetail.MaxSymbol, special(q.unit), q.unit, symbolFor).text))
  }

  /** `format_quantity` of a static quantity: the dynamic form on its value
      and `index<Q>()`. */
  function FormatQuantityStatic(q: Q.Quantity, om: Option<OutputMap>,
                                special: Units.DynUnit -> Option<seq<char>>,
                                symbolFor: Units.Dim -> seq<char>): (r: (bool, FormattedQuantity))
    ensures r == FormatQuantity(D.FromStatic(q), om, special, symbolFor)
  {
    FormatQuantity(D.FromStatic(q), om, special, symbolFor)
  }

  /** Without a special symbol, a quantity of a unit the output map does not
      know is written as its value and its dimensions in print order. */
  lemma FormatFallsBackToPrintUnit(q: D.DynQuantity, om: OutputMap,
                                   special: Units.DynUnit -> Option<seq<char>>,
                                   symbolFor: Units.Dim -> seq<char>)
    requires OutputGet(om, q.unit).None? && special(q.unit).None?
    ensures var r := FormatQuantity(q, Some(om), special, symbolFor).1;
      r.value == q.value
      && r.symbol == IoDetail.Truncate(IoDetail.Render(q.unit, symbolFor, IoDetail.PrintOrder, false), IoDetail.MaxSymbol - 1)
  {
  }
}

=== FILE: index_map.dfy ===
/** `format_index_map` (src/dim/format_map.cpp): an array of (index, payload)
    nodes kept sorted by index, searched with C `bsearch` and re-sorted with
    `qsort` after every insertion, with a capacity that doubles when full.

    Both comparators return a `long` difference narrowed to `int`, which
    only orders the indices correctly while their differences fit in 32
    bits. The model keeps the comparator as written (`AsWritten`) next to an
    exact three-way comparison (`Exact`); the map operations use the exact
    one and the `...AsWritten` members show what the narrowing does. */
module IndexMaps {
  import opened Options
  import opened Int8

  datatype Node<P> = Node(index: int, payload: P)

  /** The live nodes (`map[0 .. mapSize)`) and `mapCapacity`. */
  datatype IndexMap<P> = IndexMap(nodes: seq<Node<P>>, capacity: nat)

  /** Indices strictly increase, so each index occurs at most once. */
  predicate Sorted<P>(nodes: seq<Node<P>>)
  {
    forall i, j :: 0 <= i < j < |nodes| ==> nodes[i].index < nodes[j].index
  }

  predicate Valid<P>(m: IndexMap<P>)
  {
    1 <= m.capacity && |m.nodes| <= m.capacity && Sorted(m.nodes)
  }

  predicate Absent<P>(nodes: seq<Node<P>>, key: int)
  {
    forall i :: 0 <= i < |nodes| ==> nodes[i].index != key
  }

  datatype Comparator = AsWritten | Exact

  /** `map_compare(&key, node)`: `*key - element->index` returned as `int`,
      or the exact sign of that difference. */
  function Compare(c: Comparator, key: int, index: int): (r: int)
    ensures c == Exact ==> (r < 0 <==> key < index) && (r == 0 <==> key == index) && (r > 0 <==> key > index)
    ensures c == AsWritten ==> (r - (key - index)) % 0x1_0000_0000 == 0
  {
    match c
    case AsWritten => Wrap32(key - index)
    case Exact => if key < index then -1 else if key == index then 0 else 1
  }

  /** Within 32 bits the narrowed difference has the exact comparison's sign. */
  lemma NarrowSign(key: int, index: int)
    requires -0x8000_0000 <= key - index < 0x8000_0000
    ensures Compare(AsWritten, key, index) < 0 <==> Compare(Exact, key, index) < 0
    ensures Compare(AsWritten, key, index) > 0 <==> Compare(Exact, key, index) > 0
  {
  }

  /** C `bsearch` over `nodes[lo .. hi)`, probing the middle element as glibc
      does: a negative comparison continues to the left, a positive one to
      the right, and zero answers that position. */
  function BSearch<P>(nodes: seq<Node<P>>, key: int, c: Comparator, lo: nat, hi: nat): (r: Option<nat>)
    requires lo <= hi <= |nodes|
    ensures r.Some? ==> lo <= r.value < hi && Compare(c, key, nodes[r.value].index) == 0
    decreases hi - lo
  {
    if lo >= hi then None
    else
      var mid := (lo + hi) / 2;
      var d := Compare(c, key, nodes[mid].index);
      if d < 0 then BSearch(nodes, key, c, lo, mid)
      else if d > 0 then BSearch(nodes, key, c, mid + 1, hi)
      else Some(mid)
  }

  /** With the exact comparison on sorted nodes, the search fails exactly
      when no node in the range has the key. */
  lemma {:induction false} BSearchExact<P>(nodes: seq<Node<P>>, key: int, lo: nat, hi: nat)
    requires Sorted(nodes) && lo <= hi <= |nodes|
    ensures BSearch(nodes, key, Exact, lo, hi).None? <==> forall i :: lo <= i < hi ==> nodes[i].index != key
    decreases hi - lo
  {
    if lo < hi {
      var mid := (lo + hi) / 2;
      if key < nodes[mid].index {
        BSearchExact(nodes, key, lo, mid);
        AboveMissing(nodes, key, mid, hi);
      } else if key > nodes[mid].index {
        BSearchExact(nodes, key, mid + 1, hi);
        BelowMissing(nodes, key, lo, mid);
      }
    }
  }

  lemma AboveMissing<P>(nodes: seq<Node<P>>, key: int, mid: nat, hi: nat)
    requires Sorted(nodes) && mid < hi <= |nodes| && key < nodes[mid].index
    ensures forall i :: mid <= i < hi ==> nodes[i].index != key
  {
    assert forall i :: mid < i < hi ==> nodes[mid].index < nodes[i].index;
  }

  lemma BelowMissing<P>(nodes: seq<Node<P>>, key: int, lo: nat, mid: nat)
    requires Sorted(nodes) && lo <= mid < |nodes| && key > nodes[mid].index
    ensures forall i :: lo <= i <= mid ==> nodes[i].index != key
  {
    assert forall i :: lo <= i < mid ==> nodes[i].index < nodes[mid].index;
  }

  /** While every index in the range is within 32 bits of the key, the
      narrowed comparator searches exactly like the exact one. */
  lemma {:induction false} BSearchAgrees<P>(nodes: seq<Node<P>>, key: int, lo: nat, hi: nat)
    requires lo <= hi <= |nodes|
    requires forall i :: lo <= i < hi ==> -0x8000_0000 <= key - nodes[i].index < 0x8000_0000
    ensures BSearch(nodes, key, AsWritten, lo, hi) == BSearch(nodes, key, Exact, lo, hi)
    decreases hi - lo
  {
    if lo < hi {
      var mid := (lo + hi) / 2;
      NarrowSign(key, nodes[mid].index);
      var d := Compare(Exact, key, nodes[mid].index);
      if d < 0 {
        BSearchAgrees(nodes, key, lo, mid);
      } else if d > 0 {
        BSearchAgrees(nodes, key, mid + 1, hi);
      }
    }
  }

  /** The same search as a loop over a half-open window. */
  method BSearchLoop<P>(nodes: seq<Node<P>>, key: int, c: Comparator) returns (r: Option<nat>)
    ensures r == BSearch(nodes, key, c, 0, |nodes|)
  {
    var lo: nat, hi: nat := 0, |nodes|;
    while lo < hi
      invariant lo <= hi <= |nodes|
      invariant BSearch(nodes, key, c, lo, hi) == BSearch(nodes, key, c, 0, |nodes|)
      decreases hi - lo
    {
      var mid := (lo + hi) / 2;
      var d := Compare(c, key, nodes[mid].index);
      if d < 0 {
        hi := mid;
      } else if d > 0 {
        lo := mid + 1;
      } else {
        return Some(mid);
      }
    }
    return None;
  }

  /** `get(index)`: the payload of the node the search finds, or null. */
  function GetWith<P>(m: IndexMap<P>, c: Comparator, key: int): (r: Option<P>)
    ensures r.Some? ==> exists i :: 0 <= i < |m.nodes| && m.nodes[i].payload == r.value && Compare(c, key, m.nodes[i].index) == 0
  {
    match BSearch(m.nodes, key, c, 0, |m.nodes|)
    case Some(i) => Some(m.nodes[i].payload)
    case None => None
  }

  function GetAsWritten<P>(m: IndexMap<P>, key: int): Option<P> { GetWith(m, AsWritten, key) }

  function Get<P>(m: IndexMap<P>, key: int): Option<P> { GetWith(m, Exact, key) }

  /** On a valid map, `get` finds a payload exactly when some node carries
      the key, and then it is that node's payload. */
  lemma GetFindsExactly<P>(m: IndexMap<P>, key: int)
    requires Valid(m)
    ensures Get(m, key).None? <==> Absent(m.nodes, key)
    ensures forall i :: 0 <= i < |m.nodes| && m.nodes[i].index == key ==> Get(m, key) == Some(m.nodes[i].payload)
  {
    BSearchExact(m.nodes, key, 0, |m.nodes|);
  }

  /** The as-written `get` agrees with the exact one while every stored
      index is within 32 bits of the key. */
  lemma GetAgrees<P>(m: IndexMap<P>, key: int)
    requires forall i :: 0 <= i < |m.nodes| ==> -0x8000_0000 <= key - m.nodes[i].index < 0x8000_0000
    ensures GetAsWritten(m, key) == Get(m, key)
  {
    BSearchAgrees(m.nodes, key, 0, |m.nodes|);
  }

  /** A map holding only index 2^32 answers a query for index 0. */
  lemma NarrowingCollision<P>(p: P)
    ensures GetAsWritten(IndexMap([Node(0x1_0000_0000, p)], 1), 0) == Some(p)
    ensures Get(IndexMap([Node(0x1_0000_0000, p)], 1), 0) == None
  {
    assert Compare(AsWritten, 0, 0x1_0000_0000) == 0;
  }

  /** Where a new index goes: after every smaller index. */
  function Position<P>(nodes: seq<Node<P>>, key: int): (r: nat)
    ensures r <= |nodes|
    ensures forall i :: 0 <= i < r ==> nodes[i].index < key
    ensures Sorted(nodes) ==> forall i :: r <= i < |nodes| ==> nodes[i].index >= key
  {
    if |nodes| == 0 || nodes[0].index >= key then 0
    else
      assert Sorted(nodes) ==> Sorted(nodes[1..]);
      1 + Position(nodes[1..], key)
  }

  /** Appending a node and re-sorting by index: the node lands at its
      position among the others. */
  function InsertSorted<P>(nodes: seq<Node<P>>, n: Node<P>): (r: seq<Node<P>>)
    ensures |r| == |nodes| + 1
  {
    var pos := Position(nodes, n.index);
    nodes[..pos] + [n] + nodes[pos..]
  }

  /** Where each old node sits after the insertion. */
  lemma InsertedAt<P>(nodes: seq<Node<P>>, n: Node<P>)
    ensures var pos, r := Position(nodes, n.index), InsertSorted(nodes, n);
      && r[pos] == n
      && (forall i :: 0 <= i < pos ==> r[i] == nodes[i])
      && (forall i :: pos <= i < |nodes| ==> r[i + 1] == nodes[i])
  {
    SplicedAt(nodes, Position(nodes, n.index), n);
  }

  lemma SplicedAt<P>(nodes: seq<Node<P>>, pos: nat, n: Node<P>)
    requires pos <= |nodes|
    ensures var r := nodes[..pos] + [n] + nodes[pos..];
      && r[pos] == n
      && (forall i :: 0 <= i < pos ==> r[i] == nodes[i])
      && (forall i :: pos <= i < |nodes| ==> r[i + 1] == nodes[i])
  {
  }

  lemma InsertSortedSorted<P>(nodes: seq<Node<P>>, n: Node<P>)
    requires Sorted(nodes) && Absent(nodes, n.index)
    ensures Sorted(InsertSorted(nodes, n))
  {
    var r := InsertSorted(nodes, n);
    forall i, j | 0 <= i < j < |r|
      ensures r[i].index < r[j].index
    {
      InsertedNode(nodes, n, i);
      InsertedNode(nodes, n, j);
    }
  }

  /** The node at position i after the insertion. */
  lemma InsertedNode<P>(nodes: seq<Node<P>>, n: Node<P>, i: nat)
    requires i <= |nodes|
    ensures var pos := Position(nodes, n.index);
      InsertSorted(nodes, n)[i] == (if i < pos then nodes[i] else if i == pos then n else nodes[i - 1])
  {
    InsertedAt(nodes, n);
  }

  lemma InsertSortedContents<P>(nodes: seq<Node<P>>, n: Node<P>)
    ensures multiset(InsertSorted(nodes, n)) == multiset(nodes) + multiset{n}
  {
    SplicedContents(nodes, Position(nodes, n.index), n);
  }

  lemma SplicedContents<P>(nodes: seq<Node<P>>, pos: nat, n: Node<P>)
    requires pos <= |nodes|
    ensures multiset(nodes[..pos] + [n] + nodes[pos..]) == multiset(nodes) + multiset{n}
  {
    var a, b := nodes[..pos], nodes[pos..];
    assert nodes == a + b;
    assert multiset(a + [n] + b) == multiset(a) + multiset([n]) + multiset(b);
  }

  /** `set(index, payload)` with the given comparator for the initial
      search: a found node has its payload replaced; otherwise the capacity
      doubles if the array is full and the node is added in index order. */
  function SetWith<P>(m: IndexMap<P>, c: Comparator, key: int, payload: P): (r: IndexMap<P>)
    ensures |r.nodes| == |m.nodes| || |r.nodes| == |m.nodes| + 1
  {
    match BSearch(m.nodes, key, c, 0, |m.nodes|)
    case Some(i) => IndexMap(m.nodes[i := Node(m.nodes[i].index, payload)], m.capacity)
    case None =>
      var capacity := if |m.nodes| == m.capacity then 2 * m.capacity else m.capacity;
      IndexMap(InsertSorted(m.nodes, Node(key, payload)), capacity)
  }

  function SetAsWritten<P>(m: IndexMap<P>, key: int, payload: P): IndexMap<P> { SetWith(m, AsWritten, key, payload) }

  function Set<P>(m: IndexMap<P>, key: int, payload: P): IndexMap<P> { SetWith(m, Exact, key, payload) }

  /** `set` keeps the map valid; the size grows by one exactly when the
      index is new, and the capacity doubles exactly when a new index meets
      a full array. */
  lemma SetKeepsValid<P>(m: IndexMap<P>, key: int, payload: P)
    requires Valid(m)
    ensures Valid(Set(m, key, payload))
    ensures |Set(m, key, payload).nodes| == |m.nodes| + (if Absent(m.nodes, key) then 1 else 0)
    ensures Set(m, key, payload).capacity == (if Absent(m.nodes, key) && |m.nodes| == m.capacity then 2 * m.capacity else m.capacity)
  {
    BSearchExact(m.nodes, key, 0, |m.nodes|);
    if Absent(m.nodes, key) {
      InsertSortedSorted(m.nodes, Node(key, payload));
    }
  }

  /** After `set`, `get` of that index gives the new payload and every
      other index answers as before. */
  lemma GetAfterSet<P>(m: IndexMap<P>, key: int, payload: P, other: int)
    requires Valid(m)
    ensures Get(Set(m, key, payload), key) == Some(payload)
    ensures other != key ==> Get(Set(m, key, payload), other) == Get(m, other)
  {
    SetKeepsValid(m, key, payload);
    BSearchExact(m.nodes, key, 0, |m.nodes|);
    if Absent(m.nodes, key) {
      GetAfterInsert(m, key, payload, other);
    } else {
      GetAfterReplace(m, key, payload, other);
    }
  }

  lemma GetAfterInsert<P>(m: IndexMap<P>, key: int, payload: P, other: int)
    requires Valid(m) && Valid(Set(m, key, payload)) && Absent(m.nodes, key)
    requires BSearch(m.nodes, key, Exact, 0, |m.nodes|).None?
    ensures Get(Set(m, key, payload), key) == Some(payload)
    ensures other != key ==> Get(Set(m, key, payload), other) == Get(m, other)
  {
    var r := Set(m, key, payload);
    var pos := Position(m.nodes, key);
    assert r.nodes == InsertSorted(m.nodes, Node(key, payload));
    InsertedAt(m.nodes, Node(key, payload));
    GetFindsExactly(r, key);
    if other != key {
      GetFindsExactly(m, other);
      GetFindsExactly(r, other);
      if Absent(m.nodes, other) {
        forall i | 0 <= i < |r.nodes|
          ensures r.nodes[i].index != other
        {
          if i > pos {
            assert r.nodes[i] == m.nodes[i - 1];
          }
        }
      } else {
        var i :| 0 <= i < |m.nodes| && m.nodes[i].index == other;
        if i < pos {
          assert r.nodes[i] == m.nodes[i];
        } else {
          assert r.nodes[i + 1] == m.nodes[i];
        }
      }
    }
  }

  lemma GetAfterReplace<P>(m: IndexMap<P>, key: int, payload: P, other: int)
    requires Valid(m) && Valid(Set(m, key, payload)) && !Absent(m.nodes, key)
    requires BSearch(m.nodes, key, Exact, 0, |m.nodes|).Some?
    ensures Get(Set(m, key, payload), key) == Some(payload)
    ensures other != key ==> Get(Set(m, key, payload), other) == Get(m, other)
  {
    var r := Set(m, key, payload);
    var i :| 0 <= i < |m.nodes| && m.nodes[i].index == key;
    GetFindsExactly(r, key);
    assert r.nodes[i] == Node(key, payload);
    if other != key {
      ReplacedElsewhere(m, r, i, other);
    }
  }

  /** Replacing the payload at i leaves lookups of other indices alone. */
  lemma ReplacedElsewhere<P>(m: IndexMap<P>, r: IndexMap<P>, i: nat, other: int)
    requires Valid(m) && Valid(r) && i < |m.nodes| && m.nodes[i].index != other
    requires |r.nodes| == |m.nodes| && r.nodes == m.nodes[i := Node(m.nodes[i].index, r.nodes[i].payload)]
    ensures Get(r, other) == Get(m, other)
  {
    GetFindsExactly(m, other);
    GetFindsExactly(r, other);
    assert forall k :: 0 <= k < |m.nodes| ==> r.nodes[k].index == m.nodes[k].index;
  }

  /** With an index 2^32 stored, the as-written `set(0, q)` overwrites that
      node's payload instead of adding index 0. */
  lemma SetCollision<P>(p: P, q: P)
    ensures SetAsWritten(IndexMap([Node(0x1_0000_0000, p)], 1), 0, q) == IndexMap([Node(0x1_0000_0000, q)], 1)
    ensures Set(IndexMap([Node(0x1_0000_0000, p)], 1), 0, q) == IndexMap([Node(0, q), Node(0x1_0000_0000, p)], 2)
  {
    assert Compare(AsWritten, 0, 0x1_0000_0000) == 0;
    var nodes := [Node(0x1_0000_0000, p)];
    assert Position(nodes, 0) == 0;
  }

  /** `clear()`: no nodes, same capacity. */
  function Clear<P>(m: IndexMap<P>): (r: IndexMap<P>)
    ensures Valid(m) ==> Valid(r)
    ensures r.capacity == m.capacity
    ensures forall key :: Get(r, key).None?
  {
    IndexMap([], m.capacity)
  }
}

=== FILE: int8.dfy ===
/** Fixed-width integer helpers: the C++ `int8_t`/`uint8_t` conversions and the
    truncating `/` and `%` that the library's arithmetic relies on. */
module Int8 {

  /** Values of a C++ `int8_t`. */
  type i8 = x: int | -128 <= x < 128

  /** Values of a C++ `uint8_t`. */
  type u8 = x: int | 0 <= x < 256

  /** `static_cast<int8_t>(x)`: two's-complement wrap modulo 256. */
  function Wrap8(x: int): (r: i8)
    ensures (r - x) % 256 == 0
    ensures -128 <= x < 128 ==> r == x
  {
    var m := x % 256;
    if m < 128 then m else m - 256
  }

  /** `static_cast<uint8_t>(v)` for an `int8_t` v. */
  function ToByte(v: i8): (r: u8)
    ensures (r - v) % 256 == 0
  {
    if v < 0 then v + 256 else v
  }

  /** `static_cast<int8_t>(b)` for a `uint8_t` b. */
  function ToSigned(b: u8): (r: i8)
    ensures (r - b) % 256 == 0
  {
    if b < 128 then b else b - 256
  }

  lemma SignedByteRoundTrip(v: i8, b: u8)
    ensures ToSigned(ToByte(v)) == v
    ensures ToByte(ToSigned(b)) == b
  {
  }

  /** Wrapping only depends on the residue modulo 256. */
  lemma Wrap8Congruent(x: int, y: int)
    requires (x - y) % 256 == 0
    ensures Wrap8(x) == Wrap8(y)
  {
    assert x % 256 == y % 256;
  }

  /** Wrapped negation is an additive inverse modulo 256, and an involution. */
  lemma WrapNegate(x: i8)
    ensures Wrap8(x + Wrap8(-(x as int))) == 0
    ensures Wrap8(-(Wrap8(-(x as int)) as int)) == x
  {
    var n := Wrap8(-(x as int));
    assert (n + x) % 256 == 0;
    Wrap8Congruent(x + n, 0);
    Wrap8Congruent(-(n as int), x);
  }

  /** Wrapped sums and products only depend on the wrapped operands. */
  lemma WrapAdd(x: int, y: int)
    ensures Wrap8(Wrap8(x) + Wrap8(y)) == Wrap8(x + y)
  {
    var a, b := Wrap8(x), Wrap8(y);
    assert ((a + b) - (x + y)) % 256 == 0 by {
      assert (a - x) % 256 == 0 && (b - y) % 256 == 0;
    }
    Wrap8Congruent(a + b, x + y);
  }

  lemma WrapAssociates(x: i8, y: i8, z: i8)
    ensures Wrap8(Wrap8(x + y) + z) == Wrap8(x + Wrap8(y + z))
  {
    WrapAdd(x + y, z);
    WrapAdd(x, y + z);
    assert Wrap8(z) == z && Wrap8(x) == x;
  }

  /** C++ integer division, which truncates toward zero. */
  function TruncDiv(a: int, b: int): (q: int)
    requires b != 0
    ensures b * q == a - TruncMod(a, b)
    ensures (a >= 0) == (TruncMod(a, b) >= 0) || TruncMod(a, b) == 0
  {
    if a >= 0 then
      (if b > 0 then a / b else -(a / -b))
    else
      (if b > 0 then -((-a) / b) else (-a) / (-b))
  }

  /** C++ `%`: the remainder takes the sign of the dividend. */
  function TruncMod(a: int, b: int): (r: int)
    requires b != 0
    ensures -Abs(b) < r < Abs(b)
    ensures a >= 0 ==> r >= 0
    ensures a <= 0 ==> r <= 0
  {
    if a >= 0 then a % Abs(b) else -((-a) % Abs(b))
  }

  function Abs(x: int): (r: int)
    ensures r >= 0 && (r == x || r == -x)
  {
    if x < 0 then -x else x
  }

  /** When b divides a, truncating division is exact. */
  lemma TruncDivExact(a: int, b: int)
    requires b != 0 && TruncMod(a, b) == 0
    ensures TruncDiv(a, b) * b == a
  {
  }

  lemma MulAtLeast(n: int, k: int)
    requires n > 0 && k >= 1
    ensures n * k >= n
  {
    assert n * k == n * (k - 1) + n;
    assert n * (k - 1) >= 0;
  }

  /** Euclidean division of a multiple of a positive n by n is exact. */
  lemma DivOfMultiple(x: int, n: int)
    requires n > 0
    ensures (x * n) / n == x
  {
    var q, r := (x * n) / n, (x * n) % n;
    assert n * (x - q) == r;
    if x - q >= 1 {
      MulAtLeast(n, x - q);
    } else if x - q <= -1 {
      assert n * (q - x) == -r;
      MulAtLeast(n, q - x);
    }
  }

  /** Truncating division of a multiple of n by n is exact. */
  lemma TruncDivOfMultiple(x: int, n: int)
    requires n != 0
    ensures TruncDiv(x * n, n) == x
  {
    var a := x * n;
    if n > 0 {
      DivOfMultiple(x, n);
      if a < 0 {
        assert -a == (-x) * n;
        DivOfMultiple(-x, n);
      }
    } else {
      if a >= 0 {
        assert a == (-x) * (-n);
        DivOfMultiple(-x, -n);
      } else {
        assert -a == x * (-n);
        DivOfMultiple(x, -n);
      }
    }
  }

  lemma MulCancel(a: int, b: int, n: int)
    requires n != 0 && a * n == b * n
    ensures a == b
  {
    assert (a - b) * n == 0;
  }

  /** `static_cast<int32_t>` of a `long`: keep the low 32 bits, two's complement. */
  function Wrap32(x: int): (r: int)
    ensures -0x8000_0000 <= r < 0x8000_0000
    ensures (r - x) % 0x1_0000_0000 == 0
    ensures -0x8000_0000 <= x < 0x8000_0000 ==> r == x
  {
    var m := x % 0x1_0000_0000;
    if m < 0x8000_0000 then m else m - 0x1_0000_0000
  }
}

=== FILE: io_detail.dfy ===
/** The helpers of `src/dim/io_detail.hpp`: printing a unit as text such as
    "m_s^-1", the separator test, and the base system's unit parsing. A C
    string is modelled as the characters before its NUL; a buffer of `cap`
    characters as the number of positions a writer may use. */
module IoDetail {
  import opened Int8
  import opened Options
  import opened Units
  import D = DynamicQuantities
  import Q = Quantities
  import Scalars

  /** `kMaxSymbol`: the size of every symbol buffer. */
  const MaxSymbol: nat := 32

  predicate NoNul(s: seq<char>) { forall k :: 0 <= k < |s| ==> s[k] != '\0' }

  function Min(a: int, b: int): int { if a < b then a else b }

  /** The first n characters of s, or all of s when it is shorter. */
  function Truncate(s: seq<char>, n: nat): (r: seq<char>)
    ensures |r| == Min(|s|, n) && r == s[..|r|]
  {
    if |s| <= n then s else s[..n]
  }

  // ---------------------------------------------------------------------
  // Decimal text of an exponent

  function DigitChar(d: nat): (c: char)
    requires d < 10
    ensures '0' <= c <= '9'
  {
    ('0' as int + d) as char
  }

  predicate AllDigits(s: seq<char>) { forall k :: 0 <= k < |s| ==> '0' <= s[k] <= '9' }

  /** The decimal digits of n, most significant first, without leading zeros. */
  function NatDigits(n: nat): (s: seq<char>)
    ensures 1 <= |s| && AllDigits(s)
    ensures |s| > 1 ==> s[0] != '0'
    decreases n
  {
    if n < 10 then [DigitChar(n)] else NatDigits(n / 10) + [DigitChar(n % 10)]
  }

  /** The number a string of decimal digits denotes. */
  function DecimalValue(s: seq<char>): nat
    requires AllDigits(s)
    decreases |s|
  {
    if |s| == 0 then 0
    else DecimalValue(s[..|s| - 1]) * 10 + (s[|s| - 1] as int - '0' as int)
  }

  lemma {:induction false} NatDigitsRoundTrip(n: nat)
    ensures DecimalValue(NatDigits(n)) == n
    decreases n
  {
    if n >= 10 {
      NatDigitsRoundTrip(n / 10);
      var s := NatDigits(n);
      assert s[..|s| - 1] == NatDigits(n / 10);
    }
  }

  /** `print_int8`: an optional minus sign, then the decimal digits. Its body
      is not part of this model; it is specified by its doc comment and by the
      "^-1", "^-2", "^5" texts that `print_unit` is expected to produce. */
  function Int8ToString(n: i8): (s: seq<char>)
    ensures 1 <= |s| <= 4
    ensures s[0] == '-' <==> n < 0
  {
    var digits := NatDigits(if n < 0 then -(n as int) else n);
    NatDigitsAtMost(if n < 0 then -(n as int) else n);
    if n < 0 then "-" + digits else digits
  }

  lemma NatDigitsAtMost(n: nat)
    requires n <= 128
    ensures |NatDigits(n)| <= 3
  {
    if n >= 10 {
      assert n / 10 < 13;
      assert NatDigits(n / 10) == NatDigits(n / 10);
      if n / 10 >= 10 {
        assert n / 100 < 2;
      }
    }
  }

  /** Reading back the text of an exponent gives the exponent. */
  lemma Int8ToStringRoundTrip(n: i8)
    ensures var s := Int8ToString(n);
      n < 0 ==> AllDigits(s[1..]) && -(DecimalValue(s[1..]) as int) == n
    ensures var s := Int8ToString(n);
      n >= 0 ==> AllDigits(s) && DecimalValue(s) == n
  {
    if n < 0 {
      NatDigitsRoundTrip(-(n as int));
      assert Int8ToString(n)[1..] == NatDigits(-(n as int));
    } else {
      NatDigitsRoundTrip(n);
    }
  }

  // ---------------------------------------------------------------------
  // print_exponentiated_symbol, print_dimension, print_unit

  /** The text `print_exponentiated_symbol` writes, before any truncation: an
      underscore when `spaceit` is set, the symbol, and `^n` unless the
      exponent is 1. A zero exponent writes nothing. */
  function ExponentiatedSymbol(exponent: i8, symbol: seq<char>, spaceit: bool): (t: seq<char>)
    ensures exponent == 0 ==> t == []
    ensures exponent != 0 && spaceit ==> |t| > 0 && t[0] == '_'
    ensures exponent == 1 ==> t == (if spaceit then "_" else "") + symbol
    ensures exponent != 0 && exponent != 1 ==>
              var k := |symbol| + (if spaceit then 1 else 0); |t| > k && t[k] == '^'
  {
    if exponent == 0 then []
    else
      (if spaceit then "_" else "") + symbol
      + (if exponent == 1 then "" else "^" + Int8ToString(exponent))
  }

  /** The print order: angle, mass, length, temperature, amount, current,
      luminosity, time. */
  const PrintOrder: seq<Dim> := [Angle, Mass, Length, Temperature, Amount, Current, Luminosity, Time]

  /** The full text for the dimensions in `order`, with no buffer limit:
      every non-zero exponent as an exponentiated symbol, joined by `_`. */
  function Render(u: DynUnit, symbolFor: Dim -> seq<char>, order: seq<Dim>, spaceit: bool): seq<char>
    decreases |order|
  {
    if |order| == 0 then []
    else
      var e := GetByte(u, order[0]);
      if e == 0 then Render(u, symbolFor, order[1..], spaceit)
      else ExponentiatedSymbol(e, symbolFor(order[0]), spaceit) + Render(u, symbolFor, order[1..], true)
  }

  /** The `print_dimension` calls in sequence, each writing at most the room
      left before `end`; the result is everything written. */
  function PrintDimensions(u: DynUnit, symbolFor: Dim -> seq<char>, order: seq<Dim>, room: nat, spaceit: bool): (w: seq<char>)
    ensures |w| <= room
    decreases |order|
  {
    if |order| == 0 then []
    else
      var e := GetByte(u, order[0]);
      if e == 0 then PrintDimensions(u, symbolFor, order[1..], room, spaceit)
      else
        var piece := Truncate(ExponentiatedSymbol(e, symbolFor(order[0]), spaceit), room);
        piece + PrintDimensions(u, symbolFor, order[1..], room - |piece|, true)
  }

  /** Writing piece by piece into a bounded buffer writes exactly the first
      `room` characters of the unbounded text. */
  lemma {:induction false} PrintDimensionsTruncates(u: DynUnit, symbolFor: Dim -> seq<char>, order: seq<Dim>, room: nat, spaceit: bool)
    ensures PrintDimensions(u, symbolFor, order, room, spaceit) == Truncate(Render(u, symbolFor, order, spaceit), room)
    decreases |order|
  {
    if |order| > 0 {
      var e := GetByte(u, order[0]);
      if e == 0 {
        PrintDimensionsTruncates(u, symbolFor, order[1..], room, spaceit);
      } else {
        var piece := Truncate(ExponentiatedSymbol(e, symbolFor(order[0]), spaceit), room);
        PrintDimensionsTruncates(u, symbolFor, order[1..], room - |piece|, true);
        PrintDimensionsStep(u, symbolFor, order, room, spaceit);
      }
    }
  }

  lemma PrintDimensionsStep(u: DynUnit, symbolFor: Dim -> seq<char>, order: seq<Dim>, room: nat, spaceit: bool)
    requires |order| > 0 && GetByte(u, order[0]) != 0
    requires var piece := Truncate(ExponentiatedSymbol(GetByte(u, order[0]), symbolFor(order[0]), spaceit), room);
      PrintDimensions(u, symbolFor, order[1..], room - |piece|, true) ==
      Truncate(Render(u, symbolFor, order[1..], true), room - |piece|)
    ensures PrintDimensions(u, symbolFor, order, room, spaceit) == Truncate(Render(u, symbolFor, order, spaceit), room)
  {
    TruncateConcat(ExponentiatedSymbol(GetByte(u, order[0]), symbolFor(order[0]), spaceit), Render(u, symbolFor, order[1..], true), room);
  }

  /** Cutting a concatenation cuts the first part, then the second to the
      room that is left. */
  lemma TruncateConcat(p: seq<char>, rest: seq<char>, room: nat)
    ensures Truncate(p + rest, room) == Truncate(p, room) + Truncate(rest, room - |Truncate(p, room)|)
  {
    if |p| <= room {
      assert (p + rest)[..|p|] == p;
      if |p + rest| > room {
        assert (p + rest)[..room] == p + rest[..room - |p|];
      }
    } else {
      assert Truncate(rest, 0) == [];
      assert (p + rest)[..room] == p[..room];
    }
  }

  /** The text and end position `print_unit` leaves: `text` is the C string in
      the buffer, `end` the offset it returns. */
  datatype Printed = Printed(text: seq<char>, end: nat)

  /** The NUL placement shared by both branches: at `out` when it is inside
      the buffer, else in the last cell. */
  function Terminate(written: seq<char>, cap: nat): (p: Printed)
    requires cap >= 1
    ensures |p.text| < cap && p.end == |written|
  {
    if |written| < cap then Printed(written, |written|) else Printed(written[..cap - 1], |written|)
  }

  /** `print_unit` as written: a special symbol is copied with no check
      against `end`. */
  function PrintUnitAsWritten(cap: nat, special: Option<seq<char>>, u: DynUnit, symbolFor: Dim -> seq<char>): (p: Printed)
    requires cap >= 1
    ensures special.Some? && |special.value| > 0 ==> p.end == |special.value|
    ensures |p.text| < cap
  {
    if special.Some? && |special.value| > 0 then Terminate(special.value, cap)
    else Terminate(PrintDimensions(u, symbolFor, PrintOrder, cap, false), cap)
  }

  /** `print_unit` with the special-symbol copy bounded by `end`, as the
      dimension branch is. The C string left in the buffer is the special
      symbol, or else the rendering in print order, cut to fit with its NUL. */
  function PrintUnit(cap: nat, special: Option<seq<char>>, u: DynUnit, symbolFor: Dim -> seq<char>): (p: Printed)
    requires cap >= 1
    ensures p.end <= cap && |p.text| < cap
    ensures special.Some? && |special.value| > 0 ==> p.text == Truncate(special.value, cap - 1)
    ensures !(special.Some? && |special.value| > 0) ==>
              p.text == Truncate(Render(u, symbolFor, PrintOrder, false), cap - 1)
  {
    if special.Some? && |special.value| > 0 then
      Terminate(Truncate(special.value, cap), cap)
    else
      PrintDimensionsTruncates(u, symbolFor, PrintOrder, cap, false);
      Terminate(PrintDimensions(u, symbolFor, PrintOrder, cap, false), cap)
  }

  /** The bounded and unbounded special-symbol copies leave the same text; the
      unbounded one writes past the end of the buffer whenever the symbol is
      longer than the buffer. */
  lemma PrintUnitOverrun(cap: nat, special: seq<char>, u: DynUnit, symbolFor: Dim -> seq<char>)
    requires cap >= 1 && |special| > 0
    ensures PrintUnitAsWritten(cap, Some(special), u, symbolFor).text == PrintUnit(cap, Some(special), u, symbolFor).text
    ensures PrintUnitAsWritten(cap, Some(special), u, symbolFor).end > cap <==> |special| > cap
  {
  }

  /** A six-character special symbol in a four-character buffer: the
      unbounded copy writes two characters past the end. */
  lemma PrintUnitOverrunExample(u: DynUnit, symbolFor: Dim -> seq<char>)
    ensures PrintUnitAsWritten(4, Some("abcdef"), u, symbolFor).end == 6
    ensures PrintUnit(4, Some("abcdef"), u, symbolFor).end == 4
  {
  }

  /** Only non-zero exponents appear, in print order. */
  lemma RenderDimensionless(symbolFor: Dim -> seq<char>, order: seq<Dim>, spaceit: bool)
    ensures Render(Dimensionless, symbolFor, order, spaceit) == []
    decreases |order|
  {
    DimensionlessExponents(Dimensionless);
    if |order| > 0 {
      RenderDimensionless(symbolFor, order[1..], spaceit);
    }
  }

  /** The SI symbols, by dimension index. */
  function SiSymbol(d: Dim): seq<char>
  {
    ["m", "s", "kg", "rad", "K", "mol", "A", "cd"][d]
  }

  lemma SmallExponentTexts()
    ensures Int8ToString(-1) == "-1" && Int8ToString(-2) == "-2" && Int8ToString(-3) == "-3"
    ensures Int8ToString(5) == "5"
  {
    assert NatDigits(1) == "1" && NatDigits(2) == "2" && NatDigits(3) == "3";
    assert NatDigits(5) == "5";
  }

  /** The print order from temperature on: only time can be non-zero here. */
  lemma RenderTimeTail(u: DynUnit, spaceit: bool)
    requires GetByte(u, Temperature) == 0 && GetByte(u, Amount) == 0
    requires GetByte(u, Current) == 0 && GetByte(u, Luminosity) == 0
    ensures Render(u, SiSymbol, PrintOrder[3..], spaceit) == ExponentiatedSymbol(GetByte(u, Time), "s", spaceit)
  {
    var t := ExponentiatedSymbol(GetByte(u, Time), "s", spaceit);
    assert PrintOrder[7..][1..] == [] && PrintOrder[7..][0] == Time;
    assert t + [] == t;
    assert Render(u, SiSymbol, PrintOrder[7..], spaceit) == t;
    assert PrintOrder[6..][1..] == PrintOrder[7..] && PrintOrder[6..][0] == Luminosity;
    assert Render(u, SiSymbol, PrintOrder[6..], spaceit) == t;
    assert PrintOrder[5..][1..] == PrintOrder[6..] && PrintOrder[5..][0] == Current;
    assert Render(u, SiSymbol, PrintOrder[5..], spaceit) == t;
    assert PrintOrder[4..][1..] == PrintOrder[5..] && PrintOrder[4..][0] == Amount;
    assert Render(u, SiSymbol, PrintOrder[4..], spaceit) == t;
    assert PrintOrder[3..][1..] == PrintOrder[4..] && PrintOrder[3..][0] == Temperature;
  }

  lemma ExponentTexts()
    ensures ExponentiatedSymbol(-1, "s", true) == "_s^-1"
    ensures ExponentiatedSymbol(-2, "s", true) == "_s^-2"
    ensures ExponentiatedSymbol(-3, "rad", false) == "rad^-3"
    ensures ExponentiatedSymbol(5, "m", false) == "m^5"
  {
    SmallExponentTexts();
  }

  lemma SpeedText(u: DynUnit)
    requires GetByte(u, Angle) == 0 && GetByte(u, Mass) == 0 && GetByte(u, Length) == 1 && GetByte(u, Time) == -1
    requires GetByte(u, Temperature) == 0 && GetByte(u, Amount) == 0
    requires GetByte(u, Current) == 0 && GetByte(u, Luminosity) == 0
    ensures Render(u, SiSymbol, PrintOrder, false) == "m_s^-1"
  {
    ExponentTexts();
    RenderTimeTail(u, true);
    assert PrintOrder[2..][1..] == PrintOrder[3..];
    assert Render(u, SiSymbol, PrintOrder[2..], false) == "m" + "_s^-1";
    assert PrintOrder[1..][1..] == PrintOrder[2..];
  }

  /** Speed, metre per second, prints as "m_s^-1". */
  lemma SiSpeedRendering()
    ensures Render(Make([1, -1, 0, 0, 0, 0, 0, 0]), SiSymbol, PrintOrder, false) == "m_s^-1"
  {
    SpeedText(Make([1, -1, 0, 0, 0, 0, 0, 0]));
  }

  lemma AngularText(u: DynUnit)
    requires GetByte(u, Angle) == -3 && GetByte(u, Mass) == 0 && GetByte(u, Length) == 1 && GetByte(u, Time) == -2
    requires GetByte(u, Temperature) == 0 && GetByte(u, Amount) == 0
    requires GetByte(u, Current) == 0 && GetByte(u, Luminosity) == 0
    ensures Render(u, SiSymbol, PrintOrder, false) == "rad^-3_m_s^-2"
  {
    ExponentTexts();
    RenderTimeTail(u, true);
    assert PrintOrder[2..][1..] == PrintOrder[3..];
    assert Render(u, SiSymbol, PrintOrder[2..], true) == "_m" + "_s^-2";
    assert PrintOrder[1..][1..] == PrintOrder[2..];
    assert Render(u, SiSymbol, PrintOrder[1..], true) == "_m_s^-2";
  }

  /** metre / second^2 / radian^3 prints as "rad^-3_m_s^-2". */
  lemma SiAngularRendering()
    ensures Render(Make([1, -2, 0, -3, 0, 0, 0, 0]), SiSymbol, PrintOrder, false) == "rad^-3_m_s^-2"
  {
    AngularText(Make([1, -2, 0, -3, 0, 0, 0, 0]));
  }

  lemma PowerText(u: DynUnit)
    requires GetByte(u, Angle) == 0 && GetByte(u, Mass) == 0 && GetByte(u, Length) == 5 && GetByte(u, Time) == 0
    requires GetByte(u, Temperature) == 0 && GetByte(u, Amount) == 0
    requires GetByte(u, Current) == 0 && GetByte(u, Luminosity) == 0
    ensures Render(u, SiSymbol, PrintOrder, false) == "m^5"
  {
    ExponentTexts();
    RenderTimeTail(u, true);
    assert PrintOrder[2..][1..] == PrintOrder[3..];
    assert Render(u, SiSymbol, PrintOrder[2..], false) == "m^5" + [];
    assert PrintOrder[1..][1..] == PrintOrder[2..];
  }

  /** metre^5 prints as "m^5". */
  lemma SiPowerRendering()
    ensures Render(Make([5, 0, 0, 0, 0, 0, 0, 0]), SiSymbol, PrintOrder, false) == "m^5"
  {
    PowerText(Make([5, 0, 0, 0, 0, 0, 0, 0]));
  }

  // ---------------------------------------------------------------------
  // Separators and the base unit parser

  /** `isseparator`: the characters that may sit between a number and its
      unit symbol. The code lists '.', '_', '*' and ' '; the doc comment
      omits '.'. */
  predicate IsSeparator(c: char) { c == '.' || c == '_' || c == '*' || c == ' ' }

  /** `parse_standard_rep` of the base system: every symbol fails. */
  function ParseStandardRep(symbol: seq<char>): (q: D.DynQuantity)
    ensures D.IsBad(q) && D.IsDimensionless(q)
  {
    D.Bad
  }

  /** `parse_unit_dynamic<U>`: the parsed scale, and whether the parsed unit
      is U's index. `parse` is the system's `parse_standard_rep`. */
  function ParseUnitDynamic(u: Q.StaticUnit, symbol: seq<char>, parse: seq<char> -> D.DynQuantity): (r: (bool, Scalars.Scalar))
    ensures r.1 == parse(symbol).value
    ensures r.0 <==> parse(symbol).unit == Q.Index(u)
  {
    var dim := parse(symbol);
    (dim.unit == Q.Index(u), dim.value)
  }

  /** With the base system's parser, which reports the dimensionless bad
      quantity, `parse_unit_dynamic` succeeds for every dimensionless U,
      whatever the text, and fails for every other U. */
  lemma BaseParseUnitDynamic(u: Q.StaticUnit, symbol: seq<char>)
    ensures ParseUnitDynamic(u, symbol, ParseStandardRep).0 <==> u.exps == Q.ZeroExps
    ensures Scalars.IsNaN(ParseUnitDynamic(u, symbol, ParseStandardRep).1)
  {
    IndexDimensionless(u);
  }

  lemma IndexDimensionless(u: Q.StaticUnit)
    ensures Q.Index(u) == Dimensionless <==> u.exps == Q.ZeroExps
  {
    var d := Q.Index(u);
    DimensionlessExponents(d);
    MakeExponents(d, u.exps);
    MakeExponents(Dimensionless, u.exps);
  }
}

=== FILE: options.dfy ===
/** An optional value, used wherever the library answers "not found" or
    "rejected" with a null result or a `false` status. */
module Options {

  datatype Option<T> = None | Some(value: T)
}

=== FILE: powers.dfy ===
/** Exact powers of ten, the factors of the SI prefixes. */
module Powers {
  /** 10 to the power n, for n >= 0. */
  function Pow10(n: nat): (r: real)
    ensures r >= 1.0
  {
    if n == 0 then 1.0 else 10.0 * Pow10(n - 1)
  }

  /** 10 to the power n, exactly. */
  function TenTo(n: int): (r: real)
    ensures r > 0.0
  {
    if n >= 0 then Pow10(n) else 1.0 / Pow10(-n)
  }

  /** Each power of ten is ten times the one below. */
  lemma TenToStep(n: int)
    ensures TenTo(n) == 10.0 * TenTo(n - 1)
  {
    if n < 0 {
      var p := Pow10(-n);
      assert Pow10(-n + 1) == 10.0 * p;
      DivideTen(p);
    }
  }

  lemma DivideTen(p: real)
    requires p > 0.0
    ensures 10.0 * (1.0 / (10.0 * p)) == 1.0 / p
  {
  }

  /** Powers of ten multiply by adding exponents. */
  lemma TenToAdd(m: int, n: int)
    ensures TenTo(m) * TenTo(n) == TenTo(m + n)
  {
    if n >= 0 {
      TenToAddUp(m, n);
    } else {
      TenToAddDown(m, n);
    }
  }

  lemma {:induction false} TenToAddUp(m: int, n: nat)
    ensures TenTo(m) * TenTo(n) == TenTo(m + n)
  {
    if n > 0 {
      var k := n - 1;
      TenToAddUp(m, k);
      StepUp(m, n, k);
    } else {
      AddZero(m, n);
    }
  }

  lemma AddZero(m: int, n: int)
    requires n == 0
    ensures TenTo(m) * TenTo(n) == TenTo(m + n)
  {
  }

  lemma StepUp(m: int, n: int, k: int)
    requires k == n - 1 && TenTo(m) * TenTo(k) == TenTo(m + k)
    ensures TenTo(m) * TenTo(n) == TenTo(m + n)
  {
    TenToStep(n);
    TenToStep(m + n);
    ScaleByTen(TenTo(m), TenTo(k), TenTo(m + k), TenTo(n), TenTo(m + n));
  }

  /** If x * y == z, multiplying y and z by ten keeps the product. */
  lemma ScaleByTen(x: real, y: real, z: real, y10: real, z10: real)
    requires x * y == z && y10 == 10.0 * y && z10 == 10.0 * z
    ensures x * y10 == z10
  {
  }

  lemma {:induction false} TenToAddDown(m: int, n: int)
    requires n <= 0
    ensures TenTo(m) * TenTo(n) == TenTo(m + n)
    decreases -n
  {
    if n < 0 {
      var k := n + 1;
      TenToAddDown(m, k);
      StepDown(m, n, k);
    } else {
      AddZero(m, n);
    }
  }

  lemma StepDown(m: int, n: int, k: int)
    requires k == n + 1 && TenTo(m) * TenTo(k) == TenTo(m + k)
    ensures TenTo(m) * TenTo(n) == TenTo(m + n)
  {
    TenToStep(k);
    TenToStep(m + k);
    DivideByTen(TenTo(m), TenTo(n), TenTo(m + n), TenTo(k), TenTo(m + k));
  }

  /** If x * y10 == z10, dividing y10 and z10 by ten keeps the product. */
  lemma DivideByTen(x: real, y: real, z: real, y10: real, z10: real)
    requires x * y10 == z10 && y10 == 10.0 * y && z10 == 10.0 * z
    ensures x * y == z
  {
  }
}

=== FILE: quantity.dfy ===
/** The compile-time layer of src/dim/quantity.hpp and src/dim/unit.hpp:
    `dim::unit<...>` template units, `quantity<Unit, Scalar>` and their
    operators. A template instantiation that would not compile (a failed
    `static_assert`, an exponent that does not fit the `int8_t` template
    parameter, a division by zero in a constant expression) is a
    precondition here: callers can only build what the compiler accepts. */
module Quantities {
  import opened Int8
  import opened Scalars
  import Units

  /** A template unit: eight exponents plus the `System` tag, which only
      matters through equality. */
  datatype StaticUnit = StaticUnit(exps: Units.Exps, system: nat)

  /** `quantity<Unit, Scalar>`. */
  datatype Quantity = Quantity(unit: StaticUnit, value: Scalar)

  // ---------------------------------------------------------------------
  // Exponent arithmetic on template arguments

  /** Every entry fits an `int8_t` template parameter. */
  predicate Fits(s: seq<int>)
  {
    forall i :: 0 <= i < |s| ==> -128 <= s[i] < 128
  }

  function ToExps(s: seq<int>): (e: Units.Exps)
    requires |s| == 8 && Fits(s)
    ensures forall i :: 0 <= i < 8 ==> e[i] == s[i]
  {
    seq(8, i requires 0 <= i < 8 => s[i] as i8)
  }

  function SumExps(a: Units.Exps, b: Units.Exps): (s: seq<int>)
    ensures |s| == 8 && forall i :: 0 <= i < 8 ==> s[i] == a[i] as int + b[i] as int
  {
    seq(8, i requires 0 <= i < 8 => a[i] as int + b[i] as int)
  }

  function DiffExps(a: Units.Exps, b: Units.Exps): (s: seq<int>)
    ensures |s| == 8 && forall i :: 0 <= i < 8 ==> s[i] == a[i] as int - b[i] as int
  {
    seq(8, i requires 0 <= i < 8 => a[i] as int - b[i] as int)
  }

  function ScaleExps(a: Units.Exps, p: int): (s: seq<int>)
    ensures |s| == 8 && forall i :: 0 <= i < 8 ==> s[i] == a[i] * p
  {
    seq(8, i requires 0 <= i < 8 => a[i] * p)
  }

  function RootExps(a: Units.Exps, r: int): (s: seq<int>)
    requires r != 0
    ensures |s| == 8 && forall i :: 0 <= i < 8 ==> s[i] == TruncDiv(a[i], r)
  {
    seq(8, i requires 0 <= i < 8 => TruncDiv(a[i], r))
  }

  /** `index<U>()`: the run-time unit of a template unit. The system tag is
      not part of the code. */
  function Index(u: StaticUnit): (d: Units.DynUnit)
    ensures Units.Exponents(d) == u.exps
  {
    var d := Units.Make(u.exps);
    Units.MakeExponents(d, u.exps);
    d
  }

  lemma IndexInjective(a: StaticUnit, b: StaticUnit)
    ensures Index(a) == Index(b) <==> a.exps == b.exps
  {
  }

  /** `unit_multiply_t<U1, U2>`: exponent sums, in U1's system. */
  function UnitMultiply(u1: StaticUnit, u2: StaticUnit): (r: StaticUnit)
    requires Fits(SumExps(u1.exps, u2.exps))
    ensures r.system == u1.system
    ensures Index(r) == Units.Multiply(Index(u1), Index(u2))
  {
    var r := StaticUnit(ToExps(SumExps(u1.exps, u2.exps)), u1.system);
    Units.Extensionality(Index(r), Units.Multiply(Index(u1), Index(u2)));
    r
  }

  /** `unit_divide_t<U1, U2>`: exponent differences, in U1's system. */
  function UnitDivide(u1: StaticUnit, u2: StaticUnit): (r: StaticUnit)
    requires Fits(DiffExps(u1.exps, u2.exps))
    ensures r.system == u1.system
    ensures forall i :: 0 <= i < 8 ==> r.exps[i] as int + u2.exps[i] as int == u1.exps[i]
  {
    StaticUnit(ToExps(DiffExps(u1.exps, u2.exps)), u1.system)
  }

  /** `U::inverse`: every exponent negated (an exponent of -128 would not
      fit the template parameter). */
  function UnitInverse(u: StaticUnit): (r: StaticUnit)
    requires Fits(ScaleExps(u.exps, -1))
    ensures r.system == u.system
    ensures Index(r) == Units.Inverse(Index(u))
  {
    var r := StaticUnit(ToExps(ScaleExps(u.exps, -1)), u.system);
    Units.Extensionality(Index(r), Units.Inverse(Index(u)));
    r
  }

  /** `unit_pow_t<U, P>`: every exponent times P. */
  function UnitPow(u: StaticUnit, p: int): (r: StaticUnit)
    requires Fits(ScaleExps(u.exps, p))
    ensures r.system == u.system
    ensures Index(r) == Units.Pow(Index(u), p)
  {
    var r := StaticUnit(ToExps(ScaleExps(u.exps, p)), u.system);
    Units.Extensionality(Index(r), Units.Pow(Index(u), p));
    r
  }

  /** `unit_root_t<U, R>`: every exponent divided by R with C++'s
      truncating division. */
  function UnitRoot(u: StaticUnit, root: int): (r: StaticUnit)
    requires root != 0 && Fits(RootExps(u.exps, root))
    ensures r.system == u.system
    ensures forall i :: 0 <= i < 8 ==>
              TruncMod(u.exps[i], root) == 0 ==> r.exps[i] * root == u.exps[i]
  {
    var r := StaticUnit(ToExps(RootExps(u.exps, root)), u.system);
    forall i | 0 <= i < 8 && TruncMod(u.exps[i], root) == 0
      ensures r.exps[i] * root == u.exps[i]
    {
      TruncDivExact(u.exps[i], root);
    }
    r
  }

  /** Taking the R-th root of an R-th power gives the unit back. */
  lemma RootOfPow(u: StaticUnit, n: int)
    requires n != 0 && Fits(ScaleExps(u.exps, n))
    ensures Fits(RootExps(UnitPow(u, n).exps, n))
    ensures UnitRoot(UnitPow(u, n), n) == u
  {
    var p := UnitPow(u, n);
    forall i | 0 <= i < 8 ensures TruncDiv(p.exps[i], n) == u.exps[i] {
      TruncDivOfMultiple(u.exps[i], n);
    }
    assert UnitRoot(p, n).exps == u.exps;
  }

  // ---------------------------------------------------------------------
  // Compile-time checks

  /** `DIM_CHECK_DIMENSIONS(U1, U2)`: all eight exponents agree. */
  predicate SameDims(u1: StaticUnit, u2: StaticUnit) { u1.exps == u2.exps }

  /** `DIM_CHECK_SYSTEMS(U1, U2)`. */
  predicate SameSystem(u1: StaticUnit, u2: StaticUnit) { u1.system == u2.system }

  /** Both checks; `Index` cannot tell systems apart, so this is stronger
      than equality of the run-time units. */
  predicate Compatible(u1: StaticUnit, u2: StaticUnit)
  {
    SameDims(u1, u2) && SameSystem(u1, u2)
  }

  lemma CompatibleIsIndexEquality(u1: StaticUnit, u2: StaticUnit)
    ensures Compatible(u1, u2) <==> Index(u1) == Index(u2) && SameSystem(u1, u2)
    ensures Compatible(u1, u2) <==> u1 == u2
  {
    IndexInjective(u1, u2);
  }

  // ---------------------------------------------------------------------
  // Quantities

  const ZeroExps: Units.Exps := [0, 0, 0, 0, 0, 0, 0, 0]

  /** `bad_quantity()`: a quiet NaN in the given unit. */
  function BadQuantity(u: StaticUnit): (q: Quantity)
    ensures IsBad(q) && q.unit == u
  {
    Quantity(u, NaN)
  }

  predicate IsBad(q: Quantity) { IsNaN(q.value) }

  /** `quantity(unit const&)` and `quantity(U2 const&)`: value one; the
      second form requires matching dimensions and systems. */
  function FromUnit(target: StaticUnit, u: StaticUnit): (q: Quantity)
    requires Compatible(target, u)
    ensures q.unit == target && q.value == One
  {
    Quantity(target, One)
  }

  /** `quantity(Q2 const&)`: conversion between quantity types of the same
      dimensions and system keeps the value. */
  function Convert(target: StaticUnit, q: Quantity): (r: Quantity)
    requires Compatible(target, q.unit)
    ensures r == q
  {
    Quantity(target, q.value)
  }

  /** `operator Scalar()`: only a dimensionless quantity converts to a bare
      scalar. */
  function ToScalar(q: Quantity): (s: Scalar)
    requires q.unit.exps == ZeroExps
    ensures Index(q.unit) == Units.Dimensionless
    ensures s == q.value
  {
    Units.DimensionlessExponents(Index(q.unit));
    q.value
  }

  function Negate(q: Quantity): (r: Quantity)
    ensures r.unit == q.unit && r.value == Neg(q.value)
  {
    Quantity(q.unit, Neg(q.value))
  }

  /** `q1 + q2`, and `q1 += q2`, which computes the same value. */
  function Plus(q1: Quantity, q2: Quantity): (r: Quantity)
    requires Compatible(q1.unit, q2.unit)
    ensures r.unit == q1.unit && r.unit == q2.unit
    ensures r.value == Add(q1.value, q2.value)
  {
    Quantity(q1.unit, Add(q1.value, q2.value))
  }

  /** `q1 - q2`, and `q1 -= q2`. */
  function Minus(q1: Quantity, q2: Quantity): (r: Quantity)
    requires Compatible(q1.unit, q2.unit)
    ensures r.unit == q1.unit && r.unit == q2.unit
    ensures r.value == Sub(q1.value, q2.value)
  {
    Quantity(q1.unit, Sub(q1.value, q2.value))
  }

  /** `q += U` / `q -= U` check dimensions and systems; `q + U`, `U + q`,
      `q - U`, `U - q` check dimensions only. All add or subtract one,
      which is the quantity of one unit in q's own unit. */
  function PlusUnit(q: Quantity, u: StaticUnit): (r: Quantity)
    requires SameDims(q.unit, u)
    ensures r.unit == q.unit && r.value == Add(q.value, One)
    ensures r == Plus(q, FromUnit(q.unit, q.unit))
  {
    Quantity(q.unit, Add(q.value, One))
  }

  function MinusUnit(q: Quantity, u: StaticUnit): (r: Quantity)
    requires SameDims(q.unit, u)
    ensures r.unit == q.unit && r.value == Sub(q.value, One)
    ensures r == Minus(q, FromUnit(q.unit, q.unit))
    ensures r == Negate(UnitMinus(u, q))
  {
    Quantity(q.unit, Sub(q.value, One))
  }

  function UnitMinus(u: StaticUnit, q: Quantity): (r: Quantity)
    requires SameDims(q.unit, u)
    ensures r.unit == q.unit && r.value == Sub(One, q.value)
  {
    Quantity(q.unit, Sub(One, q.value))
  }

  /** Subtracting is adding the negation. */
  lemma MinusIsPlusNegated(q1: Quantity, q2: Quantity)
    requires Compatible(q1.unit, q2.unit)
    ensures Minus(q1, q2) == Plus(q1, Negate(q2))
  {
  }

  /** `==` and `<` compare values once dimensions and systems match. */
  predicate Equal(q1: Quantity, q2: Quantity)
    requires Compatible(q1.unit, q2.unit)
  {
    Eq(q1.value, q2.value)
  }

  predicate Less(q1: Quantity, q2: Quantity)
    requires Compatible(q1.unit, q2.unit)
  {
    Lt(q1.value, q2.value)
  }

  /** `!=`, `>`, `<=`, `>=` are defined from `==` and `<`. */
  predicate NotEqual(q1: Quantity, q2: Quantity)
    requires Compatible(q1.unit, q2.unit)
  {
    !Equal(q1, q2)
  }

  predicate Greater(q1: Quantity, q2: Quantity)
    requires Compatible(q1.unit, q2.unit)
  {
    Less(q2, q1)
  }

  predicate LessEq(q1: Quantity, q2: Quantity)
    requires Compatible(q1.unit, q2.unit)
  {
    !Greater(q1, q2)
  }

  predicate GreaterEq(q1: Quantity, q2: Quantity)
    requires Compatible(q1.unit, q2.unit)
  {
    !Less(q1, q2)
  }

  /** With a NaN operand, `==`, `<` and `>` are false, so `!=`, `<=` and
      `>=` are all true; without NaN the comparisons are those of reals. */
  lemma ComparisonsWithNaN(q1: Quantity, q2: Quantity)
    requires Compatible(q1.unit, q2.unit)
    ensures IsBad(q1) || IsBad(q2) ==>
              !Equal(q1, q2) && !Less(q1, q2) && !Greater(q1, q2)
              && NotEqual(q1, q2) && LessEq(q1, q2) && GreaterEq(q1, q2)
    ensures !IsBad(q1) && !IsBad(q2) ==>
              (LessEq(q1, q2) <==> q1.value.r <= q2.value.r)
              && (GreaterEq(q1, q2) <==> q1.value.r >= q2.value.r)
  {
  }

  /** `q1 * q2`: the unit of exponent sums and the product of the values. */
  function Times(q1: Quantity, q2: Quantity): (r: Quantity)
    requires SameSystem(q1.unit, q2.unit)
    requires Fits(SumExps(q1.unit.exps, q2.unit.exps))
    ensures r.unit.system == q1.unit.system
    ensures Index(r.unit) == Units.Multiply(Index(q1.unit), Index(q2.unit))
    ensures r.value == Mul(q1.value, q2.value)
  {
    Quantity(UnitMultiply(q1.unit, q2.unit), Mul(q1.value, q2.value))
  }

  /** `q1 / q2`: the unit of exponent differences and the quotient. */
  function Divide(q1: Quantity, q2: Quantity): (r: Quantity)
    requires SameSystem(q1.unit, q2.unit)
    requires Fits(DiffExps(q1.unit.exps, q2.unit.exps))
    ensures r.unit.system == q1.unit.system
    ensures forall i :: 0 <= i < 8 ==> r.unit.exps[i] as int + q2.unit.exps[i] as int == q1.unit.exps[i]
    ensures r.value == Div(q1.value, q2.value)
  {
    Quantity(UnitDivide(q1.unit, q2.unit), Div(q1.value, q2.value))
  }

  /** Dividing a product by one factor restores the other factor exactly
      (for a non-zero divisor). */
  lemma TimesDivide(q1: Quantity, q2: Quantity)
    requires SameSystem(q1.unit, q2.unit)
    requires Fits(SumExps(q1.unit.exps, q2.unit.exps))
    requires q2.value.Num? && q2.value.r != 0.0
    ensures Fits(DiffExps(Times(q1, q2).unit.exps, q2.unit.exps))
    ensures Divide(Times(q1, q2), q2) == q1
  {
    var p := Times(q1, q2);
    assert forall i :: 0 <= i < 8 ==> p.unit.exps[i] == q1.unit.exps[i] + q2.unit.exps[i];
    MulDiv(q1.value, q2.value);
    assert Divide(p, q2).unit.exps == q1.unit.exps;
  }

  /** `q1 * q2` with q2 of the inverse unit, and `q1 / q2` with equal units,
      yield a bare scalar. */
  function TimesInverse(q1: Quantity, q2: Quantity): (s: Scalar)
    requires Fits(ScaleExps(q1.unit.exps, -1)) && q2.unit == UnitInverse(q1.unit)
    ensures Units.Multiply(Index(q1.unit), Index(q2.unit)) == Units.Dimensionless
    ensures s == Mul(q1.value, q2.value)
  {
    Units.MultiplyInverse(Index(q1.unit));
    Mul(q1.value, q2.value)
  }

  function Ratio(q1: Quantity, q2: Quantity): (s: Scalar)
    requires q1.unit == q2.unit
    ensures q2.value.Num? && q2.value.r != 0.0 ==> Mul(s, q2.value) == q1.value
  {
    Div(q1.value, q2.value)
  }

  /** Quantity-scalar operators keep the unit; `s / q` has the inverse unit. */
  function TimesScalar(q: Quantity, s: Scalar): (r: Quantity)
    ensures r.unit == q.unit && r.value == Mul(q.value, s)
  {
    Quantity(q.unit, Mul(q.value, s))
  }

  function DivScalar(q: Quantity, s: Scalar): (r: Quantity)
    ensures r.unit == q.unit && r.value == Div(q.value, s)
  {
    Quantity(q.unit, Div(q.value, s))
  }

  function ScalarDiv(s: Scalar, q: Quantity): (r: Quantity)
    requires Fits(ScaleExps(q.unit.exps, -1))
    ensures r.unit.system == q.unit.system
    ensures Index(r.unit) == Units.Inverse(Index(q.unit))
    ensures r.value == Div(s, q.value)
  {
    Quantity(UnitInverse(q.unit), Div(s, q.value))
  }

  /** `q * U` and `U * q` keep the value in the product unit; `q / U` keeps
      it in the quotient unit. */
  function TimesUnit(q: Quantity, u: StaticUnit): (r: Quantity)
    requires SameSystem(q.unit, u) && Fits(SumExps(q.unit.exps, u.exps))
    ensures r.unit.system == q.unit.system
    ensures Index(r.unit) == Units.Multiply(Index(q.unit), Index(u))
    ensures r.value == q.value
  {
    Quantity(UnitMultiply(q.unit, u), q.value)
  }

  function DivUnit(q: Quantity, u: StaticUnit): (r: Quantity)
    requires SameSystem(q.unit, u) && Fits(DiffExps(q.unit.exps, u.exps))
    ensures r.unit.system == q.unit.system
    ensures forall i :: 0 <= i < 8 ==> r.unit.exps[i] as int + u.exps[i] as int == q.unit.exps[i]
    ensures r.value == q.value
  {
    Quantity(UnitDivide(q.unit, u), q.value)
  }

  /** `U / q` as written: the unit is `unit_divide_t<U, unit>` but the value
      is q's own value, not its reciprocal. */
  function UnitDivAsWritten(u: StaticUnit, q: Quantity): (r: Quantity)
    requires SameSystem(q.unit, u) && Fits(DiffExps(u.exps, q.unit.exps))
    ensures r.unit == UnitDivide(u, q.unit)
    ensures r.value == q.value
  {
    Quantity(UnitDivide(u, q.unit), q.value)
  }

  /** `U / q` as intended: the unit quantity of U divided by q. */
  function UnitDiv(u: StaticUnit, q: Quantity): (r: Quantity)
    requires SameSystem(q.unit, u) && Fits(DiffExps(u.exps, q.unit.exps))
    ensures r == Divide(Quantity(u, One), q)
  {
    Quantity(UnitDivide(u, q.unit), Div(One, q.value))
  }

  /** One metre divided by two metres is one half, but the source yields 2. */
  lemma UnitDivCounterexample()
    ensures var m := StaticUnit([1, 0, 0, 0, 0, 0, 0, 0], 0);
            var q := Quantity(m, Num(2.0));
            UnitDivAsWritten(m, q).value == Num(2.0)
            && UnitDiv(m, q).value == Num(0.5)
  {
  }

  /** `q / unit`: dividing by its own unit leaves a dimensionless
      quantity, whose bare scalar times the unit is q again. */
  function DivOwnUnit(q: Quantity, u: StaticUnit): (s: Scalar)
    requires u == q.unit
    ensures DivUnit(q, u).unit.exps == ZeroExps
    ensures s == ToScalar(DivUnit(q, u))
    ensures ScalarTimesUnit(s, u) == q
  {
    q.value
  }

  /** `q * unit::inverse`: multiplying by the inverse unit leaves the same
      dimensionless scalar, the product with one of the inverse unit. */
  function TimesInverseUnit(q: Quantity, v: StaticUnit): (s: Scalar)
    requires Fits(ScaleExps(q.unit.exps, -1)) && v == UnitInverse(q.unit)
    ensures TimesUnit(q, v).unit.exps == ZeroExps
    ensures s == ToScalar(TimesUnit(q, v))
    ensures s == TimesInverse(q, ScalarTimesUnit(One, v))
    ensures ScalarTimesUnit(s, q.unit) == q
  {
    q.value
  }

  /** Scalar-on-unit operators: `s * U` and `U * s` are value s in unit U,
      `s / U` is value s in U's inverse, and `U / s` is value 1/s in U. */
  function ScalarTimesUnit(s: Scalar, u: StaticUnit): (q: Quantity)
    ensures q.unit == u && q.value == s
  {
    Quantity(u, s)
  }

  function ScalarDivUnit(s: Scalar, u: StaticUnit): (q: Quantity)
    requires Fits(ScaleExps(u.exps, -1))
    ensures q.unit.system == u.system
    ensures Index(q.unit) == Units.Inverse(Index(u)) && q.value == s
  {
    Quantity(UnitInverse(u), s)
  }

  function UnitDivScalar(u: StaticUnit, s: Scalar): (q: Quantity)
    ensures q.unit == u
    ensures s.Num? && s.r != 0.0 ==> Mul(q.value, s) == One
  {
    ScalarTimesUnit(Div(One, s), u)
  }

  /** `abs(q)`: same unit, non-negative value. */
  function AbsQ(q: Quantity): (r: Quantity)
    ensures r.unit == q.unit
    ensures IsBad(r) <==> IsBad(q)
    ensures !IsBad(r) ==> r.value.r >= 0.0 && (r.value == q.value || r.value == Neg(q.value))
  {
    Quantity(q.unit, AbsValue(q.value))
  }

  // ---------------------------------------------------------------------
  // Powers and roots. The numeric part is `std::pow`/`std::sqrt`, given here
  // as a parameter `pw(x, y)` standing for `std::pow(x, y)`.

  /** `static_assert(d % Root == 0)` for all eight exponents. */
  predicate RootGuard(u: StaticUnit, root: int)
    requires root != 0
  {
    forall i :: 0 <= i < 8 ==> TruncMod(u.exps[i], root) == 0
  }

  /** `root<R>(q)`: each exponent is divided by R, which must divide it. */
  function Root(q: Quantity, root: int, pw: (Scalar, real) -> Scalar): (r: Quantity)
    requires root != 0 && RootGuard(q.unit, root) && Fits(RootExps(q.unit.exps, root))
    ensures r.unit.system == q.unit.system
    ensures forall i :: 0 <= i < 8 ==> r.unit.exps[i] * root == q.unit.exps[i]
    ensures r.value == pw(q.value, 1.0 / (root as real))
  {
    Quantity(UnitRoot(q.unit, root), pw(q.value, 1.0 / (root as real)))
  }

  /** `sqrt(q)`: `root<2>` with `std::sqrt` as the value. */
  function Sqrt(q: Quantity, sqrt: Scalar -> Scalar): (r: Quantity)
    requires RootGuard(q.unit, 2)
    ensures Fits(RootExps(q.unit.exps, 2))
    ensures r.unit.system == q.unit.system
    ensures forall i :: 0 <= i < 8 ==> r.unit.exps[i] as int * 2 == q.unit.exps[i]
    ensures r.value == sqrt(q.value)
  {
    Quantity(UnitRoot(q.unit, 2), sqrt(q.value))
  }

  /** `pow<E>(q)`. */
  function PowQ(q: Quantity, e: int, pw: (Scalar, real) -> Scalar): (r: Quantity)
    requires Fits(ScaleExps(q.unit.exps, e))
    ensures r.unit.system == q.unit.system
    ensures Index(r.unit) == Units.Pow(Index(q.unit), e)
    ensures r.value == pw(q.value, e as real)
  {
    Quantity(UnitPow(q.unit, e), pw(q.value, e as real))
  }

  /** The guard of `ratpow<N, D>`: `d * N % D == 0` for every exponent. */
  predicate RatPowGuard(u: StaticUnit, num: int, den: int)
    requires den != 0
  {
    forall i :: 0 <= i < 8 ==> TruncMod(u.exps[i] * num, den) == 0
  }

  /** The exponents `ratpow<N, D>` computes: `unit_pow_t<unit_root_t<U, D>, N>`,
      i.e. `(d / D) * N`. */
  function RatPowExpsAsWritten(u: StaticUnit, num: int, den: int): (s: seq<int>)
    requires den != 0
    ensures |s| == 8
  {
    seq(8, i requires 0 <= i < 8 => TruncDiv(u.exps[i], den) * num)
  }

  /** `ratpow<N, D>(q)` as written: guarded by `d * N % D == 0` but computing
      `(d / D) * N`. The two agree only when D divides d. */
  function RatPowAsWritten(q: Quantity, num: int, den: int, pw: (Scalar, real) -> Scalar): (r: Quantity)
    requires den != 0 && RatPowGuard(q.unit, num, den)
    requires Fits(RootExps(q.unit.exps, den))
    requires Fits(RatPowExpsAsWritten(q.unit, num, den))
    ensures r.unit.system == q.unit.system
    ensures forall i :: 0 <= i < 8 ==> r.unit.exps[i] == TruncDiv(q.unit.exps[i], den) * num
    ensures r.value == pw(q.value, (num as real) / (den as real))
  {
    var rooted := UnitRoot(q.unit, den);
    assert ScaleExps(rooted.exps, num) == RatPowExpsAsWritten(q.unit, num, den);
    Quantity(UnitPow(rooted, num), pw(q.value, (num as real) / (den as real)))
  }

  /** The exponents the guard promises: `d * N / D`, exact under the guard. */
  function RatPowExps(u: StaticUnit, num: int, den: int): (s: seq<int>)
    requires den != 0
    ensures |s| == 8
  {
    seq(8, i requires 0 <= i < 8 => TruncDiv(u.exps[i] * num, den))
  }

  /** `ratpow<N, D>(q)` as intended: every exponent is exactly `d * N / D`. */
  function RatPow(q: Quantity, num: int, den: int, pw: (Scalar, real) -> Scalar): (r: Quantity)
    requires den != 0 && RatPowGuard(q.unit, num, den)
    requires Fits(RatPowExps(q.unit, num, den))
    ensures forall i :: 0 <= i < 8 ==> r.unit.exps[i] * den == q.unit.exps[i] * num
    ensures r.unit.system == q.unit.system
    ensures r.value == pw(q.value, (num as real) / (den as real))
  {
    var e := ToExps(RatPowExps(q.unit, num, den));
    forall i | 0 <= i < 8 ensures e[i] * den == q.unit.exps[i] * num {
      TruncDivExact(q.unit.exps[i] * num, den);
    }
    Quantity(StaticUnit(e, q.unit.system), pw(q.value, (num as real) / (den as real)))
  }

  /** A length to the power 2/2: the guard `1 * 2 % 2 == 0` passes, but the
      source computes `(1 / 2) * 2 == 0`, a dimensionless result, where the
      intended exponent is 1. */
  lemma RatPowCounterexample(pw: (Scalar, real) -> Scalar)
    ensures var q := Quantity(StaticUnit([1, 0, 0, 0, 0, 0, 0, 0], 0), One);
            RatPowGuard(q.unit, 2, 2)
            && Fits(RootExps(q.unit.exps, 2))
            && Fits(RatPowExpsAsWritten(q.unit, 2, 2))
            && Fits(RatPowExps(q.unit, 2, 2))
            && RatPowAsWritten(q, 2, 2, pw).unit.exps[Units.Length] == 0
            && RatPow(q, 2, 2, pw).unit.exps[Units.Length] == 1
  {
    var q := Quantity(StaticUnit([1, 0, 0, 0, 0, 0, 0, 0], 0), One);
    assert TruncMod(1 * 2, 2) == 0;
    assert TruncDiv(1, 2) == 0;
    assert TruncDiv(2, 2) == 1;
    assert RatPowGuard(q.unit, 2, 2);
    assert RootExps(q.unit.exps, 2) == [0, 0, 0, 0, 0, 0, 0, 0];
    assert RatPowExpsAsWritten(q.unit, 2, 2) == [0, 0, 0, 0, 0, 0, 0, 0];
    assert RatPowExps(q.unit, 2, 2) == [1, 0, 0, 0, 0, 0, 0, 0];
  }

  /** When D divides every exponent, the written computation agrees with the
      intended one. */
  lemma RatPowAgreesWhenDivisible(q: Quantity, num: int, den: int, pw: (Scalar, real) -> Scalar)
    requires den != 0 && RootGuard(q.unit, den) && RatPowGuard(q.unit, num, den)
    requires Fits(RootExps(q.unit.exps, den))
    requires Fits(RatPowExpsAsWritten(q.unit, num, den))
    ensures Fits(RatPowExps(q.unit, num, den))
    ensures RatPowAsWritten(q, num, den, pw) == RatPow(q, num, den, pw)
  {
    forall i | 0 <= i < 8
      ensures TruncDiv(q.unit.exps[i] * num, den) == TruncDiv(q.unit.exps[i], den) * num
    {
      var d := q.unit.exps[i] as int;
      TruncDivExact(d, den);
      var k := TruncDiv(d, den);
      assert d * num == (k * num) * den;
      TruncDivOfMultiple(k * num, den);
    }
    assert RatPowExps(q.unit, num, den) == RatPowExpsAsWritten(q.unit, num, den);
    var a := RatPowAsWritten(q, num, den, pw);
    var b := RatPow(q, num, den, pw);
    assert a.unit.exps == b.unit.exps;
  }
}

=== FILE: scalar.dfy ===
/** The `double` scalar of a quantity, as an exact real with a NaN tag. The
    library's "bad" values are quiet NaNs (`bad_double__`, `isbad__`). */
module Scalars {

  datatype Scalar = Num(r: real) | NaN

  const One: Scalar := Num(1.0)
  const Zero: Scalar := Num(0.0)

  predicate IsNaN(x: Scalar) { x.NaN? }

  function Add(a: Scalar, b: Scalar): (r: Scalar)
    ensures r.NaN? <==> a.NaN? || b.NaN?
  {
    if a.NaN? || b.NaN? then NaN else Num(a.r + b.r)
  }

  function Sub(a: Scalar, b: Scalar): (r: Scalar)
    ensures r.NaN? <==> a.NaN? || b.NaN?
  {
    if a.NaN? || b.NaN? then NaN else Num(a.r - b.r)
  }

  function Mul(a: Scalar, b: Scalar): (r: Scalar)
    ensures r.NaN? <==> a.NaN? || b.NaN?
  {
    if a.NaN? || b.NaN? then NaN else Num(a.r * b.r)
  }

  /** Division; a zero divisor gives NaN (infinities are not modelled). */
  function Div(a: Scalar, b: Scalar): (r: Scalar)
    ensures r.NaN? <==> a.NaN? || b.NaN? || b == Zero
  {
    if a.NaN? || b.NaN? || b.r == 0.0 then NaN else Num(a.r / b.r)
  }

  function Neg(a: Scalar): (r: Scalar)
    ensures r.NaN? <==> a.NaN?
  {
    if a.NaN? then NaN else Num(-a.r)
  }

  function AbsValue(a: Scalar): (r: Scalar)
    ensures r.NaN? <==> a.NaN?
    ensures r.Num? ==> r.r >= 0.0
  {
    if a.NaN? then NaN else if a.r < 0.0 then Num(-a.r) else a
  }

  /** IEEE `==`: false whenever either side is NaN. */
  predicate Eq(a: Scalar, b: Scalar) { a.Num? && b.Num? && a.r == b.r }

  /** IEEE `<`: false whenever either side is NaN. */
  predicate Lt(a: Scalar, b: Scalar) { a.Num? && b.Num? && a.r < b.r }

  /** Dividing by a non-zero scalar undoes multiplying by it. */
  lemma MulDiv(a: Scalar, b: Scalar)
    requires b.Num? && b.r != 0.0
    ensures Div(Mul(a, b), b) == a
  {
  }
}

=== FILE: si_parse.dfy ===
/** The SI system's symbol parser, `parse_known_quantity` and
    `find_si_prefix` (src/dim/si/parse_unit.cpp): a symbol is first looked up
    whole in the symbol table; failing that, one SI prefix is stripped
    (SI Brochure, 9th edition, section 3, Table 7, with `u` standing for
    micro) and the rest is parsed again, so prefixes may stack. */
module SiParse {
  import opened Options
  import opened Scalars
  import Units
  import D = DynamicQuantities
  import opened Powers

  /** `PREFIX_NOT_FOUND`. */
  const PrefixNotFound: real := 0.0

  /** `si_prefix`: the power of ten of each one-character prefix. */
  function PrefixPower(c: char): Option<int>
  {
    match c
    case 'y' => Some(-24)
    case 'z' => Some(-21)
    case 'a' => Some(-18)
    case 'f' => Some(-15)
    case 'p' => Some(-12)
    case 'n' => Some(-9)
    case 'u' => Some(-6)
    case 'm' => Some(-3)
    case 'c' => Some(-2)
    case 'd' => Some(-1)
    case 'Y' => Some(24)
    case 'Z' => Some(21)
    case 'E' => Some(18)
    case 'P' => Some(15)
    case 'T' => Some(12)
    case 'G' => Some(9)
    case 'M' => Some(6)
    case 'k' => Some(3)
    case 'h' => Some(2)
    case _ => None
  }

  /** `find_si_prefix`: "da" gives ten and skips two characters; a listed
      prefix character gives its factor and skips one; anything else gives
      `PREFIX_NOT_FOUND` and skips none. */
  function FindPrefix(buf: seq<char>): (r: (real, nat))
    ensures r.1 <= |buf|
    ensures r.1 == 0 <==> r.0 == PrefixNotFound
    ensures r.1 == 2 <==> |buf| >= 2 && buf[..2] == "da"
    ensures r.1 == 2 ==> r.0 == 10.0
    ensures r.1 == 1 ==> PrefixPower(buf[0]).Some? && r.0 == TenTo(PrefixPower(buf[0]).value)
    ensures r.1 == 0 ==> |buf| == 0 || PrefixPower(buf[0]).None?
  {
    if |buf| >= 2 && buf[0] == 'd' && buf[1] == 'a' then (TenTo(1), 2)
    else if |buf| >= 1 && PrefixPower(buf[0]).Some? then (TenTo(PrefixPower(buf[0]).value), 1)
    else (PrefixNotFound, 0)
  }

  /** A row of `si_symbol`: the symbol, its scale in base units, and the
      exponents of its unit. */
  datatype Entry = Entry(symbol: seq<char>, scale: real, exps: Units.Exps)

  /** The scale and unit exponents of each row of `si_symbol`, in the
      table's order; `SymbolNamesWith` gives the symbol of each row. */
  const UnitColumns: seq<(real, Units.Exps)> := BaseRows + MechanicalRows + ElectricalRows + OtherRows

  /** The seven base units and the radian. */
  const BaseRows: seq<(real, Units.Exps)> :=
    [
      (1.0, [1, 0, 0, 0, 0, 0, 0, 0]),                                  // m
      (1.0, [0, 1, 0, 0, 0, 0, 0, 0]),                                  // s
      (0.001, [0, 0, 1, 0, 0, 0, 0, 0]),                                // g
      (1.0, [0, 0, 0, 1, 0, 0, 0, 0]),                                  // rad
      (1.0, [0, 0, 0, 0, 1, 0, 0, 0]),                                  // K
      (1.0, [0, 0, 0, 0, 0, 1, 0, 0]),                                  // mol
      (1.0, [0, 0, 0, 0, 0, 0, 1, 0]),                                  // A
      (1.0, [0, 0, 0, 0, 0, 0, 0, 1])                                   // cd
    ]

  /** Derived units with special names, hertz to watt. */
  const MechanicalRows: seq<(real, Units.Exps)> :=
    [
      (1.0, [0, -1, 0, 0, 0, 0, 0, 0]),                                 // Hz
      (1.0, [0, 0, 0, 2, 0, 0, 0, 0]),                                  // sr
      (1.0, [1, -2, 1, 0, 0, 0, 0, 0]),                                 // N
      (1.0, [-1, -2, 1, 0, 0, 0, 0, 0]),                                // Pa
      (1.0, [2, -2, 1, 0, 0, 0, 0, 0]),                                 // J
      (1.0, [2, -3, 1, 0, 0, 0, 0, 0])                                  // W
    ]

  /** Derived units with special names, coulomb to katal. */
  const ElectricalRows: seq<(real, Units.Exps)> :=
    [
      (1.0, [0, 1, 0, 0, 0, 0, 1, 0]),                                  // C
      (1.0, [2, -3, 1, 0, 0, 0, -1, 0]),                                // V
      (1.0, [-2, 4, -1, 0, 0, 0, 2, 0]),                                // F
      (1.0, [2, -3, 1, 0, 0, 0, -2, 0]),                                // R
      (1.0, [-2, 3, -1, 0, 0, 0, 2, 0]),                                // S
      (1.0, [2, -2, 1, 0, 0, 0, -1, 0]),                                // Wb
      (1.0, [0, -2, 1, 0, 0, 0, -1, 0]),                                // T
      (1.0, [2, -2, 1, 0, 0, 0, -2, 0]),                                // H
      (1.0, [0, 0, 0, 2, 0, 0, 0, 1]),                                  // lumen
      (1.0, [-2, 0, 0, 2, 0, 0, 0, 1]),                                 // lux
      (1.0, [0, -1, 0, 0, 0, 0, 0, 0]),                                 // Bq
      (1.0, [2, -2, 0, 0, 0, 0, 0, 0]),                                 // Gy
      (1.0, [2, -2, 0, 0, 0, 0, 0, 0]),                                 // Sv
      (1.0, [0, -1, 0, 0, 0, 1, 0, 0])                                  // kat
    ]

  /** The litre and the electronvolt, accepted for use with the SI, and the are and the bar. */
  const OtherRows: seq<(real, Units.Exps)> :=
    [
      (0.001, [3, 0, 0, 0, 0, 0, 0, 0]),                                // L
      (0.000000000000000000160218, [2, -2, 1, 0, 0, 0, 0, 0]),          // eV
      (100.0, [2, 0, 0, 0, 0, 0, 0, 0]),                                // a
      (100000.0, [-1, -2, 1, 0, 0, 0, 0, 0])                            // bar
    ]

  /** The symbol column of the table, with the symbols of the lumen and the
      lux as given. */
  function SymbolNamesWith(lumen: seq<char>, lux: seq<char>): (r: seq<seq<char>>)
    ensures |r| == |UnitColumns|
  {
    NamesBeforeLumen + [lumen, lux] + NamesAfterLux
  }

  const NamesBeforeLumen: seq<seq<char>> :=
    ["m", "s", "g", "rad", "K", "mol", "A", "cd", "Hz", "sr", "N", "Pa", "J", "W", "C", "V",
     "F", "R", "S", "Wb", "T", "H"]

  const NamesAfterLux: seq<seq<char>> := ["Bq", "Gy", "Sv", "kat", "L", "eV", "a", "bar"]

  /** `si_symbol`: the rows in order, each symbol beside its scale and
      exponents. */
  function SymbolTableWith(lumen: seq<char>, lux: seq<char>): (r: seq<Entry>)
    ensures |r| == |UnitColumns|
    ensures forall j :: 0 <= j < |r| ==>
      r[j] == Entry(SymbolNamesWith(lumen, lux)[j], UnitColumns[j].0, UnitColumns[j].1)
  {
    var names := SymbolNamesWith(lumen, lux);
    seq(|UnitColumns|, j requires 0 <= j < |UnitColumns| => Entry(names[j], UnitColumns[j].0, UnitColumns[j].1))
  }

  /** The SI system's table: the lumen and the lux are entered as "Im" and
      "Ix", with a capital I, the spelling the library uses throughout. */
  const SymbolTable: seq<Entry> := SymbolTableWith("Im", "Ix")

  /** The same table with the SI Brochure's symbols for the lumen and the
      lux, "lm" and "lx". */
  const SiBrochureTable: seq<Entry> := SymbolTableWith("lm", "lx")

  /** The map built from a table with `emplace`: the first row of a symbol
      is the one kept. */
  function LookupSymbol(table: seq<Entry>, s: seq<char>): (r: Option<Entry>)
    ensures r.Some? ==>
      exists j :: 0 <= j < |table| && table[j] == r.value && table[j].symbol == s &&
        forall i :: 0 <= i < j ==> table[i].symbol != s
    ensures r.None? <==> forall j :: 0 <= j < |table| ==> table[j].symbol != s
  {
    if |table| == 0 then None
    else if table[0].symbol == s then Some(table[0])
    else
      var r := LookupSymbol(table[1..], s);
      assert forall j :: 1 <= j < |table| ==> table[j] == table[1..][j - 1];
      r
  }

  /** A table row as a quantity. */
  function EntryQuantity(e: Entry): D.DynQuantity
  {
    D.DynQuantity(Num(e.scale), Units.Make(e.exps))
  }

  /** `parse_known_quantity` over a given table. Bad results are exactly
      `bad_quantity()`. */
  function ParseKnownWith(table: seq<Entry>, buf: seq<char>): (r: D.DynQuantity)
    ensures D.IsBad(r) ==> r == D.Bad
    decreases |buf|
  {
    var e := LookupSymbol(table, buf);
    if e.Some? then EntryQuantity(e.value)
    else
      var (prefix, start) := FindPrefix(buf);
      if prefix == PrefixNotFound then D.Bad
      else D.ScalarTimes(Num(prefix), ParseKnownWith(table, buf[start..]))
  }

  /** `parse_known_quantity` of the SI system. */
  function ParseKnown(buf: seq<char>): (r: D.DynQuantity)
    ensures D.IsBad(r) ==> r == D.Bad
  {
    ParseKnownWith(SymbolTable, buf)
  }

  /** The same parser over the SI Brochure's symbols. */
  function ParseKnownSiBrochure(buf: seq<char>): (r: D.DynQuantity)
    ensures D.IsBad(r) ==> r == D.Bad
  {
    ParseKnownWith(SiBrochureTable, buf)
  }

  /** A whole-symbol match wins before any prefix is tried. */
  lemma ExactMatchWins(table: seq<Entry>, j: nat)
    requires j < |table| && forall i :: 0 <= i < j ==> table[i].symbol != table[j].symbol
    ensures ParseKnownWith(table, table[j].symbol) == EntryQuantity(table[j])
  {
    var s := table[j].symbol;
    var r := LookupSymbol(table, s);
    var k :| 0 <= k < |table| && table[k] == r.value && table[k].symbol == s &&
      forall i :: 0 <= i < k ==> table[i].symbol != s;
    assert k == j;
  }

  /** Otherwise a listed prefix is stripped and scales the rest: the unit is
      the rest's, the value is multiplied by the prefix. */
  lemma PrefixScales(table: seq<Entry>, c: char, rest: seq<char>)
    requires LookupSymbol(table, [c] + rest).None? && PrefixPower(c).Some?
    requires !(c == 'd' && |rest| > 0 && rest[0] == 'a')
    ensures var r := ParseKnownWith(table, [c] + rest);
      var q := ParseKnownWith(table, rest);
      r.unit == q.unit && r.value == Mul(q.value, Num(TenTo(PrefixPower(c).value)))
  {
    assert ([c] + rest)[1..] == rest;
  }

  /** A symbol that is neither in the table nor starts with a prefix is
      `bad_quantity()`. */
  lemma UnknownIsBad(table: seq<Entry>, buf: seq<char>)
    requires LookupSymbol(table, buf).None?
    requires |buf| == 0 || (PrefixPower(buf[0]).None? && !(|buf| >= 2 && buf[..2] == "da"))
    ensures ParseKnownWith(table, buf) == D.Bad
  {
  }

  /** q is the quantity of a table row whose symbol ends `buf`, scaled by
      a power of ten. */
  ghost predicate ScaledRow(table: seq<Entry>, buf: seq<char>, q: D.DynQuantity)
  {
    exists k, j, p :: RowAt(table, buf, q, k, j, p)
  }

  /** Row j matches `buf[k..]` and q is its quantity scaled by 10^p. */
  ghost predicate RowAt(table: seq<Entry>, buf: seq<char>, q: D.DynQuantity, k: int, j: int, p: int)
  {
    0 <= k <= |buf| && 0 <= j < |table| && table[j].symbol == buf[k..] &&
    q == D.DynQuantity(Num(TenTo(p) * table[j].scale), Units.Make(table[j].exps))
  }

  lemma Rearrange(t: real, u: real, tu: real, scale: real)
    requires t * u == tu
    ensures (t * scale) * u == tu * scale
  {
  }

  /** Stripping a prefix of power `power` keeps a scaled row scaled. */
  lemma ScaledRowStep(table: seq<Entry>, buf: seq<char>, start: nat, power: int, q: D.DynQuantity)
    requires start <= |buf| && ScaledRow(table, buf[start..], q)
    ensures ScaledRow(table, buf, D.ScalarTimes(Num(TenTo(power)), q))
  {
    var k, j, p := ScaledRowElim(table, buf[start..], q);
    SuffixOfSuffix(buf, start, k);
    ScaledValue(q, p, power, table[j].scale);
    assert RowAt(table, buf, D.ScalarTimes(Num(TenTo(power)), q), start + k, j, p + power);
  }

  lemma SuffixOfSuffix(buf: seq<char>, start: nat, k: nat)
    requires start <= |buf| && k <= |buf| - start
    ensures buf[start..][k..] == buf[start + k..]
  {
  }

  lemma ScaledValue(q: D.DynQuantity, p: int, power: int, scale: real)
    requires q.value == Num(TenTo(p) * scale)
    ensures D.ScalarTimes(Num(TenTo(power)), q).value == Num(TenTo(p + power) * scale)
  {
    TenToAdd(p, power);
    Rearrange(TenTo(p), TenTo(power), TenTo(p + power), scale);
  }

  lemma ScaledRowElim(table: seq<Entry>, buf: seq<char>, q: D.DynQuantity) returns (k: nat, j: nat, p: int)
    requires ScaledRow(table, buf, q)
    ensures k <= |buf| && j < |table| && table[j].symbol == buf[k..]
    ensures q.value == Num(TenTo(p) * table[j].scale) && q.unit == Units.Make(table[j].exps)
  {
    k, j, p :| RowAt(table, buf, q, k, j, p);
  }

  lemma ScaledRowIntro(table: seq<Entry>, buf: seq<char>, k: nat, j: nat, p: int, q: D.DynQuantity)
    requires k <= |buf| && j < |table| && table[j].symbol == buf[k..]
    requires q.value == Num(TenTo(p) * table[j].scale) && q.unit == Units.Make(table[j].exps)
    ensures ScaledRow(table, buf, q)
  {
    assert RowAt(table, buf, q, k, j, p);
  }

  /** Every good result is some table row's unit, scaled by a power of ten
      times the row's scale, and that row's symbol ends the text. */
  lemma {:induction false} ParseKnownSound(table: seq<Entry>, buf: seq<char>)
    requires !D.IsBad(ParseKnownWith(table, buf))
    ensures ScaledRow(table, buf, ParseKnownWith(table, buf))
    decreases |buf|
  {
    var e := LookupSymbol(table, buf);
    if e.Some? {
      var j :| 0 <= j < |table| && table[j] == e.value && table[j].symbol == buf &&
        forall i :: 0 <= i < j ==> table[i].symbol != buf;
      assert buf[0..] == buf;
      assert TenTo(0) * table[j].scale == table[j].scale;
      ScaledRowIntro(table, buf, 0, j, 0, ParseKnownWith(table, buf));
    } else {
      var (prefix, start) := FindPrefix(buf);
      var power := if start == 2 then 1 else PrefixPower(buf[0]).value;
      assert prefix == TenTo(power);
      ParseKnownSound(table, buf[start..]);
      ScaledRowStep(table, buf, start, power, ParseKnownWith(table, buf[start..]));
    }
  }

  /** A text that is not in the symbol column is not found whole. */
  lemma Unlisted(lumen: seq<char>, lux: seq<char>, s: seq<char>)
    requires s !in SymbolNamesWith(lumen, lux)
    ensures LookupSymbol(SymbolTableWith(lumen, lux), s) == None
  {
    var table := SymbolTableWith(lumen, lux);
    assert forall j :: 0 <= j < |table| ==> table[j].symbol == SymbolNamesWith(lumen, lux)[j];
  }

  /** A symbol listed once, before any repeat, parses to its own row. */
  lemma Listed(lumen: seq<char>, lux: seq<char>, j: nat)
    requires j < |UnitColumns|
    requires forall i :: 0 <= i < j ==> SymbolNamesWith(lumen, lux)[i] != SymbolNamesWith(lumen, lux)[j]
    ensures ParseKnownWith(SymbolTableWith(lumen, lux), SymbolNamesWith(lumen, lux)[j])
      == EntryQuantity(SymbolTableWith(lumen, lux)[j])
  {
    var table, names := SymbolTableWith(lumen, lux), SymbolNamesWith(lumen, lux);
    ExactMatchWins(table, j);
  }

  // ---------------------------------------------------------------------
  // Examples, over the SI system's table

  const MetreUnit: Units.DynUnit := Units.Make(BaseRows[0].1)

  /** One step of the parse of a text that is not a symbol: its prefix
      times the parse of the rest. */
  lemma PrefixStep(buf: seq<char>, prefix: real, start: nat)
    requires buf !in SymbolNamesWith("Im", "Ix")
    requires FindPrefix(buf) == (prefix, start) && start > 0
    ensures ParseKnown(buf) == D.ScalarTimes(Num(prefix), ParseKnown(buf[start..]))
  {
    Unlisted("Im", "Ix", buf);
  }

  /** A text that is neither a symbol nor starts with a prefix is bad. */
  lemma NoPrefixStep(buf: seq<char>)
    requires buf !in SymbolNamesWith("Im", "Ix")
    requires FindPrefix(buf).1 == 0
    ensures ParseKnown(buf) == D.Bad
  {
    Unlisted("Im", "Ix", buf);
  }

  /** "m" is the metre, not the milli prefix. */
  lemma MetreExample()
    ensures ParseKnown("m") == D.DynQuantity(One, MetreUnit)
  {
    Listed("Im", "Ix", 0);
    assert UnitColumns[0] == BaseRows[0];
  }

  /** "a" is the are, not the atto prefix. */
  lemma AreExample()
    ensures ParseKnown("a") == D.DynQuantity(Num(100.0), Units.Make(OtherRows[2].1))
  {
    Listed("Im", "Ix", 30);
    assert UnitColumns[30] == OtherRows[2];
  }

  /** "km" is not a symbol; its k is the kilo prefix. */
  lemma KiloStep()
    ensures ParseKnown("km") == D.ScalarTimes(Num(1000.0), ParseKnown("m"))
  {
    assert FindPrefix("km") == (1000.0, 1);
    assert "km" !in SymbolNamesWith("Im", "Ix");
    PrefixStep("km", 1000.0, 1);
    assert "km"[1..] == "m";
  }

  /** "km" is a kilometre. */
  lemma KilometreExample()
    ensures ParseKnown("km") == D.DynQuantity(Num(1000.0), MetreUnit)
  {
    KiloStep();
    MetreExample();
  }

  /** "mm" is not a symbol; its first m is the milli prefix. */
  lemma MilliStep()
    ensures ParseKnown("mm") == D.ScalarTimes(Num(0.001), ParseKnown("m"))
  {
    assert FindPrefix("mm") == (0.001, 1);
    assert "mm" !in SymbolNamesWith("Im", "Ix");
    PrefixStep("mm", 0.001, 1);
    assert "mm"[1..] == "m";
  }

  /** "mm" is a millimetre. */
  lemma MillimetreExample()
    ensures ParseKnown("mm") == D.DynQuantity(Num(0.001), MetreUnit)
  {
    MilliStep();
    MetreExample();
  }

  /** "dam" is not a symbol; "da" is the one two-letter prefix. */
  lemma DecaStep()
    ensures ParseKnown("dam") == D.ScalarTimes(Num(10.0), ParseKnown("m"))
  {
    assert FindPrefix("dam") == (10.0, 2);
    assert "dam" !in SymbolNamesWith("Im", "Ix");
    PrefixStep("dam", 10.0, 2);
    assert "dam"[2..] == "m";
  }

  /** "dam" is a decametre. */
  lemma DecametreExample()
    ensures ParseKnown("dam") == D.DynQuantity(Num(10.0), MetreUnit)
  {
    DecaStep();
    MetreExample();
  }

  /** "kkm" is not a symbol; its first k is the kilo prefix. */
  lemma StackedStep()
    ensures ParseKnown("kkm") == D.ScalarTimes(Num(1000.0), ParseKnown("km"))
  {
    assert FindPrefix("kkm") == (1000.0, 1);
    assert "kkm" !in SymbolNamesWith("Im", "Ix");
    PrefixStep("kkm", 1000.0, 1);
    assert "kkm"[1..] == "km";
  }

  /** Prefixes stack: "kkm" is a megametre. */
  lemma StackedPrefixExample()
    ensures ParseKnown("kkm") == D.DynQuantity(Num(1000000.0), MetreUnit)
  {
    StackedStep();
    KilometreExample();
  }

  /** An unknown first letter is bad. */
  lemma UnknownLetterExample()
    ensures ParseKnown("xm") == D.Bad
  {
    assert FindPrefix("xm").1 == 0;
    assert "xm" !in SymbolNamesWith("Im", "Ix");
    NoPrefixStep("xm");
  }

  /** The empty text is bad. */
  lemma EmptyExample()
    ensures ParseKnown("") == D.Bad
  {
    assert FindPrefix("").1 == 0;
    assert "" !in SymbolNamesWith("Im", "Ix");
    NoPrefixStep("");
  }

  lemma UnknownStep()
    ensures ParseKnown("x") == D.Bad
  {
    assert FindPrefix("x").1 == 0;
    assert "x" !in SymbolNamesWith("Im", "Ix");
    NoPrefixStep("x");
  }

  /** "kx" is not a symbol; its k is the kilo prefix. */
  lemma KiloUnknownStep()
    ensures ParseKnown("kx") == D.ScalarTimes(Num(1000.0), ParseKnown("x"))
  {
    assert FindPrefix("kx") == (1000.0, 1);
    assert "kx" !in SymbolNamesWith("Im", "Ix");
    PrefixStep("kx", 1000.0, 1);
    assert "kx"[1..] == "x";
  }

  /** A prefix followed by nothing known is bad: "kx". */
  lemma UnknownAfterPrefixExample()
    ensures ParseKnown("kx") == D.Bad
  {
    UnknownStep();
    KiloUnknownStep();
  }

  const LumenUnit: Units.DynUnit := Units.Make(ElectricalRows[8].1)
  const LuxUnit: Units.DynUnit := Units.Make(ElectricalRows[9].1)

  /** Whatever the lumen's symbol, when no earlier row has it, it parses to
      the lumen. */
  lemma LumenRow(lumen: seq<char>, lux: seq<char>)
    requires lumen !in NamesBeforeLumen
    ensures ParseKnownWith(SymbolTableWith(lumen, lux), lumen) == D.DynQuantity(One, LumenUnit)
  {
    var names := SymbolNamesWith(lumen, lux);
    forall i | 0 <= i < 22 ensures names[i] != names[22] {
      assert names[i] == NamesBeforeLumen[i];
    }
    Listed(lumen, lux, 22);
    assert UnitColumns[22] == ElectricalRows[8];
  }

  /** Likewise the lux, when neither an earlier row nor the lumen has its
      symbol. */
  lemma LuxRow(lumen: seq<char>, lux: seq<char>)
    requires lux !in NamesBeforeLumen && lux != lumen
    ensures ParseKnownWith(SymbolTableWith(lumen, lux), lux) == D.DynQuantity(One, LuxUnit)
  {
    var names := SymbolNamesWith(lumen, lux);
    forall i | 0 <= i < 23 ensures names[i] != names[23] {
      if i < 22 {
        assert names[i] == NamesBeforeLumen[i];
      }
    }
    Listed(lumen, lux, 23);
    assert UnitColumns[23] == ElectricalRows[9];
  }

  /** The lumen under the SI Brochure's symbol "lm" is unknown to the SI
      system's table. */
  lemma LumenSiSymbolUnknown()
    ensures ParseKnown("lm") == D.Bad
  {
    assert FindPrefix("lm").1 == 0;
    assert "lm" !in SymbolNamesWith("Im", "Ix");
    NoPrefixStep("lm");
  }

  /** The SI system's table files the lumen and the lux under "Im" and
      "Ix". */
  lemma LumenExample()
    ensures ParseKnown("Im") == D.DynQuantity(One, LumenUnit)
  {
    LumenRow("Im", "Ix");
  }

  lemma LuxExample()
    ensures ParseKnown("Ix") == D.DynQuantity(One, LuxUnit)
  {
    LuxRow("Im", "Ix");
  }

  /** With the SI Brochure's symbols, "lm" parses as the lumen. */
  lemma LumenSiBrochure()
    ensures ParseKnownSiBrochure("lm") == D.DynQuantity(One, LumenUnit)
  {
    LumenRow("lm", "lx");
  }

  /** With the SI Brochure's symbols, "lx" parses as the lux. */
  lemma LuxSiBrochure()
    ensures ParseKnownSiBrochure("lx") == D.DynQuantity(One, LuxUnit)
  {
    LuxRow("lm", "lx");
  }
}

=== FILE: sorted_vector.dfy ===
/** The sorted-vector maps behind the format registries
    (src/dim/format_map.hpp): a sequence kept strictly sorted by a key,
    searched with `std::lower_bound` followed by an equality test
    (`detail::find`), and changed by replacing an entry in place, by
    `push_back` followed by `std::sort`, or by erasing one entry. */
module SortedVectors {
  import opened Options

  /** A strict total order on keys, as `compare_*` must be for
      `std::lower_bound` and `std::sort`. */
  ghost predicate StrictOrder<K(!new)>(lt: (K, K) -> bool)
  {
    && (forall a :: !lt(a, a))
    && (forall a, b, c :: lt(a, b) && lt(b, c) ==> lt(a, c))
    && (forall a, b :: a == b || lt(a, b) || lt(b, a))
  }

  /** Keys strictly increase along the sequence, so they are unique. */
  predicate Sorted<E, K>(s: seq<E>, key: E -> K, lt: (K, K) -> bool)
  {
    forall i, j :: 0 <= i < j < |s| ==> lt(key(s[i]), key(s[j]))
  }

  /** `std::lower_bound`: the first position whose key is not less than k. */
  function LowerBound<E, K>(s: seq<E>, k: K, key: E -> K, lt: (K, K) -> bool): (i: nat)
    ensures i <= |s|
    ensures forall j :: 0 <= j < i ==> lt(key(s[j]), k)
    ensures i < |s| ==> !lt(key(s[i]), k)
  {
    if |s| == 0 || !lt(key(s[0]), k) then 0 else 1 + LowerBound(s[1..], k, key, lt)
  }

  /** On a sorted sequence the lower bound partitions it: every key from
      there on is not less than k. */
  lemma LowerBoundPartitions<E, K(!new)>(s: seq<E>, k: K, key: E -> K, lt: (K, K) -> bool)
    requires Sorted(s, key, lt) && StrictOrder(lt)
    ensures forall j :: LowerBound(s, k, key, lt) <= j < |s| ==> !lt(key(s[j]), k)
  {
    var i := LowerBound(s, k, key, lt);
    forall j | i < j < |s|
      ensures !lt(key(s[j]), k)
    {
      assert lt(key(s[i]), key(s[j]));
    }
  }

  /** The bisection `std::lower_bound` performs, which finds the same
      position as the linear definition. */
  method BinaryLowerBound<E, K(!new)>(s: seq<E>, k: K, key: E -> K, lt: (K, K) -> bool) returns (i: nat)
    requires Sorted(s, key, lt) && StrictOrder(lt)
    ensures i == LowerBound(s, k, key, lt)
  {
    var lo, hi := 0, |s|;
    while lo < hi
      invariant 0 <= lo <= hi <= |s|
      invariant forall j :: 0 <= j < lo ==> lt(key(s[j]), k)
      invariant forall j :: hi <= j < |s| ==> !lt(key(s[j]), k)
      decreases hi - lo
    {
      var mid := lo + (hi - lo) / 2;
      if lt(key(s[mid]), k) {
        forall j | 0 <= j < mid ensures lt(key(s[j]), k) {
          assert lt(key(s[j]), key(s[mid]));
        }
        lo := mid + 1;
      } else {
        forall j | mid < j < |s| ensures !lt(key(s[j]), k) {
          assert lt(key(s[mid]), key(s[j]));
        }
        hi := mid;
      }
    }
    i := lo;
    LowerBoundUnique(s, k, key, lt, i);
  }

  /** The lower bound is the only position with every key before it less
      than k and the key at it (if any) not less. */
  lemma {:induction false} LowerBoundUnique<E, K>(s: seq<E>, k: K, key: E -> K, lt: (K, K) -> bool, i: nat)
    requires i <= |s|
    requires forall j :: 0 <= j < i ==> lt(key(s[j]), k)
    requires i < |s| ==> !lt(key(s[i]), k)
    ensures i == LowerBound(s, k, key, lt)
    decreases |s|
  {
    if |s| > 0 && lt(key(s[0]), k) {
      LowerBoundUnique(s[1..], k, key, lt, i - 1);
    }
  }

  /** `detail::find`: the lower bound when the entry there has key k,
      otherwise nothing (`end()`). */
  function Find<E, K(==)>(s: seq<E>, k: K, key: E -> K, lt: (K, K) -> bool): (r: Option<nat>)
    ensures r.Some? ==> r.value < |s| && key(s[r.value]) == k
    ensures r.None? ==> LowerBound(s, k, key, lt) == |s| || key(s[LowerBound(s, k, key, lt)]) != k
  {
    var i := LowerBound(s, k, key, lt);
    if i == |s| || key(s[i]) != k then None else Some(i)
  }

  /** On a sorted sequence, `find` succeeds exactly at the entry with key k,
      and fails exactly when there is none. */
  lemma FindComplete<E, K(!new)>(s: seq<E>, k: K, key: E -> K, lt: (K, K) -> bool)
    requires Sorted(s, key, lt) && StrictOrder(lt)
    ensures Find(s, k, key, lt).None? <==> forall j :: 0 <= j < |s| ==> key(s[j]) != k
    ensures forall j :: 0 <= j < |s| && key(s[j]) == k ==> Find(s, k, key, lt) == Some(j)
  {
    var i := LowerBound(s, k, key, lt);
    LowerBoundPartitions(s, k, key, lt);
    forall j | 0 <= j < i
      ensures key(s[j]) != k
    {
    }
    forall j | i < j < |s|
      ensures key(s[j]) != k
    {
      assert lt(key(s[i]), key(s[j]));
    }
  }

  /** The entry with key k, if any. */
  function Lookup<E, K(==)>(s: seq<E>, k: K, key: E -> K, lt: (K, K) -> bool): (r: Option<E>)
    ensures r.Some? ==> key(r.value) == k && exists j :: 0 <= j < |s| && s[j] == r.value
  {
    var f := Find(s, k, key, lt);
    if f.Some? then Some(s[f.value]) else None
  }

  /** On a sorted sequence, a lookup is determined by the contents: the
      entry carrying k, or nothing when no entry carries k. */
  lemma LookupByContents<E, K(!new)>(s: seq<E>, k: K, key: E -> K, lt: (K, K) -> bool)
    requires Sorted(s, key, lt) && StrictOrder(lt)
    ensures forall j :: 0 <= j < |s| && key(s[j]) == k ==> Lookup(s, k, key, lt) == Some(s[j])
    ensures (forall j :: 0 <= j < |s| ==> key(s[j]) != k) ==> Lookup(s, k, key, lt).None?
  {
    FindComplete(s, k, key, lt);
  }

  /** `insert`: replace the entry with e's key in place; otherwise add e and
      re-sort, which puts it at its lower bound. */
  function Insert<E, K(==)>(s: seq<E>, e: E, key: E -> K, lt: (K, K) -> bool): (r: seq<E>)
    ensures Find(s, key(e), key, lt).Some? ==>
              var i := Find(s, key(e), key, lt).value;
              |r| == |s| && r[i] == e && forall j :: 0 <= j < |s| && j != i ==> r[j] == s[j]
    ensures Find(s, key(e), key, lt).None? ==> |r| == |s| + 1 && multiset(r) == multiset(s) + multiset{e}
  {
    var f := Find(s, key(e), key, lt);
    if f.Some? then s[f.value := e]
    else
      var i := LowerBound(s, key(e), key, lt);
      assert s == s[..i] + s[i..];
      s[..i] + [e] + s[i..]
  }

  /** Insertion keeps the sequence sorted. */
  lemma InsertSorted<E, K(!new)>(s: seq<E>, e: E, key: E -> K, lt: (K, K) -> bool)
    requires Sorted(s, key, lt) && StrictOrder(lt)
    ensures Sorted(Insert(s, e, key, lt), key, lt)
  {
    var f := Find(s, key(e), key, lt);
    if f.None? {
      var i := LowerBound(s, key(e), key, lt);
      LowerBoundPartitions(s, key(e), key, lt);
      assert i < |s| ==> key(s[i]) != key(e);
      SpliceSorted(s, e, i, key, lt);
    }
  }

  /** Putting e between the keys less than its own and those greater keeps
      the sequence sorted. */
  lemma SpliceSorted<E, K(!new)>(s: seq<E>, e: E, i: nat, key: E -> K, lt: (K, K) -> bool)
    requires Sorted(s, key, lt) && StrictOrder(lt) && i <= |s|
    requires forall j :: 0 <= j < i ==> lt(key(s[j]), key(e))
    requires forall j :: i <= j < |s| ==> !lt(key(s[j]), key(e))
    requires i < |s| ==> key(s[i]) != key(e)
    ensures Sorted(s[..i] + [e] + s[i..], key, lt)
  {
    var r := s[..i] + [e] + s[i..];
    assert forall j :: 0 <= j < i ==> r[j] == s[j];
    assert r[i] == e;
    assert forall j :: i < j < |r| ==> r[j] == s[j - 1];
    forall j | i <= j < |s| ensures lt(key(e), key(s[j])) {
      if j > i { assert lt(key(s[i]), key(s[j])); }
    }
  }

  /** Two sorted sequences with the same entries are equal: `std::sort` of
      the appended sequence has exactly one possible result, the sorted
      insertion. */
  lemma {:induction false} SortIsUnique<E, K(!new)>(a: seq<E>, b: seq<E>, key: E -> K, lt: (K, K) -> bool)
    requires Sorted(a, key, lt) && Sorted(b, key, lt) && StrictOrder(lt)
    requires multiset(a) == multiset(b)
    ensures a == b
    decreases |a|
  {
    SameLength(a, b);
    if |a| > 0 {
      SortedHeadsEqual(a, b, key, lt);
      TailMultiset(a);
      TailMultiset(b);
      SortedTail(a, key, lt);
      SortedTail(b, key, lt);
      SortIsUnique(a[1..], b[1..], key, lt);
      ConsEqual(a, b);
    }
  }

  lemma SameLength<E>(a: seq<E>, b: seq<E>)
    requires multiset(a) == multiset(b)
    ensures |a| == |b|
  {
    assert |a| == |multiset(a)| == |multiset(b)| == |b|;
  }

  lemma ConsEqual<E>(a: seq<E>, b: seq<E>)
    requires |a| > 0 && |b| > 0 && a[0] == b[0] && a[1..] == b[1..]
    ensures a == b
  {
    assert a == [a[0]] + a[1..] && b == [b[0]] + b[1..];
  }

  lemma TailMultiset<E>(a: seq<E>)
    requires |a| > 0
    ensures multiset(a[1..]) == multiset(a) - multiset{a[0]}
  {
    assert a == [a[0]] + a[1..];
  }

  lemma SortedTail<E, K>(a: seq<E>, key: E -> K, lt: (K, K) -> bool)
    requires Sorted(a, key, lt) && |a| > 0
    ensures Sorted(a[1..], key, lt)
  {
    forall i, j | 0 <= i < j < |a| - 1 ensures lt(key(a[1..][i]), key(a[1..][j])) {
      assert a[1..][i] == a[i + 1] && a[1..][j] == a[j + 1];
    }
  }

  /** Two non-empty sorted sequences with the same entries start alike. */
  lemma SortedHeadsEqual<E, K(!new)>(a: seq<E>, b: seq<E>, key: E -> K, lt: (K, K) -> bool)
    requires Sorted(a, key, lt) && Sorted(b, key, lt) && StrictOrder(lt)
    requires multiset(a) == multiset(b) && |a| > 0 && |b| > 0
    ensures a[0] == b[0]
  {
    assert a[0] in multiset(b);
    var j :| 0 <= j < |b| && b[j] == a[0];
    assert b[0] in multiset(a);
    var i :| 0 <= i < |a| && a[i] == b[0];
    assert i == 0 || j == 0;
  }

  /** After `insert`, looking up e's key gives e and every other lookup is
      unchanged. */
  lemma InsertLookup<E, K(!new)>(s: seq<E>, e: E, k: K, key: E -> K, lt: (K, K) -> bool)
    requires Sorted(s, key, lt) && StrictOrder(lt)
    ensures Lookup(Insert(s, e, key, lt), k, key, lt) == (if k == key(e) then Some(e) else Lookup(s, k, key, lt))
  {
    InsertSorted(s, e, key, lt);
    if Find(s, key(e), key, lt).Some? {
      InsertLookupReplaced(s, e, k, key, lt);
    } else {
      InsertLookupAdded(s, e, k, key, lt);
    }
  }

  lemma InsertLookupReplaced<E, K(!new)>(s: seq<E>, e: E, k: K, key: E -> K, lt: (K, K) -> bool)
    requires Sorted(s, key, lt) && StrictOrder(lt) && Sorted(Insert(s, e, key, lt), key, lt)
    requires Find(s, key(e), key, lt).Some?
    ensures Lookup(Insert(s, e, key, lt), k, key, lt) == (if k == key(e) then Some(e) else Lookup(s, k, key, lt))
  {
    var r := Insert(s, e, key, lt);
    LookupByContents(s, k, key, lt);
    LookupByContents(r, k, key, lt);
    var i := Find(s, key(e), key, lt).value;
    if k == key(e) {
      assert r[i] == e;
    } else if exists j :: 0 <= j < |s| && key(s[j]) == k {
      var j :| 0 <= j < |s| && key(s[j]) == k;
      assert r[j] == s[j];
    } else {
      forall j | 0 <= j < |r| ensures key(r[j]) != k {
        if j != i { assert r[j] == s[j]; }
      }
    }
  }

  lemma InsertLookupAdded<E, K(!new)>(s: seq<E>, e: E, k: K, key: E -> K, lt: (K, K) -> bool)
    requires Sorted(s, key, lt) && StrictOrder(lt) && Sorted(Insert(s, e, key, lt), key, lt)
    requires Find(s, key(e), key, lt).None?
    ensures Lookup(Insert(s, e, key, lt), k, key, lt) == (if k == key(e) then Some(e) else Lookup(s, k, key, lt))
  {
    var r := Insert(s, e, key, lt);
    var i := LowerBound(s, key(e), key, lt);
    assert r == s[..i] + [e] + s[i..];
    LookupByContents(r, k, key, lt);
    if k == key(e) {
      SplicedAt(s, i, e, i);
    } else {
      LookupByContents(s, k, key, lt);
      SplicedKeys(s, i, e, k, key);
    }
  }

  /** Splicing in an entry with another key keeps the entries with key k,
      shifted by one past the splice point. */
  lemma SplicedKeys<E, K>(s: seq<E>, i: nat, e: E, k: K, key: E -> K)
    requires i <= |s| && key(e) != k
    ensures var r := s[..i] + [e] + s[i..];
      && (forall j :: 0 <= j < |s| && key(s[j]) == k ==> exists m :: 0 <= m < |r| && r[m] == s[j])
      && ((forall j :: 0 <= j < |s| ==> key(s[j]) != k) ==> forall j :: 0 <= j < |r| ==> key(r[j]) != k)
  {
    var r := s[..i] + [e] + s[i..];
    forall j | 0 <= j < |s| && key(s[j]) == k
      ensures exists m :: 0 <= m < |r| && r[m] == s[j]
    {
      if j < i { SplicedAt(s, i, e, j); assert r[j] == s[j]; } else { SplicedAt(s, i, e, j + 1); assert r[j + 1] == s[j]; }
    }
    if forall j :: 0 <= j < |s| ==> key(s[j]) != k {
      forall j | 0 <= j < |r| ensures key(r[j]) != k {
        SplicedAt(s, i, e, j);
      }
    }
  }

  /** The entry at position j once e is put at position i. */
  lemma SplicedAt<E>(s: seq<E>, i: nat, e: E, j: nat)
    requires i <= |s| && j <= |s|
    ensures (s[..i] + [e] + s[i..])[j] == (if j < i then s[j] else if j == i then e else s[j - 1])
  {
  }

  /** `erase`: remove the entry with key k, reporting whether there was one. */
  function Erase<E, K(==)>(s: seq<E>, k: K, key: E -> K, lt: (K, K) -> bool): (r: (bool, seq<E>))
    ensures r.0 <==> Find(s, k, key, lt).Some?
    ensures !r.0 ==> r.1 == s
    ensures r.0 ==> var i := Find(s, k, key, lt).value; r.1 == s[..i] + s[i + 1..]
  {
    var f := Find(s, k, key, lt);
    if f.Some? then (true, s[..f.value] + s[f.value + 1..]) else (false, s)
  }

  /** Erasing keeps the sequence sorted, removes the entry with key k and
      leaves every other lookup unchanged; it reports true exactly when an
      entry carried k. */
  lemma EraseLookup<E, K(!new)>(s: seq<E>, k: K, k2: K, key: E -> K, lt: (K, K) -> bool)
    requires Sorted(s, key, lt) && StrictOrder(lt)
    ensures Sorted(Erase(s, k, key, lt).1, key, lt)
    ensures Erase(s, k, key, lt).0 <==> exists j :: 0 <= j < |s| && key(s[j]) == k
    ensures Lookup(Erase(s, k, key, lt).1, k2, key, lt) == (if k2 == k then None else Lookup(s, k2, key, lt))
  {
    var r := Erase(s, k, key, lt);
    FindComplete(s, k, key, lt);
    LookupByContents(s, k2, key, lt);
    if r.0 {
      var i := Find(s, k, key, lt).value;
      var t := r.1;
      assert |t| == |s| - 1;
      assert forall j :: 0 <= j < i ==> t[j] == s[j];
      assert forall j :: i <= j < |t| ==> t[j] == s[j + 1];
      forall a, b | 0 <= a < b < |t| ensures lt(key(t[a]), key(t[b])) {
        var a', b' := if a < i then a else a + 1, if b < i then b else b + 1;
        assert t[a] == s[a'] && t[b] == s[b'];
      }
      LookupByContents(t, k2, key, lt);
      if k2 == k {
        forall j | 0 <= j < |t| ensures key(t[j]) != k {
          var j' := if j < i then j else j + 1;
          assert t[j] == s[j'];
          assert lt(key(s[i]), key(s[j'])) || lt(key(s[j']), key(s[i]));
        }
      } else if exists j :: 0 <= j < |s| && key(s[j]) == k2 {
        var j :| 0 <= j < |s| && key(s[j]) == k2;
        if j < i { assert t[j] == s[j]; } else { assert j != i; assert t[j - 1] == s[j]; }
      } else {
        forall j | 0 <= j < |t| ensures key(t[j]) != k2 {
          var j' := if j < i then j else j + 1;
          assert t[j] == s[j'];
        }
      }
    }
  }
}

=== FILE: unit.dfy ===
/** The run-time unit `dynamic_unit` (src/dim/unit.hpp): eight `int8_t`
    dimension exponents packed into one `uint64_t`, one byte per dimension,
    byte i at bits 8i..8i+7. Byte arithmetic is modelled with `/` and `%`
    by 256 instead of shifts and masks; `ByteAt` is `(code >> 8i) & 0xff`. */
module Units {
  import opened Int8

  /** Dimension positions, as the `dimension_order` enum lists them. */
  const Length: Dim := 0
  const Time: Dim := 1
  const Mass: Dim := 2
  const Angle: Dim := 3
  const Temperature: Dim := 4
  const Amount: Dim := 5
  const Current: Dim := 6
  const Luminosity: Dim := 7

  type Dim = i: int | 0 <= i < 8

  /** The eight exponents of a unit, in dimension order. */
  type Exps = s: seq<i8> | |s| == 8 witness [0, 0, 0, 0, 0, 0, 0, 0]

  const Two64: int := 0x1_0000_0000_0000_0000

  /** Values of a C++ `uint64_t`. */
  type u64 = x: int | 0 <= x < 0x1_0000_0000_0000_0000

  /** `dynamic_unit`: the packed code is its only state (`m_code`). */
  datatype DynUnit = DynUnit(code: u64)

  // ---------------------------------------------------------------------
  // Byte arithmetic on codes

  function Pow256(n: nat): (r: nat)
    ensures r > 0
  {
    if n == 0 then 1 else 256 * Pow256(n - 1)
  }

  lemma Pow256Eight()
    ensures Pow256(8) == Two64
  {
    assert Pow256(2) == 0x1_0000;
    assert Pow256(4) == 0x1_0000 * 0x1_0000 by { assert Pow256(4) == 256 * 256 * Pow256(2); }
    assert Pow256(6) == 0x1_0000 * Pow256(4) by { assert Pow256(6) == 256 * 256 * Pow256(4); }
    assert Pow256(8) == 0x1_0000 * Pow256(6) by { assert Pow256(8) == 256 * 256 * Pow256(6); }
  }

  /** Byte i of a code: `(code >> 8i) & 0xff`. */
  function ByteAt(code: nat, i: nat): (b: u8)
  {
    if i == 0 then code % 256 else ByteAt(code / 256, i - 1)
  }

  /** Little-endian packing: byte k of the result is bs[k]. The bytes do not
      overlap, so the `|` of shifted bytes in the source is this sum. */
  function Pack(bs: seq<u8>): (code: nat)
  {
    if |bs| == 0 then 0 else bs[0] + 256 * Pack(bs[1..])
  }

  /** The n low bytes of a code, lowest first. */
  function Unpack(code: nat, n: nat): (bs: seq<u8>)
    ensures |bs| == n
  {
    if n == 0 then [] else [code % 256] + Unpack(code / 256, n - 1)
  }

  /** A code with byte i replaced by b: the source zeroes byte i with the mask
      `~(0xff << 8i)` and then ors in `b << 8i`. */
  function Replace(code: nat, i: nat, b: u8): (r: nat)
  {
    if i == 0 then code - code % 256 + b
    else code % 256 + 256 * Replace(code / 256, i - 1, b)
  }

  lemma {:induction false} PackBound(bs: seq<u8>)
    ensures Pack(bs) < Pow256(|bs|)
  {
    if |bs| > 0 {
      PackBound(bs[1..]);
    }
  }

  /** A byte plus 256 times the rest splits back into the byte and the rest. */
  lemma SplitByte(c: int, b: int, rest: int)
    requires 0 <= b < 256 && c == b + 256 * rest
    ensures c % 256 == b && c / 256 == rest
  {
  }

  lemma PackHead(bs: seq<u8>)
    requires |bs| > 0
    ensures Pack(bs) % 256 == bs[0] && Pack(bs) / 256 == Pack(bs[1..])
  {
    SplitByte(Pack(bs), bs[0], Pack(bs[1..]));
  }

  lemma {:induction false} ByteAtPack(bs: seq<u8>, i: nat)
    requires i < |bs|
    ensures ByteAt(Pack(bs), i) == bs[i]
  {
    PackHead(bs);
    if i > 0 {
      ByteAtPack(bs[1..], i - 1);
    }
  }

  lemma {:induction false} UnpackPack(bs: seq<u8>)
    ensures Unpack(Pack(bs), |bs|) == bs
  {
    if |bs| > 0 {
      PackHead(bs);
      UnpackPack(bs[1..]);
      ConsTail(bs, Unpack(Pack(bs), |bs|));
    }
  }

  lemma ConsTail(a: seq<u8>, b: seq<u8>)
    requires |a| > 0 && |b| == |a| && a[0] == b[0] && a[1..] == b[1..]
    ensures a == b
  {
    assert a == [a[0]] + a[1..] && b == [b[0]] + b[1..];
  }

  lemma {:induction false} PackUnpack(code: nat, n: nat)
    requires code < Pow256(n)
    ensures Pack(Unpack(code, n)) == code
  {
    if n > 0 {
      var bs := Unpack(code, n);
      assert bs[1..] == Unpack(code / 256, n - 1);
      PackUnpack(code / 256, n - 1);
    }
  }

  lemma {:induction false} ByteAtUnpack(code: nat, n: nat, i: nat)
    requires i < n
    ensures Unpack(code, n)[i] == ByteAt(code, i)
  {
    if i > 0 {
      ByteAtUnpack(code / 256, n - 1, i - 1);
    }
  }

  lemma {:induction false} ReplaceBytes(code: nat, i: nat, b: u8, j: nat)
    ensures ByteAt(Replace(code, i, b), j) == if i == j then b else ByteAt(code, j)
  {
    var r := Replace(code, i, b);
    if i == 0 {
      assert r % 256 == b && r / 256 == code / 256;
    } else {
      assert r % 256 == code % 256 && r / 256 == Replace(code / 256, i - 1, b);
      if j > 0 {
        ReplaceBytes(code / 256, i - 1, b, j - 1);
      }
    }
  }

  lemma {:induction false} ReplaceBound(code: nat, n: nat, i: nat, b: u8)
    requires code < Pow256(n) && i < n
    ensures Replace(code, i, b) < Pow256(n)
  {
    if i > 0 {
      ReplaceBound(code / 256, n - 1, i - 1, b);
    }
  }

  /** Two codes below 256^n with the same n low bytes are equal. */
  lemma SameBytes(c1: nat, c2: nat, n: nat)
    requires c1 < Pow256(n) && c2 < Pow256(n)
    requires forall i :: 0 <= i < n ==> ByteAt(c1, i) == ByteAt(c2, i)
    ensures c1 == c2
  {
    assert Unpack(c1, n) == Unpack(c2, n) by {
      forall i | 0 <= i < n
        ensures Unpack(c1, n)[i] == Unpack(c2, n)[i]
      {
        ByteAtUnpack(c1, n, i);
        ByteAtUnpack(c2, n, i);
      }
    }
    PackUnpack(c1, n);
    PackUnpack(c2, n);
  }

  /** An eight-byte packing written out as the or of shifted bytes. */
  lemma PackEight(bs: seq<u8>)
    requires |bs| == 8
    ensures Pack(bs) == bs[0] + bs[1] as int * 0x100 + bs[2] as int * 0x1_0000 + bs[3] as int * 0x100_0000
                        + bs[4] as int * 0x1_0000_0000 + bs[5] as int * 0x100_0000_0000
                        + bs[6] as int * 0x1_0000_0000_0000 + bs[7] as int * 0x100_0000_0000_0000
  {
    assert Pack(bs[7..]) == bs[7] by { assert bs[7..][1..] == []; }
    assert Pack(bs[6..]) == bs[6] + 256 * Pack(bs[7..]) by { assert bs[6..][1..] == bs[7..]; }
    assert Pack(bs[5..]) == bs[5] + 256 * Pack(bs[6..]) by { assert bs[5..][1..] == bs[6..]; }
    assert Pack(bs[4..]) == bs[4] + 256 * Pack(bs[5..]) by { assert bs[4..][1..] == bs[5..]; }
    assert Pack(bs[3..]) == bs[3] + 256 * Pack(bs[4..]) by { assert bs[3..][1..] == bs[4..]; }
    assert Pack(bs[2..]) == bs[2] + 256 * Pack(bs[3..]) by { assert bs[2..][1..] == bs[3..]; }
    assert Pack(bs[1..]) == bs[1] + 256 * Pack(bs[2..]) by { assert bs[1..][1..] == bs[2..]; }
    assert Pack(bs[0..]) == bs[0] + 256 * Pack(bs[1..]) by { assert bs[0..][1..] == bs[1..]; }
    assert bs[0..] == bs;
  }

  // ---------------------------------------------------------------------
  // Construction and access

  /** The byte image of an exponent vector: `static_cast<uint8_t>` of each. */
  function ByteImage(e: Exps): (bs: seq<u8>)
    ensures |bs| == 8
    ensures forall i :: 0 <= i < 8 ==> ToSigned(bs[i]) == e[i]
  {
    seq(8, i requires 0 <= i < 8 => ToByte(e[i]))
  }

  /** The eight-exponent constructor: `scast(e[i], i)` or-ed together. */
  function Make(e: Exps): (u: DynUnit)
    ensures forall i: Dim :: GetByte(u, i) == e[i]
  {
    var bs := ByteImage(e);
    PackBound(bs);
    Pow256Eight();
    var u := DynUnit(Pack(bs));
    forall i: Dim ensures GetByte(u, i) == e[i] {
      ByteAtPack(bs, i);
    }
    u
  }

  /** `get_byte(i)`: byte i of the code read back as a signed exponent. */
  function GetByte(u: DynUnit, i: Dim): i8
  {
    ToSigned(ByteAt(u.code, i))
  }

  /** `get(i)`: out-of-range indices are clamped to the last dimension. */
  function Get(u: DynUnit, i: u8): (r: i8)
    ensures i < 8 ==> r == GetByte(u, i)
    ensures i >= 8 ==> r == GetByte(u, Luminosity)
  {
    GetByte(u, if i < 7 then i else 7)
  }

  /** `set_byte(i, b)`: the setters `length(b)`, `time(b)`, ... each replace
      one byte and leave every other dimension as it was. */
  function SetByte(u: DynUnit, i: Dim, b: i8): (r: DynUnit)
    ensures GetByte(r, i) == b
    ensures forall j: Dim :: j != i ==> GetByte(r, j) == GetByte(u, j)
  {
    Pow256Eight();
    ReplaceBound(u.code, 8, i, ToByte(b));
    var r := DynUnit(Replace(u.code, i, ToByte(b)));
    ReplaceBytes(u.code, i, ToByte(b), i);
    forall j: Dim | j != i ensures GetByte(r, j) == GetByte(u, j) {
      ReplaceBytes(u.code, i, ToByte(b), j);
    }
    r
  }

  /** The exponent vector a unit encodes: each exponent's byte image is the
      corresponding byte of the code, so constructing from the vector gives
      the unit back. */
  function Exponents(u: DynUnit): (e: Exps)
    ensures forall i: Dim :: ToByte(e[i]) == ByteAt(u.code, i)
    ensures Make(e) == u
  {
    var e := seq(8, i requires 0 <= i < 8 => GetByte(u, i));
    forall i: Dim ensures ToByte(e[i]) == ByteAt(u.code, i) {
      SignedByteRoundTrip(0, ByteAt(u.code, i));
    }
    Extensionality(Make(e), u);
    e
  }

  /** A unit is determined by its eight exponents. */
  lemma Extensionality(a: DynUnit, b: DynUnit)
    requires forall i: Dim :: GetByte(a, i) == GetByte(b, i)
    ensures a == b
  {
    forall i | 0 <= i < 8 ensures ByteAt(a.code, i) == ByteAt(b.code, i) {
      assert GetByte(a, i) == GetByte(b, i);
      SignedByteRoundTrip(0, ByteAt(a.code, i));
      SignedByteRoundTrip(0, ByteAt(b.code, i));
    }
    Pow256Eight();
    SameBytes(a.code, b.code, 8);
  }

  /** Packing and unpacking the exponents are inverse to each other. */
  lemma MakeExponents(u: DynUnit, e: Exps)
    ensures Make(Exponents(u)) == u
    ensures Exponents(Make(e)) == e
  {
    Extensionality(Make(Exponents(u)), u);
  }

  /** `dynamic_unit(u.raw()) == u`: the code round-trips through `raw()`,
      and the eight-exponent constructor is injective. */
  lemma RawRoundTrip(u: DynUnit, e1: Exps, e2: Exps)
    ensures DynUnit(Raw(u)) == u
    ensures Make(e1) == Make(e2) <==> e1 == e2
  {
    if Make(e1) == Make(e2) {
      MakeExponents(u, e1);
      MakeExponents(u, e2);
    }
  }

  /** `raw()`: the packed code. */
  function Raw(u: DynUnit): (r: u64)
    ensures forall i: Dim :: ByteAt(r, i) == ToByte(GetByte(u, i))
  {
    forall i: Dim ensures ByteAt(u.code, i) == ToByte(GetByte(u, i)) {
      SignedByteRoundTrip(0, ByteAt(u.code, i));
    }
    u.code
  }

  // ---------------------------------------------------------------------
  // Comparison (on the raw code)

  predicate Less(a: DynUnit, b: DynUnit) { a.code < b.code }
  predicate Equal(a: DynUnit, b: DynUnit) { a.code == b.code }
  predicate NotEqual(a: DynUnit, b: DynUnit) { !Equal(a, b) }
  predicate Greater(a: DynUnit, b: DynUnit) { Less(b, a) }
  predicate LessEq(a: DynUnit, b: DynUnit) { !Less(b, a) }
  predicate GreaterEq(a: DynUnit, b: DynUnit) { !Less(a, b) }

  /** `==` is equality of exponent vectors, and `<` is a strict total order
      that the derived operators agree with. */
  lemma OrderFacts(a: DynUnit, b: DynUnit, c: DynUnit)
    ensures Equal(a, b) <==> Exponents(a) == Exponents(b)
    ensures !Less(a, a)
    ensures Less(a, b) && Less(b, c) ==> Less(a, c)
    ensures Less(a, b) || Equal(a, b) || Less(b, a)
    ensures !(Less(a, b) && Less(b, a))
    ensures LessEq(a, b) <==> Less(a, b) || Equal(a, b)
    ensures GreaterEq(a, b) <==> Greater(a, b) || Equal(a, b)
    ensures NotEqual(a, b) <==> Less(a, b) || Greater(a, b)
  {
    if Exponents(a) == Exponents(b) {
      MakeExponents(a, Exponents(a));
      MakeExponents(b, Exponents(b));
    }
  }

  // ---------------------------------------------------------------------
  // Special values

  /** `dimensionless()`: code 0. */
  const Dimensionless: DynUnit := DynUnit(0)

  /** `bad_unit()`: code `~0`, every bit set. */
  const BadUnit: DynUnit := DynUnit(Two64 - 1)

  predicate IsBad(u: DynUnit) { Equal(u, BadUnit) }

  lemma {:induction false} ZeroBytes(i: nat)
    ensures ByteAt(0, i) == 0
  {
    if i > 0 { ZeroBytes(i - 1); }
  }

  lemma {:induction false} OnesBytes(n: nat, i: nat)
    requires i < n
    ensures ByteAt(Pow256(n) - 1, i) == 255
  {
    var c := Pow256(n) - 1;
    assert c % 256 == 255 && c / 256 == Pow256(n - 1) - 1 by {
      assert c == 255 + 256 * (Pow256(n - 1) - 1);
    }
    if i > 0 { OnesBytes(n - 1, i - 1); }
  }

  /** The dimensionless unit is the all-zero exponent vector. */
  lemma DimensionlessExponents(u: DynUnit)
    ensures Exponents(Dimensionless) == [0, 0, 0, 0, 0, 0, 0, 0]
    ensures u == Dimensionless <==> forall i: Dim :: GetByte(u, i) == 0
  {
    forall i: Dim ensures GetByte(Dimensionless, i) == 0 { ZeroBytes(i); }
    if forall i: Dim :: GetByte(u, i) == 0 {
      Extensionality(u, Dimensionless);
    }
  }

  /** `is_bad()` holds exactly when all eight exponents are -1: the sentinel
      is the unit with every dimension at -1. */
  lemma BadIsAllMinusOne(u: DynUnit)
    ensures Exponents(BadUnit) == [-1, -1, -1, -1, -1, -1, -1, -1]
    ensures IsBad(u) <==> forall i: Dim :: GetByte(u, i) == -1
    ensures Make([-1, -1, -1, -1, -1, -1, -1, -1]) == BadUnit
  {
    BadBytes();
    if forall i: Dim :: GetByte(u, i) == -1 {
      Extensionality(u, BadUnit);
    }
    MakeAllMinusOne();
  }

  lemma BadBytes()
    ensures forall i: Dim :: GetByte(BadUnit, i) == -1
  {
    Pow256Eight();
    forall i: Dim ensures GetByte(BadUnit, i) == -1 { OnesBytes(8, i); }
  }

  lemma MakeAllMinusOne()
    ensures Make([-1, -1, -1, -1, -1, -1, -1, -1]) == BadUnit
  {
    BadBytes();
    Extensionality(Make([-1, -1, -1, -1, -1, -1, -1, -1]), BadUnit);
  }

  // ---------------------------------------------------------------------
  // Arithmetic

  /** `multiply`: per-byte sums, each wrapped to `int8_t`, so no carry
      reaches a neighbouring dimension. */
  function Multiply(a: DynUnit, b: DynUnit): (r: DynUnit)
  {
    Make(seq(8, i requires 0 <= i < 8 => Wrap8(GetByte(a, i) + GetByte(b, i))))
  }

  /** `inverse`: every exponent negated, with the `int8_t` cast. */
  function Inverse(u: DynUnit): (r: DynUnit)
  {
    Make(seq(8, i requires 0 <= i < 8 => Wrap8(-(GetByte(u, i) as int))))
  }

  /** `pow(u, n)`: every exponent multiplied by n, truncated to `int8_t`.
      The `int` product may wrap at 32 bits first; 2^32 is a multiple of
      256, so the final byte is the same. */
  function Pow(u: DynUnit, n: int): (r: DynUnit)
  {
    Make(seq(8, i requires 0 <= i < 8 => Wrap8(n * GetByte(u, i))))
  }

  lemma MultiplyExponents(a: DynUnit, b: DynUnit, i: Dim)
    ensures GetByte(Multiply(a, b), i) == Wrap8(GetByte(a, i) + GetByte(b, i))
    ensures GetByte(Inverse(a), i) == Wrap8(-(GetByte(a, i) as int))
  {
  }

  /** Multiplication of units is commutative. */
  lemma MultiplyCommutes(a: DynUnit, b: DynUnit)
    ensures Multiply(a, b) == Multiply(b, a)
  {
    Extensionality(Multiply(a, b), Multiply(b, a));
  }

  lemma MultiplyAssociatesAt(a: DynUnit, b: DynUnit, c: DynUnit, i: Dim)
    ensures GetByte(Multiply(Multiply(a, b), c), i) == GetByte(Multiply(a, Multiply(b, c)), i)
  {
    var ab, bc := Multiply(a, b), Multiply(b, c);
    MultiplyExponents(a, b, i);
    MultiplyExponents(b, c, i);
    MultiplyExponents(ab, c, i);
    MultiplyExponents(a, bc, i);
    WrapAssociates(GetByte(a, i), GetByte(b, i), GetByte(c, i));
  }

  /** Multiplication of units is associative: wrapping each byte sum does
      not disturb the regrouping. */
  lemma MultiplyAssociates(a: DynUnit, b: DynUnit, c: DynUnit)
    ensures Multiply(Multiply(a, b), c) == Multiply(a, Multiply(b, c))
  {
    forall i: Dim
      ensures GetByte(Multiply(Multiply(a, b), c), i) == GetByte(Multiply(a, Multiply(b, c)), i)
    {
      MultiplyAssociatesAt(a, b, c, i);
    }
    Extensionality(Multiply(Multiply(a, b), c), Multiply(a, Multiply(b, c)));
  }

  /** The dimensionless unit is the identity of multiply. */
  lemma MultiplyIdentity(a: DynUnit)
    ensures Multiply(a, Dimensionless) == a
  {
    DimensionlessExponents(a);
    Extensionality(Multiply(a, Dimensionless), a);
  }

  /** `u.multiply(inverse(u)) == dimensionless()` for every u, including
      exponents of -128, whose negation wraps to itself; and inverting twice
      gives u back. */
  lemma MultiplyInverse(a: DynUnit)
    ensures Multiply(a, Inverse(a)) == Dimensionless
    ensures Inverse(Inverse(a)) == a
  {
    TimesInverse(a);
    InverseTwice(a);
  }

  lemma TimesInverse(a: DynUnit)
    ensures Multiply(a, Inverse(a)) == Dimensionless
  {
    DimensionlessExponents(a);
    forall i: Dim ensures GetByte(Multiply(a, Inverse(a)), i) == 0 {
      MultiplyExponents(a, Inverse(a), i);
      WrapNegate(GetByte(a, i));
    }
    Extensionality(Multiply(a, Inverse(a)), Dimensionless);
  }

  lemma InverseTwice(a: DynUnit)
    ensures Inverse(Inverse(a)) == a
  {
    forall i: Dim ensures GetByte(Inverse(Inverse(a)), i) == GetByte(a, i) {
      MultiplyExponents(Inverse(a), a, i);
      MultiplyExponents(a, a, i);
      WrapNegate(GetByte(a, i));
    }
    Extensionality(Inverse(Inverse(a)), a);
  }

  /** a times the inverse of b is dimensionless exactly when a == b. */
  lemma QuotientDimensionless(a: DynUnit, b: DynUnit)
    ensures Multiply(a, Inverse(b)) == Dimensionless <==> a == b
  {
    MultiplyInverse(b);
    if Multiply(a, Inverse(b)) == Dimensionless {
      calc {
        a;
        { MultiplyIdentity(a); }
        Multiply(a, Dimensionless);
        { MultiplyInverse(Inverse(b)); }
        Multiply(a, Multiply(Inverse(b), Inverse(Inverse(b))));
        { MultiplyAssociates(a, Inverse(b), b); }
        Multiply(Dimensionless, b);
        { MultiplyCommutes(Dimensionless, b); MultiplyIdentity(b); }
        b;
      }
    }
  }

  /** `pow` turns addition of exponents into multiplication of units. */
  lemma PowAdd(u: DynUnit, m: int, n: int)
    ensures Pow(u, m + n) == Multiply(Pow(u, m), Pow(u, n))
  {
    forall i: Dim
      ensures GetByte(Pow(u, m + n), i) == GetByte(Multiply(Pow(u, m), Pow(u, n)), i)
    {
      var x := GetByte(u, i);
      assert (m + n) * x == m * x + n * x;
      WrapAdd(m * x, n * x);
    }
    Extensionality(Pow(u, m + n), Multiply(Pow(u, m), Pow(u, n)));
  }

  /** Power 1 is the identity, power -1 is `inverse`, and power 0 gives the
      dimensionless unit. */
  lemma PowSmall(u: DynUnit)
    ensures Pow(u, 1) == u
    ensures Pow(u, -1) == Inverse(u)
    ensures Pow(u, 0) == Dimensionless
  {
    DimensionlessExponents(u);
    Extensionality(Pow(u, 1), u);
    Extensionality(Pow(u, -1), Inverse(u));
    Extensionality(Pow(u, 0), Dimensionless);
  }
}
